=== FILE: README.md ===
# A Dafny model of the interactive parts of a portfolio site

The site is a React portfolio. Its logic is spread over several components, and each one is modelled in its own module:

- **Text reader** (`Voices`, `Upload`, `ReaderSession`):
  - orders the browser's speech voices (Google-US voice first, then other Google, Microsoft, English and the rest);
  - picks a voice automatically;
  - validates stored rate and pitch;
  - tracks playback with `playing`/`paused` flags;
  - loads text from uploaded PDF, Word and plain-text files.
- **Daily updates and progress preview** (`DailyUpdates`, `ProgressPreview`):
  - a naive CSV parser for a published sheet;
  - a status-to-badge classifier;
  - a rewriter that turns any sheet URL into an embeddable preview URL.
- **Canvas backgrounds** (`Goo`, `Neural`, `Particles`):
  - node counts and seeding;
  - the connection graphs;
  - the bounce, clamp and wrap steps;
  - the truncation of the activated-node set;
  - which lines are drawn.
- **Theme** (`Theme`):
  - the provider's initial theme;
  - the effect that applies the theme to the root element and persists it;
  - the dark-mode switch.
- **Header, project cards, contact form, scroll bar and tilting cards** (`Header`, `ProjectCard`, `Contact`, `ScrollProgress`, `AnimatedCard`):
  - route highlighting and the mobile menu;
  - icon classification;
  - the simulated send cycle of the contact form;
  - the reading-progress formula;
  - the tilt formula.

Shared modules:

- `Strings`: JavaScript's `trim`, `split`, `join`, `includes`, `startsWith`, `toLowerCase` and `/…/i` matching, on sequences of Unicode scalar values.
- `Options`: an option type.
- `Counting`: distinctness and pigeonhole facts.
- `Random`: `Math.random()` draws in [0, 1).
- `Storage`: `localStorage` as a string map.

Everything the browser supplies is an input:

- random draws;
- `Math.sqrt` distances;
- `atan2`/`cos`/`sin` directions;
- `parseFloat` and number printing;
- the speech engine's callbacks;
- the PDF and Word extractors;
- the `prefers-color-scheme` media query.

JavaScript numbers are modelled as `real`.

The application mounts the theme provider with `defaultTheme="dark"` and `disableToggle={true}` (src/App.tsx:21). `Theme.DisabledStaysDark` states what that means: the page is dark whatever happens to the switch.

Two behaviours of the code are worth knowing before reading the model:

- With nothing selected, the reader picks the Google-US voice even when a different voice name is saved (`Voices.AutoSelect`).
- The reader speaks the whole text at once. A rate or pitch change applies to the next utterance only, and a PDF without a text layer yields no text (`Upload.EmptyPdfHasNoText`).

## Model

| member | source | states |
|---|---|---|
| Strings.Trim | src/components/TextReader.tsx:145 | the result is the input with its blank ends removed (a slice of it, blank exactly when the input is) and has no white space at either end |
| Strings.TrimIdempotent | src/components/projects/DailyUpdates.tsx:34 | trimming twice equals trimming once |
| Strings.ToLower | src/components/projects/DailyUpdates.tsx:58 | lower-casing leaves no ASCII capital and at most doubles the length |
| Strings.LowerUnit | src/components/projects/DailyUpdates.tsx:58 | one character lower-cases to one or two: A-Z to a-z, other ASCII kept |
| Strings.ToLowerAscii | src/components/projects/DailyUpdates.tsx:58 | on ASCII text, lower-casing maps each A-Z to its a-z at the same position and keeps every other character |
| Strings.ToLowerIdempotent | src/components/projects/DailyUpdates.tsx:58 | lower-casing twice equals lower-casing once |
| Strings.Split | src/components/projects/DailyUpdates.tsx:30-34 | splitting yields at least one piece and no piece holds the separator |
| Strings.SplitJoin | src/components/projects/DailyUpdates.tsx:30-34 | joining the pieces of a split with the same separator gives back the input |
| Strings.JoinSplit | src/components/TextReader.tsx:212-215 | splitting a join of separator-free pieces gives back the pieces |
| Strings.RemoveAll | src/components/projects/DailyUpdates.tsx:34 | `replace(/"/g, '')` leaves no quote and keeps every other character with its multiplicity |
| Voices.GoogleUsHasGoogle | src/components/TextReader.tsx:75-84 | every voice the Google-US rule accepts also has "google" in its name, so it belongs to the Google family |
| Voices.FirstGoogleUs | src/components/TextReader.tsx:75-78 | `find` returns the first index accepted by the Google-US rule, or none exactly when no voice is accepted |
| Voices.FilterIndices | src/components/TextReader.tsx:82-97 | `filter` keeps exactly the accepted indices, in increasing order |
| Voices.GroupsAreGroups | src/components/TextReader.tsx:81-97 | each of the five lists holds exactly the voices of one group, defined independently by the voice's first matching rule |
| Voices.OrderIsStableGroupSort | src/components/TextReader.tsx:71-100 | the ordered list is a permutation of the engine's indices, sorted by group with engine order kept inside a group |
| Voices.OrderVoicesFacts | src/components/TextReader.tsx:71-100 | every engine voice appears in the ordered list exactly once, and a Google-US voice, when there is one, comes first |
| Voices.AutoSelect | src/components/TextReader.tsx:109-127 | the priority rule: Google-US voice when nothing is selected, else a saved name that is listed, else the first voice when nothing is selected, else no change; an empty list changes nothing |
| Voices.ChoiceFacts | src/components/TextReader.tsx:102-128 | whatever `updateVoices` chooses is an engine voice's name; with an empty selection it always chooses, the first Google-US voice if any; with a selection it chooses only the saved name |
| Voices.PreferredWinsWhenUnselected | src/components/TextReader.tsx:111-118 | with nothing selected the engine's first Google-US voice is chosen even over a saved name, and it heads the list |
| Voices.UserChoiceKept | src/components/TextReader.tsx:102-128 | reading the live selection, a voice the user picked and that is listed stays selected |
| Voices.StaleSelectionOverridesUserChoice | src/components/TextReader.tsx:102-142 | as written (selection read from the mount-time closure), whenever the engine lists a Google-US voice a later `voiceschanged` replaces any other voice the user picked, while reading the live selection keeps the pick |
| Voices.GoogleUsEnglishIsPreferred | src/components/TextReader.tsx:75-78 | "Google US English" with language en-US passes the Google-US rule, so in `[Google US English, Alex]` the user's "Alex" is overridden |
| ReaderSession.AdoptStored | src/components/TextReader.tsx:47-62 | a stored value replaces the current one exactly when it is present, non-empty, parses, and lies in the range; otherwise the value is kept (no clamping) |
| ReaderSession.LoadSettings | src/components/TextReader.tsx:46-63 | after loading, rate and pitch are either unchanged or inside [0.5, 1.4] and [0.5, 1.5], and nothing else changes |
| ReaderSession.Initial | src/components/TextReader.tsx:15-21 | the reader starts with empty text, no voices, nothing selected, rate 1, pitch 1, not playing and not paused, with the given storage and engine |
| ReaderSession.ChooseVoice | src/components/TextReader.tsx:27-31 | choosing a voice selects it and stores it under "voiceName", leaving other keys alone |
| ReaderSession.ChooseRate | src/components/TextReader.tsx:34-37 | moving the rate slider sets the rate and stores its printed form under "speechRate", leaving other keys alone |
| ReaderSession.ChoosePitch | src/components/TextReader.tsx:40-43 | moving the pitch slider sets the pitch and stores its printed form under "speechPitch", leaving other keys alone |
| ReaderSession.SettingsSurviveReload | src/components/TextReader.tsx:34-63 | a rate and pitch set on the sliders are adopted again by the next mount (round trip through storage) |
| ReaderSession.FindVoice | src/components/TextReader.tsx:151 | the voice found is the first listed voice with the selected name; none is found only when no listed voice has that name |
| ReaderSession.SpeakPressed | src/components/TextReader.tsx:144-179 | blank text or no engine does nothing; otherwise `cancel` then `speak` of the whole text with the chosen rate, pitch and the first listed voice of that name, flags untouched |
| ReaderSession.PausePressed | src/components/TextReader.tsx:181-186 | pausing takes effect only while playing |
| ReaderSession.ResumePressed | src/components/TextReader.tsx:188-193 | resuming takes effect only while paused |
| ReaderSession.StopPressed | src/components/TextReader.tsx:195-201 | stopping cancels the engine and clears both flags |
| ReaderSession.ArrivedSelection | src/components/TextReader.tsx:109-127 | the selection after `updateVoices` is the old one or an engine voice's name; as written, or with nothing selected, a non-empty list always yields a listed name, the first Google-US voice if there is one; reading a live non-empty selection, it changes only to the saved name |
| ReaderSession.VoicesArrive | src/components/TextReader.tsx:102-142 | `voiceschanged` replaces the voices by the engine's list in the grouped order `OrderVoices` gives, and changes only the selection; as written a listed Google-US voice always becomes the selection, and reading the live selection a non-empty pick is kept or replaced only by the saved name |
| ReaderSession.Next | src/components/TextReader.tsx:133-410 | each of the four buttons runs its own handler; `onstart` sets playing and unpaused and `onend` and `onerror` clear both flags, touching nothing else; the voice, rate and pitch controls run their handlers; typing or an upload replaces the text and nothing else; only the buttons talk to the engine; `voiceschanged` runs the handler as written or, with the live flag, the corrected one |
| ReaderSession.NextKeepsConsistent | src/components/TextReader.tsx:162-201 | no event breaks "paused implies playing" |
| ReaderSession.RunInvariants | src/components/TextReader.tsx:144-201 | over any run, "paused implies playing" holds throughout and every `speak` is immediately preceded by `cancel` |
| ReaderSession.StopIdempotent | src/components/TextReader.tsx:195-201 | stopping twice equals stopping once, and stopping an idle reader leaves it as it was |
| ReaderSession.ButtonsGuarded | src/components/TextReader.tsx:181-193 | pause without playing and resume without pausing change nothing; resume then pause returns to the paused state |
| Upload.ExtractPdfText | src/components/TextReader.tsx:203-218 | the page loop computes the trimmed concatenation of each page's text followed by a newline |
| Upload.PagesRecoverable | src/components/TextReader.tsx:209-216 | when no page's text holds a newline, the untrimmed text splits back into exactly the page texts, each page's items joined by single spaces |
| Upload.Extract | src/components/TextReader.tsx:203-273 | MIME dispatch: the three reader kinds yield their text, a reader that fails yields its own failure (PDF, Word, plain read), and any other type is refused as unsupported |
| Upload.HandleUpload | src/components/TextReader.tsx:236-278 | no file does nothing; over 10 MiB is refused; a non-blank extracted string is loaded as the text, a blank one is refused as having no text, and a reader failure is reported with the text left alone |
| Upload.RefusedWithoutReading | src/components/TextReader.tsx:241-264 | oversized and unsupported files are refused whatever they contain, with the text unchanged |
| Upload.ReplacedIffNonBlank | src/components/TextReader.tsx:266-271 | a file of acceptable size is loaded exactly when extraction succeeds with a non-blank string |
| Upload.EmptyPdfHasNoText | src/components/TextReader.tsx:209-271 | a PDF without a text layer is reported as having no text (there is no OCR fallback) |
| Upload.PlainTextLoadedVerbatim | src/components/TextReader.tsx:258-268 | a non-blank plain-text file is loaded as it is, untrimmed |
| DailyUpdates.Field | src/components/projects/DailyUpdates.tsx:34 | a cell is the trimmed raw cell with every double quote taken out and every other character kept, with its multiplicity |
| DailyUpdates.ParseRow | src/components/projects/DailyUpdates.tsx:33-40 | cells 0-3 of a comma split become date, status, task and description; missing cells are empty and extra cells are ignored |
| DailyUpdates.KeepValid | src/components/projects/DailyUpdates.tsx:42 | the kept updates are exactly the inputs with a non-empty date and task, each as often as in the input |
| DailyUpdates.KeepValidIsSubsequence | src/components/projects/DailyUpdates.tsx:42 | filtering keeps the input order |
| DailyUpdates.DataRows | src/components/projects/DailyUpdates.tsx:30-32 | the rows examined are the first five lines after the header, or all of them when there are fewer |
| DailyUpdates.ParsedRows | src/components/projects/DailyUpdates.tsx:33-41 | each examined row becomes one update, in row order |
| DailyUpdates.ParseUpdatesSpec | src/components/projects/DailyUpdates.tsx:30-42 | the result is the valid updates among the first five lines after the header, in order and with their multiplicities; later rows are never looked at |
| DailyUpdates.UpdatesUnquoted | src/components/projects/DailyUpdates.tsx:34-42 | no date in the result holds a double quote |
| DailyUpdates.HeaderIgnored | src/components/projects/DailyUpdates.tsx:30 | two inputs that differ only in their first line parse alike |
| DailyUpdates.QuotesAreNotHonoured | src/components/projects/DailyUpdates.tsx:34 | a comma inside a quoted cell splits it, shifting the later cells (the quoting rule of RFC 4180 section 2 rule 6 is not followed) |
| DailyUpdates.QuotedPaddingKept | src/components/projects/DailyUpdates.tsx:34 | trimming happens before quote removal, so spaces inside quotes survive |
| DailyUpdates.StatusColorOf | src/components/projects/DailyUpdates.tsx:57-68 | green exactly for complete/done, blue exactly for progress/working without those, yellow exactly for testing/review without any of those, and the default exactly when none of the six keywords occurs |
| DailyUpdates.StatusColorIgnoresCase | src/components/projects/DailyUpdates.tsx:58 | a status and its lower-cased form get the same colour |
| ProgressPreview.FirstMatchFrom | src/components/projects/ProgressPreview.tsx:12 | the regex search finds the leftmost "spreadsheets/d/" followed by an id character |
| ProgressPreview.IdRunExact | src/components/projects/ProgressPreview.tsx:12 | the captured run is the maximal run of `[A-Za-z0-9_-]` |
| ProgressPreview.CaptureUnique | src/components/projects/ProgressPreview.tsx:12-14 | a URL has at most one capture, so the sheet id is well defined |
| ProgressPreview.PreviewUrl | src/components/projects/ProgressPreview.tsx:11-18 | without a match the URL is returned unchanged; with one the result is the fixed prefix, the id and the fixed suffix |
| ProgressPreview.MatchHasCapture | src/components/projects/ProgressPreview.tsx:12-13 | whenever the pattern occurs anywhere, there is a leftmost match with a non-empty id |
| ProgressPreview.RewrittenMatch | src/components/projects/ProgressPreview.tsx:15 | a rewritten URL captures the same id at the same place |
| ProgressPreview.PreviewUrlIdempotent | src/components/projects/ProgressPreview.tsx:11-18 | rewriting a rewritten URL changes nothing |
| Counting.CappedQuotient | src/components/GooBackground.tsx:51 | the node count is the number of whole 80 px steps in the width, capped at 35 (the neural canvas, NeuralBackground.tsx line 40, uses 100 px and 30) |
| Goo.MakeNode | src/components/GooBackground.tsx:55-68 | a new node sits on the canvas with its target at its position, speed under 0.25 per axis, radius in [3, 8), hue 190 or 200, no connections |
| Goo.ConnectionCount | src/components/GooBackground.tsx:74 | one to three connections, with the thresholds 1/3 and 2/3 on the draw |
| Goo.DrawIndex | src/components/GooBackground.tsx:80 | a draw scaled by n and floored names an index below n |
| Goo.PickAsWritten | src/components/GooBackground.tsx:78-81 | the loop exits only on a node other than itself that is not yet a target |
| Goo.ConnectAsWritten | src/components/GooBackground.tsx:76-84 | a finished run appends `count` targets and keeps the connections well formed |
| Goo.WellFormedBound | src/components/GooBackground.tsx:78-83 | distinct targets other than the node itself number at most n - 1 |
| Goo.FinishingDraws | src/components/GooBackground.tsx:76-84 | with room for `count` more targets, one draw naming a free node per connection makes the loop finish |
| Goo.CanFinish | src/components/GooBackground.tsx:76-84 | with room for `count` more targets, some draws let the loop finish |
| Goo.ConnectTerminatesIff | src/components/GooBackground.tsx:76-83 | the rejection loop can exit exactly when `count <= n - 1`; otherwise no draws end it |
| Goo.Candidates | src/components/GooBackground.tsx:78-81 | the candidate list is exactly the free other nodes below the bound |
| Goo.Pick | src/components/GooBackground.tsx:78-83 | one draw names a free other node, without rejection |
| Goo.Connect | src/components/GooBackground.tsx:72-85 | the corrected loop gives `min(count, n - 1)` distinct targets, none the node itself |
| Goo.InitNodes | src/components/GooBackground.tsx:49-88 | the corrected initialisation: `NodeCount` nodes, each seeded from its draws, with well-formed connections numbering `min(count, n - 1)` |
| Goo.ConnectionsInRange | src/components/GooBackground.tsx:74 | with four or more nodes every node gets one to three connections |
| Goo.InitAsWritten | src/components/GooBackground.tsx:49-88 | the initialisation as written finishes exactly when every node's rejection loop exits on its draws; then it has `NodeCount` nodes, each seeded from its own draws, with well-formed connections, as many as its count draw asked for |
| Goo.NarrowWindowHasNoNodes | src/components/GooBackground.tsx:51-85 | below 80 px there are no nodes and both loops are empty |
| Goo.SingleNodeHangs | src/components/GooBackground.tsx:51-83 | at 80-159 px the single node can never find a target, whatever the draws |
| Goo.FewNodesCanHang | src/components/GooBackground.tsx:51-83 | at 80-319 px a first node asking for three connections never finishes |
| Goo.AsWrittenFinishedHadRoom | src/components/GooBackground.tsx:72-85 | a finished initialisation as written had room for every node's count |
| Goo.MouseForce | src/components/GooBackground.tsx:106-117 | the pull lies in [0, 2] and is non-zero exactly when pressed within 200 or near within 150 |
| Goo.PressingStrengthensPull | src/components/GooBackground.tsx:106-117 | pressing the button never weakens the pull |
| Goo.Bounce | src/components/GooBackground.tsx:136-150 | a bounce puts the coordinate exactly on the violated bound and multiplies that axis's velocity by -0.7; the result lies within [r, limit - r] when the canvas is wide enough |
| Goo.UpdateNode | src/components/GooBackground.tsx:97-156 | on each axis the velocity gets the pointer's pull, the spring toward the target and the 0.95 friction, and the moved coordinate is bounced off the margins; connections, radius and hue are kept and the node stays inside the margins; it retargets exactly when the chance draw is below 0.001 |
| Goo.Retargeted | src/components/GooBackground.tsx:152-156 | a chance draw below 0.001 moves the target to the drawn fractions of the canvas size; otherwise the old target is kept |
| Goo.RetargetOnCanvas | src/components/GooBackground.tsx:152-156 | a fresh target lies on the canvas, and a target already on the canvas stays there |
| Goo.TargetsStayOnCanvas | src/components/GooBackground.tsx:97-156 | after a whole animation step the node's target is still on the canvas |
| Goo.SpringMovesTowardTarget | src/components/GooBackground.tsx:119-133 | a resting node away from the pointer moves toward its target without overshooting it |
| Goo.UpdateNodes | src/components/GooBackground.tsx:90-158 | every node takes its own `UpdateNode` step; the node count and every connection list are kept and every node lands inside its margins |
| Goo.UpdateKeepsGraph | src/components/GooBackground.tsx:90-158 | the connection graph stays well formed across updates |
| Goo.EdgesOf | src/components/GooBackground.tsx:167-176 | one node's stroked edges are exactly its connections closer than 250 |
| Goo.DrawnEdges | src/components/GooBackground.tsx:166-199 | the stroked edges are exactly the connections whose endpoints are closer than 250 |
| Neural.MakeNode | src/components/NeuralBackground.tsx:45-51 | a new node sits on the canvas with speed under 0.25 per axis and radius in [2, 5) |
| Neural.RowFrom | src/components/NeuralBackground.tsx:57-66 | the inner loop records only close pairs `(i, j)` with `j > i`, in increasing `j`, with strength `1 - d / r` |
| Neural.RowFromSpec | src/components/NeuralBackground.tsx:57-66 | the inner loop links `(i, j)` exactly when the pair is closer than the radius |
| Neural.PairsFromSpec | src/components/NeuralBackground.tsx:56-67 | the outer loop links exactly the close pairs `i < j` |
| Neural.Connections | src/components/NeuralBackground.tsx:54-67 | a pair `i < j` is connected exactly when closer than a quarter of the width, in loop order, with strength in (0, 1] |
| Neural.ConnectionsUnique | src/components/NeuralBackground.tsx:56-57 | no pair is recorded twice |
| Neural.StrengthInRange | src/components/NeuralBackground.tsx:63 | a recorded pair's strength `1 - d / r` lies in (0, 1] |
| Neural.Axis | src/components/NeuralBackground.tsx:84-93 | a moved coordinate outside the canvas has its velocity negated and is clamped back; inside nothing changes |
| Neural.Add | src/components/NeuralBackground.tsx:102 | adding to the set keeps first-insertion order and never duplicates |
| Neural.UpdateNode | src/components/NeuralBackground.tsx:82-117 | the node moves by its velocity and is clamped to the canvas, its velocity flipped on an axis where it left the canvas; within 100 of the pointer it is activated and takes the pointer-driven velocity; the radius is kept |
| Neural.UpdateFrom | src/components/NeuralBackground.tsx:82-117 | the activation set in insertion order is the earlier activations followed by the newly reached indices in index order; it holds exactly the earlier activations and the nodes within reach, without repetition |
| Neural.ReachedSpec | src/components/NeuralBackground.tsx:82-103 | a pass adds exactly the reached indices not yet in the set, each once, in increasing index order |
| Neural.AppendReached | src/components/NeuralBackground.tsx:82-103 | appending a pass's additions keeps the set free of repetitions and adds exactly the reached nodes |
| Neural.StepIgnoresSet | src/components/NeuralBackground.tsx:82-93 | a node's movement does not depend on which nodes are active |
| Neural.Steps | src/components/NeuralBackground.tsx:82-93 | every node of a pass takes its own step |
| Neural.UpdateFromMoves | src/components/NeuralBackground.tsx:82-117 | the nodes after a pass are the nodes' own steps, whatever the activation set held |
| Neural.KeepRecent | src/components/NeuralBackground.tsx:166-170 | the fade keeps the last five activations in order, or all of them when there are at most five |
| Neural.Frame | src/components/NeuralBackground.tsx:77-170 | a frame steps every node on its own, never touches the connections, keeps nodes on the canvas, and keeps the last five of the earlier activations followed by the newly reached ones |
| Neural.FrameKeepsRecent | src/components/NeuralBackground.tsx:166-170 | the kept activations are the tail of the insertion order, and none is dropped when at most five are active |
| Neural.LineAlpha | src/components/NeuralBackground.tsx:128-138 | a line's opacity lies in (0, 0.3] |
| Neural.ActivationBrightens | src/components/NeuralBackground.tsx:128-138 | activating an endpoint never dims a line |
| Particles.ParticleCount | src/components/ParticleBackground.tsx:33-35 | the count is the number of integers below `min(width / 10, 100)` |
| Particles.MakeParticle | src/components/ParticleBackground.tsx:36-43 | a new particle sits on the canvas with size in [0.5, 2.5), speeds in [-0.25, 0.25) and opacity in [0.1, 0.6) |
| Particles.CreateParticles | src/components/ParticleBackground.tsx:31-45 | the real-bounded loop creates exactly `ParticleCount` particles, each from its own draws |
| Particles.CountIsCeiling | src/components/ParticleBackground.tsx:33-35 | the loop's exit condition pins the count to the ceiling formula |
| Particles.CountRoundsUp | src/components/ParticleBackground.tsx:33-35 | a 95-pixel window gets ten particles, because the loop bound is not an integer |
| Particles.Wrap | src/components/ParticleBackground.tsx:56-59 | wrapping moves a coordinate below 0 to the far edge and one beyond the edge to 0, leaves one inside alone, and always lands on the canvas |
| Particles.Step | src/components/ParticleBackground.tsx:52-83 | a step keeps size, opacity and speeds and moves by the speed with the edge wrap; with no pointer nearby that is the new position, on the canvas, otherwise it is nudged by 0.2 after the wrap |
| Particles.NudgeCanLeaveCanvas | src/components/ParticleBackground.tsx:56-83 | the nudge after the wrap can push a particle off the canvas |
| Particles.NudgeOvershootBounded | src/components/ParticleBackground.tsx:56-83 | the overshoot is at most 0.2 beyond each edge |
| Particles.LinkAlpha | src/components/ParticleBackground.tsx:95 | a link's opacity lies in (0, 0.15] |
| Particles.LinksOf | src/components/ParticleBackground.tsx:86-101 | a particle links to a later particle exactly when closer than 100, in increasing order, with the opacity of that distance |
| Particles.AnimateFrom | src/components/ParticleBackground.tsx:50-102 | the frame updates particles in order, each link pairing an earlier particle with a later one |
| Particles.FrameLinks | src/components/ParticleBackground.tsx:50-102 | from particle `k` on, a pair `i < j` is linked exactly when moved particle `i` and not yet moved particle `j` are closer than 100, and each link has that distance's opacity |
| Particles.Animate | src/components/ParticleBackground.tsx:47-105 | every particle takes its own step; a pair `i < j` is linked exactly once when moved `i` and unmoved `j` are closer than 100, with opacity `0.15 * (1 - d / 100)`, and no other link is drawn |
| Theme.InitialTheme | src/hooks/useTheme.tsx:30-34 | disabled toggling forces dark; otherwise the stored string when non-empty, unvalidated, else the default |
| Theme.AppliedClass | src/hooks/useTheme.tsx:41-51 | the class is dark when toggling is disabled, the OS preference for "system", and the theme itself otherwise |
| Theme.Apply | src/hooks/useTheme.tsx:36-56 | both theme classes are removed and one added; storage is written only when toggling is enabled and the theme is not "system"; a theme the class list rejects (empty or with whitespace) leaves neither class and storage untouched |
| Theme.ThemeNamesAreTokens | src/hooks/useTheme.tsx:10 | "dark", "light" and "system" are all accepted by the class list |
| Theme.RejectedStoredTheme | src/hooks/useTheme.tsx:32-51 | a stored non-empty theme the class list rejects is adopted at mount, leaves neither theme class on the root and is not written back |
| Theme.ApplyLeavesOneThemeClass | src/hooks/useTheme.tsx:39-51 | for the three theme names, exactly one of light and dark ends on the root and other classes are kept |
| Theme.ApplyIdempotent | src/hooks/useTheme.tsx:36-56 | running the effect twice equals running it once |
| Theme.PersistRoundTrip | src/hooks/useTheme.tsx:30-55 | a persisted theme is what the next mount starts with |
| Theme.Render | src/components/ThemeToggle.tsx:9-24 | nothing is drawn before mounting; then a switch that is checked exactly for dark |
| Theme.Toggle | src/components/ThemeToggle.tsx:25 | a click never yields "system": light exactly from dark, dark from anything else |
| Theme.ToggleInvolution | src/components/ThemeToggle.tsx:25 | toggling twice is the identity on dark and light |
| Theme.Mount | src/hooks/useTheme.tsx:30-56 | mounting initialises the theme and applies it |
| Theme.Click | src/components/ThemeToggle.tsx:25 | a click sets the toggled theme and applies it |
| Theme.DisabledStaysDark | src/App.tsx:21 | as the application mounts the provider, the page stays dark and storage untouched through any clicks |
| Header.HomeActiveExactly | src/components/Header.tsx:38-40 | the home link is active exactly on "/" |
| Header.OtherActiveIffExtends | src/components/Header.tsx:41 | any other link is active exactly on the paths that extend it character by character |
| Header.ProjectsActiveOnLongerName | src/components/Header.tsx:41 | "/projects" is active on "/projectsX" and any other longer name |
| Header.HomeAndProjectsExclusive | src/components/Header.tsx:37-42 | the two router links are never active together |
| Header.Initial | src/components/Header.tsx:7-8 | the header starts with the menu closed and not scrolled |
| Header.OnScroll | src/components/Header.tsx:22-26 | scrolled is exactly `scrollY > 10`, and the state is written only when that value changes |
| Header.ScrollSettles | src/components/Header.tsx:22-26 | a second scroll at the same offset writes nothing |
| Header.ToggleMenu | src/components/Header.tsx:11-13 | the button flips the menu |
| Header.Navigate | src/components/Header.tsx:15-18 | a route change closes the menu |
| Header.MenuOpenAfterRun | src/components/Header.tsx:11-18 | the menu is open exactly when an odd number of clicks followed the last route change |
| Header.ScrolledTracksLastScroll | src/components/Header.tsx:21-34 | after any run, the scrolled look matches the last scroll offset |
| ProjectCard.FeatureIconOf | src/components/projects/ProjectCard.tsx:47-51 | "mail" gets Mail, "mic" gets Mic, and any other name gets Bot |
| ProjectCard.FeatureItems | src/components/projects/ProjectCard.tsx:44-52 | the items keep the length and order of the features, with title and description copied |
| ProjectCard.FeatureItemsInvertible | src/components/projects/ProjectCard.tsx:44-52 | with the declared icon names, the features can be read back from the items |
| ProjectCard.TechIconOf | src/components/projects/ProjectCard.tsx:56-63 | "n8n" wins, then "OpenAI", both case-sensitive, and anything else gets Mail |
| ProjectCard.TechItems | src/components/projects/ProjectCard.tsx:55-69 | the items keep names, length and order |
| ProjectCard.TechNamesPreserved | src/components/projects/ProjectCard.tsx:55-69 | the technology names can be read back from the items |
| ProjectCard.N8nBeatsOpenAI | src/components/projects/ProjectCard.tsx:57-60 | a name mentioning both gets the n8n icon |
| ProjectCard.TechMatchIsCaseSensitive | src/components/projects/ProjectCard.tsx:57-62 | "N8N" and "openai" fall through to Mail |
| Contact.Initial | src/components/Contact.tsx:6 | the form starts idle, empty and with no timers |
| Contact.Submit | src/components/Contact.tsx:9-26 | an accepted submit sets "submitting" at once and adds one 1500 ms timer; pending timers are left alone |
| Contact.SubmitCancelling | src/components/Contact.tsx:9-26 | the corrected submit also drops any pending reset |
| Contact.WithoutResets | src/components/Contact.tsx:22-24 | dropping the resets keeps exactly the pending sends |
| Contact.Remove | src/components/Contact.tsx:14-25 | firing a timer removes exactly that timer from the queue |
| Contact.Fire | src/components/Contact.tsx:14-25 | the success timer shows success, resets the form and sets a 3000 ms reset; the reset shows idle |
| Contact.Wait | src/components/Contact.tsx:14-25 | waiting changes only the clock, and reaches the requested time whenever no pending timer falls due before it |
| Contact.NeverError | src/components/Contact.tsx:6-26 | no run reaches the error status |
| Contact.SendCycle | src/components/Contact.tsx:9-25 | submitting, then success 1500 ms later with the form cleared, then idle 3000 ms after that |
| Contact.CancellingStepConsistent | src/components/Contact.tsx:9-26 | with the reset cancelled, each step keeps the status and the timer queue in agreement |
| Contact.CancellingStaysConsistent | src/components/Contact.tsx:9-26 | with the reset cancelled, every reachable world is consistent |
| Contact.CancellingSubmittingEndsInSuccess | src/components/Contact.tsx:11-15 | with the reset cancelled, "submitting" can only end in "success" |
| Contact.StaleResetInterruptsSend | src/components/Contact.tsx:14-25 | as written, a resubmission within 1.5 s of the pending reset is shown idle while its send is still pending |
| Contact.CancellingResubmitSucceeds | src/components/Contact.tsx:9-25 | with the reset cancelled, the same resubmission stays submitting until its own success |
| Contact.ResubmitSent | src/components/Contact.tsx:9-25 | reaching time t, editing and submitting gives "submitting" with the new send queued behind the old reset, or alone when resets are cancelled |
| Contact.PlayFour | src/components/Contact.tsx:9-25 | playing three or four events is stepping through them one after the other |
| Contact.Render | src/components/Contact.tsx:160-182 | the button is disabled and reads "Sending..." exactly while submitting; each banner shows exactly in its own status |
| Contact.ErrorBannerNeverShown | src/components/Contact.tsx:178-182 | the error banner is never shown |
| ScrollProgress.Progress | src/components/ScrollProgress.tsx:8-13 | the progress times the scrollable range equals the offset times 100; there is no value when the range is zero |
| ScrollProgress.ProgressWithin | src/components/ScrollProgress.tsx:9-13 | within the scrollable range the bar is between 0 and 100 |
| ScrollProgress.TopAndBottom | src/components/ScrollProgress.tsx:12 | 0 at the top, 100 at the bottom |
| ScrollProgress.ProgressMonotone | src/components/ScrollProgress.tsx:12 | scrolling further never shrinks the bar |
| ScrollProgress.ProgressDeterminesOffset | src/components/ScrollProgress.tsx:12 | equal progress on one page means equal offset (the formula is invertible) |
| ScrollProgress.OverscrollExceedsFull | src/components/ScrollProgress.tsx:12-13 | nothing clamps the value: overscrolling gives more than 100 |
| AnimatedCard.Tilt | src/components/AnimatedCard.tsx:16-23 | the tilt formula per axis, with no value when a side is zero |
| AnimatedCard.TiltWithinMax | src/components/AnimatedCard.tsx:22-23 | over the card both angles stay within 5 degrees |
| AnimatedCard.TiltSigns | src/components/AnimatedCard.tsx:22-23 | flat at the centre; `rotateY` positive exactly right of centre and `rotateX` positive exactly above it |
| AnimatedCard.PointerFromTilt | src/components/AnimatedCard.tsx:16-23 | the pointer's position can be read back from the angles |
| AnimatedCard.OnMouseMove | src/components/AnimatedCard.tsx:12-30 | no change before mounting; otherwise the tilt with scale 1.02 and a 100 ms transition |
| AnimatedCard.OnMouseLeave | src/components/AnimatedCard.tsx:32-37 | leaving resets to flat, scale 1, with a 500 ms transition |
| AnimatedCard.LeaveMatchesCentre | src/components/AnimatedCard.tsx:22-37 | the reset angles are those of a pointer at the centre |

## Left out

- Rendering is not modelled. This covers canvas drawing (gradients, the per-frame random bezier control points, arcs), JSX markup and CSS classes other than the theme classes. It also covers toasts and the `requestAnimationFrame` loop. The models stop at the values that rendering consumes.
- Browser services are inputs, not models:
  - `Math.random()`, `Math.sqrt`, `Math.hypot`, `atan2`, `cos` and `sin`;
  - `parseFloat` and number printing;
  - the speech engine;
  - pdf.js and mammoth;
  - `File.text()`;
  - the network fetch of the daily updates;
  - the `prefers-color-scheme` query.
- JavaScript numbers are modelled as exact reals: rounding, NaN and the infinities are not modelled. `ScrollProgress.Progress` and `AnimatedCard.Tilt` return no value where JavaScript would divide by zero.
- In `Goo`, the draws are grouped by purpose: seeds, connection counts and picks. In the source, the calls to `Math.random()` are interleaved. This does not change what can be drawn.
- `Strings.ToLower` maps only the characters that lower-case into ASCII. Other characters are kept as they are, which cannot change a test for an ASCII keyword.
- Strings are sequences of Unicode scalar values, not of UTF-16 code units: a character outside the Basic Multilingual Plane is one character here and two code units in JavaScript, and lone surrogates cannot be represented. No modelled operation depends on string length, and every separator, keyword and pattern is ASCII, so splits, trims and matches fall at the same characters.
- The neural background's pointer pull and its speed cap (`Math.sqrt` of the velocity) are not modelled. The velocity after them is an input.
- The email syntax check the browser applies to the contact form's email field is not modelled. Only the `required` checks are.
- The loading and error display of the daily updates is not modelled, and neither is the clock-dependent date shown next to the progress preview.
- Event-listener bookkeeping is not modelled: registration, removal, and the anonymous resize listener of the particle background that is never removed. React's batching and effect scheduling are not modelled either; handlers are synchronous transitions.
- Static pages and presentational components are not modelled. They hold no logic beyond markup and fade-in timers.
- Theme.Apply: what React does with the exception `classList.add` throws is not modelled (the error leaving the effect and unmounting the tree). The effect stops at the throw.
- Theme.PersistRoundTrip: no longer promised for a theme with ASCII whitespace in it, because the effect throws before it writes the theme.
- `Contact.Fire`: the clock moves to the timer's due time; browser delays beyond the due time are not modelled.

## Findings

| source | as written | input that shows it | evidently intended | confidence | as-written member | corrected member |
|---|---|---|---|---|---|---|
| src/components/GooBackground.tsx:74-83 | each of a node's 1-3 connections is drawn by a `do … while` loop that rejects the node itself and existing targets | a window 80-159 px wide: one node, which needs at least one connection and has no other node to pick, so the loop never exits and the page hangs | pick only among free nodes, at most `n - 1` of them | high; not executed | Goo.ConnectTerminatesIff | Goo.Connect |
| src/components/TextReader.tsx:102-142 | `updateVoices` reads `selectedVoice` from the closure of an effect with no dependencies, so it always sees the mount-time empty string | the user picks "Alex", then `voiceschanged` fires with "Google US English" listed: the selection jumps to the Google voice | keep the user's current selection | high; not executed | Voices.StaleSelectionOverridesUserChoice | Voices.UserChoiceKept |
| src/components/Contact.tsx:14-25 | the 3000 ms reset timer is never cancelled | submit at 0 ms, success at 1500 ms, submit again at 4000 ms: the first reset fires at 4500 ms and shows "idle" while the second send is pending until 5500 ms | a new submit cancels the pending reset | medium; not executed | Contact.StaleResetInterruptsSend | Contact.CancellingStaysConsistent |

=== FILE: animated_card.dfy ===
/** The tilting card (AnimatedCard.tsx): the pointer's position over the
    card turns into a 3-D rotation of at most five degrees a side. */
module AnimatedCard {
  import opened Options

  /** The largest tilt, in degrees, reached at the card's edges. */
  const MaxTilt: real := 5.0

  /** `getBoundingClientRect()`. */
  datatype Rect = Rect(left: real, top: real, width: real, height: real)

  /** `rotateX` is driven by the vertical offset and `rotateY` by the horizontal one. */
  datatype Angles = Angles(rotateX: real, rotateY: real)

  /** The card's inline style: none before the first event; a transform
      with the transition time in milliseconds; or a transform whose
      angles are not finite numbers (an empty card), which the browser
      drops. */
  datatype Style = NoStyle | Transform(angles: Angles, scale: real, transitionMs: real) | NotANumber(transitionMs: real)

  /** The tilt formula: `(x - cx) / cx * 5` and `(cy - y) / cy * 5` with
      `x`, `y` relative to the card and `cx`, `cy` its half sizes; `None`
      when a half size is zero. */
  function Tilt(rect: Rect, clientX: real, clientY: real): (r: Option<Angles>)
    ensures r.None? <==> rect.width == 0.0 || rect.height == 0.0
    ensures r.Some? ==>
      && r.value.rotateY * (rect.width / 2.0) == (clientX - rect.left - rect.width / 2.0) * MaxTilt
      && r.value.rotateX * (rect.height / 2.0) == (rect.height / 2.0 - (clientY - rect.top)) * MaxTilt
  {
    var x := clientX - rect.left;
    var y := clientY - rect.top;
    var cx := rect.width / 2.0;
    var cy := rect.height / 2.0;
    if cx == 0.0 || cy == 0.0 then None
    else Some(Angles((cy - y) / cy * MaxTilt, (x - cx) / cx * MaxTilt))
  }

  /** The pointer lies over the card. */
  predicate Inside(rect: Rect, clientX: real, clientY: real) {
    rect.left <= clientX <= rect.left + rect.width && rect.top <= clientY <= rect.top + rect.height
  }

  /** A product with a non-zero factor determines the other factor. */
  lemma DivideOut(t: real, c: real, v: real)
    requires c != 0.0 && t * c == v
    ensures t == v / c
  {
  }

  /** One axis of the formula stays within [-5, 5] over the card. */
  lemma AxisWithin(offset: real, size: real, t: real)
    requires 0.0 < size && 0.0 <= offset <= size
    requires t * (size / 2.0) == (offset - size / 2.0) * MaxTilt
    ensures -MaxTilt <= t <= MaxTilt
  {
    var c := size / 2.0;
    var q := (offset - c) / c;
    assert -1.0 <= q <= 1.0;
    DivideOut(t, c, (offset - c) * MaxTilt);
  }

  /** Over the card both angles lie within five degrees, as the comments
      on the formula say. */
  lemma TiltWithinMax(rect: Rect, clientX: real, clientY: real)
    requires 0.0 < rect.width && 0.0 < rect.height
    requires Inside(rect, clientX, clientY)
    ensures var a := Tilt(rect, clientX, clientY).value;
      -MaxTilt <= a.rotateX <= MaxTilt && -MaxTilt <= a.rotateY <= MaxTilt
  {
    var a := Tilt(rect, clientX, clientY).value;
    AxisWithin(clientX - rect.left, rect.width, a.rotateY);
    var y := clientY - rect.top;
    assert (-a.rotateX) * (rect.height / 2.0) == (y - rect.height / 2.0) * MaxTilt;
    AxisWithin(y, rect.height, -a.rotateX);
  }

  /** Flat at the centre; tilted one way right of (below) the centre and
      the other way left of (above) it. */
  lemma TiltSigns(rect: Rect, clientX: real, clientY: real)
    requires 0.0 < rect.width && 0.0 < rect.height
    ensures var a := Tilt(rect, clientX, clientY).value;
      var cx := rect.left + rect.width / 2.0;
      var cy := rect.top + rect.height / 2.0;
      && (a.rotateY > 0.0 <==> clientX > cx) && (a.rotateY == 0.0 <==> clientX == cx)
      && (a.rotateX > 0.0 <==> clientY < cy) && (a.rotateX == 0.0 <==> clientY == cy)
  {
    var a := Tilt(rect, clientX, clientY).value;
    var hx := rect.width / 2.0;
    var hy := rect.height / 2.0;
    assert a.rotateY * hx == (clientX - rect.left - hx) * MaxTilt;
    assert a.rotateX * hy == (hy - (clientY - rect.top)) * MaxTilt;
    if a.rotateY > 0.0 { assert a.rotateY * hx > 0.0; }
    if a.rotateY < 0.0 { assert a.rotateY * hx < 0.0; }
    if a.rotateX > 0.0 { assert a.rotateX * hy > 0.0; }
    if a.rotateX < 0.0 { assert a.rotateX * hy < 0.0; }
  }

  /** The pointer's position over the card can be read back from the
      angles: the formula is invertible. */
  lemma PointerFromTilt(rect: Rect, clientX: real, clientY: real)
    requires 0.0 < rect.width && 0.0 < rect.height
    ensures var a := Tilt(rect, clientX, clientY).value;
      && clientX == rect.left + rect.width / 2.0 + a.rotateY * (rect.width / 2.0) / MaxTilt
      && clientY == rect.top + rect.height / 2.0 - a.rotateX * (rect.height / 2.0) / MaxTilt
  {
  }

  const MoveScale: real := 1.02
  const MoveTransitionMs: real := 100.0
  const LeaveTransitionMs: real := 500.0

  /** `handleMouseMove`: nothing happens before the card is mounted
      (`rect` is `None`); otherwise the tilt with a 2% zoom. */
  function OnMouseMove(style: Style, rect: Option<Rect>, clientX: real, clientY: real): (r: Style)
    ensures rect.None? ==> r == style
    ensures rect.Some? && rect.value.width != 0.0 && rect.value.height != 0.0 ==>
      r == Transform(Tilt(rect.value, clientX, clientY).value, MoveScale, MoveTransitionMs)
    ensures rect.Some? && (rect.value.width == 0.0 || rect.value.height == 0.0) ==> r == NotANumber(MoveTransitionMs)
  {
    match rect
    case None => style
    case Some(box) =>
      match Tilt(box, clientX, clientY)
      case None => NotANumber(MoveTransitionMs)
      case Some(a) => Transform(a, MoveScale, MoveTransitionMs)
  }

  /** `handleMouseLeave`: back to flat and unscaled, more slowly. */
  function OnMouseLeave(style: Style): (r: Style)
    ensures r == Transform(Angles(0.0, 0.0), 1.0, LeaveTransitionMs)
  {
    Transform(Angles(0.0, 0.0), 1.0, LeaveTransitionMs)
  }

  /** Leaving restores the look of a pointer resting on the centre, at
      the normal scale: the reset is the tilt of the centre point. */
  lemma LeaveMatchesCentre(style: Style, rect: Rect)
    requires 0.0 < rect.width && 0.0 < rect.height
    ensures var centre := OnMouseMove(style, Some(rect), rect.left + rect.width / 2.0, rect.top + rect.height / 2.0);
      centre.Transform? && centre.angles == OnMouseLeave(style).angles
  {
    TiltSigns(rect, rect.left + rect.width / 2.0, rect.top + rect.height / 2.0);
  }
}

=== FILE: contact.dfy ===
/** The contact form (Contact.tsx).  Sending is simulated: a submit shows
    "submitting", a timer 1.5 s later shows "success" and clears the form,
    and a second timer 3 s after that shows "idle" again.

    Time is in whole milliseconds.  The browser's timer queue is explicit:
    a world holds the pending timers, and the events are the user's edits
    and submits, the clock advancing, and the earliest timer firing. */
module Contact {

  datatype Status = Idle | Submitting | Success | Error

  const SendDelayMs: int := 1500
  const ResetDelayMs: int := 3000

  /** The form's fields, as the browser holds them. */
  datatype Form = Form(name: string, email: string, message: string)

  /** What `form.reset()` restores: the fields have no default values. */
  const EmptyForm: Form := Form([], [], [])

  /** The browser's `required` check on name, email and message (the
      address syntax check of an email field is not modelled). */
  predicate Submittable(f: Form) {
    f.name != [] && f.email != [] && f.message != []
  }

  /** What a pending timer will do when it fires. */
  datatype Action = ShowSuccess | BackToIdle

  datatype Timer = Timer(due: int, action: Action)

  datatype World = World(now: int, status: Status, form: Form, timers: seq<Timer>)

  /** The page just loaded: idle, an empty form, no timers. */
  function Initial(): (w: World)
    ensures w.status == Idle && w.form == EmptyForm && w.timers == []
  {
    World(0, Idle, EmptyForm, [])
  }

  /** Whether a submit reaches `handleSubmit`: the button is disabled
      while submitting, and the browser refuses a form with an empty
      required field. */
  predicate Accepts(w: World) {
    w.status != Submitting && Submittable(w.form)
  }

  /** `handleSubmit` as written: status "submitting" and one new timer;
      timers already pending are left alone. */
  function Submit(w: World): (r: World)
    ensures !Accepts(w) ==> r == w
    ensures Accepts(w) ==> r == w.(status := Submitting, timers := w.timers + [Timer(w.now + SendDelayMs, ShowSuccess)])
  {
    if Accepts(w) then w.(status := Submitting, timers := w.timers + [Timer(w.now + SendDelayMs, ShowSuccess)])
    else w
  }

  /** The timers other than pending resets, in order. */
  function WithoutResets(ts: seq<Timer>): (r: seq<Timer>)
    ensures forall k :: 0 <= k < |r| ==> r[k].action == ShowSuccess && r[k] in ts
    ensures forall t :: t in ts && t.action == ShowSuccess ==> t in r
    ensures |r| <= |ts|
  {
    if ts == [] then []
    else (if ts[0].action == ShowSuccess then [ts[0]] else []) + WithoutResets(ts[1..])
  }

  /** `handleSubmit` with the pending reset cancelled (`clearTimeout` on
      the stored handle) before the new send starts. */
  function SubmitCancelling(w: World): (r: World)
    ensures !Accepts(w) ==> r == w
    ensures Accepts(w) ==> r == w.(status := Submitting, timers := WithoutResets(w.timers) + [Timer(w.now + SendDelayMs, ShowSuccess)])
  {
    if Accepts(w) then w.(status := Submitting, timers := WithoutResets(w.timers) + [Timer(w.now + SendDelayMs, ShowSuccess)])
    else w
  }

  /** Timer `k` is the one the browser runs next: the earliest due time,
      ties in the order the timers were set. */
  predicate IsNext(ts: seq<Timer>, k: nat) {
    k < |ts| && forall j :: 0 <= j < |ts| ==> ts[k].due < ts[j].due || (ts[k].due == ts[j].due && k <= j)
  }

  /** The pending timers once timer `k` has run. */
  function Remove(ts: seq<Timer>, k: nat): (r: seq<Timer>)
    requires k < |ts|
    ensures |r| == |ts| - 1
    ensures forall j :: 0 <= j < |r| ==> r[j] == (if j < k then ts[j] else ts[j + 1])
  {
    ts[..k] + ts[k + 1..]
  }

  /** Timer `k` fires, if it is the next one: the clock moves to its due
      time and its callback runs.  The success callback clears the form
      and sets the reset timer. */
  function Fire(w: World, k: nat): (r: World)
    ensures !IsNext(w.timers, k) ==> r == w
    ensures IsNext(w.timers, k) && w.timers[k].action == ShowSuccess ==>
      && r.status == Success && r.form == EmptyForm
      && r.timers == Remove(w.timers, k) + [Timer(r.now + ResetDelayMs, BackToIdle)]
    ensures IsNext(w.timers, k) && w.timers[k].action == BackToIdle ==>
      r == w.(now := r.now, status := Idle, timers := Remove(w.timers, k))
    ensures IsNext(w.timers, k) ==> r.now == (if w.timers[k].due > w.now then w.timers[k].due else w.now)
  {
    if !IsNext(w.timers, k) then w
    else
      var t := w.timers[k];
      var now := if t.due > w.now then t.due else w.now;
      var rest := Remove(w.timers, k);
      match t.action
      case ShowSuccess => World(now, Success, EmptyForm, rest + [Timer(now + ResetDelayMs, BackToIdle)])
      case BackToIdle => World(now, Idle, w.form, rest)
  }

  /** The clock advances to `t`, unless that would pass a pending timer. */
  function Wait(w: World, t: int): (r: World)
    ensures (w.now <= t && forall j :: 0 <= j < |w.timers| ==> t <= w.timers[j].due) ==> r == w.(now := t)
    ensures r.status == w.status && r.timers == w.timers && r.form == w.form
  {
    if w.now <= t && forall j :: 0 <= j < |w.timers| ==> t <= w.timers[j].due then w.(now := t) else w
  }

  datatype Event = Edit(form: Form) | Send | Tick(to: int) | Run(timer: nat)

  /** One event; `cancelling` chooses the corrected submit. */
  function Step(w: World, e: Event, cancelling: bool): World {
    match e
    case Edit(f) => w.(form := f)
    case Send => if cancelling then SubmitCancelling(w) else Submit(w)
    case Tick(t) => Wait(w, t)
    case Run(k) => Fire(w, k)
  }

  function Play(w: World, es: seq<Event>, cancelling: bool): World
    decreases |es|
  {
    if es == [] then w else Play(Step(w, es[0], cancelling), es[1..], cancelling)
  }

  /** No code path sets "error": no run, of either submit, ever reaches it. */
  lemma {:induction false} NeverError(w: World, es: seq<Event>, cancelling: bool)
    requires w.status != Error
    ensures Play(w, es, cancelling).status != Error
    decreases |es|
  {
    if es != [] {
      NeverError(Step(w, es[0], cancelling), es[1..], cancelling);
    }
  }

  /** The undisturbed cycle: a submit shows "success" 1.5 s later with
      the form cleared, and "idle" 3 s after that. */
  lemma SendCycle(w: World)
    requires w.timers == [] && w.status != Submitting && Submittable(w.form)
    ensures var sent := Play(w, [Send], false);
      sent.status == Submitting && sent.now == w.now
    ensures var done := Play(w, [Send, Run(0)], false);
      done.status == Success && done.form == EmptyForm && done.now == w.now + SendDelayMs
    ensures var back := Play(w, [Send, Run(0), Run(0)], false);
      back.status == Idle && back.timers == [] && back.now == w.now + SendDelayMs + ResetDelayMs
  {
    var sent := Step(w, Send, false);
    assert IsNext(sent.timers, 0);
    var done := Step(sent, Run(0), false);
    assert done.timers == [Timer(w.now + SendDelayMs + ResetDelayMs, BackToIdle)];
    assert IsNext(done.timers, 0);
    assert Play(w, [Send], false) == Play(sent, [], false);
    assert Play(w, [Send, Run(0)], false) == Play(sent, [Run(0)], false) == Play(done, [], false);
    assert Play(w, [Send, Run(0), Run(0)], false) == Play(sent, [Run(0), Run(0)], false) == Play(done, [Run(0)], false);
  }

  /** The status and the timer queue agree: idle with nothing pending,
      submitting with only its send pending, success with only its reset
      pending. */
  predicate Consistent(w: World) {
    || (w.status == Idle && w.timers == [])
    || (w.status == Submitting && |w.timers| == 1 && w.timers[0].action == ShowSuccess)
    || (w.status == Success && |w.timers| == 1 && w.timers[0].action == BackToIdle)
  }

  lemma CancellingStepConsistent(w: World, e: Event)
    requires Consistent(w)
    ensures Consistent(Step(w, e, true))
  {
    match e
    case Run(k) =>
      if IsNext(w.timers, k) {
        assert k == 0;
        assert Remove(w.timers, 0) == [];
      }
    case Send =>
      if Accepts(w) {
        assert WithoutResets(w.timers) == [];
      }
    case _ =>
  }

  /** With the reset cancelled on submit, every reachable world is consistent. */
  lemma {:induction false} CancellingStaysConsistent(w: World, es: seq<Event>)
    requires Consistent(w)
    ensures Consistent(Play(w, es, true))
    decreases |es|
  {
    if es != [] {
      CancellingStepConsistent(w, es[0]);
      CancellingStaysConsistent(Step(w, es[0], true), es[1..]);
    }
  }

  /** With the reset cancelled, "submitting" can only end in "success":
      the send is never reported finished before its own timer fires. */
  lemma CancellingSubmittingEndsInSuccess(w: World, e: Event)
    requires Consistent(w) && w.status == Submitting
    ensures Step(w, e, true).status in {Submitting, Success}
  {
  }

  /** A world showing "success" with its reset still pending: where the
      undisturbed cycle of SendCycle stands for 3 s after a send. */
  predicate AwaitingReset(w: World) {
    w.status == Success && |w.timers| == 1 && w.timers[0].action == BackToIdle
  }

  /** The form is filled in again and submitted at time `t`, no later than
      the pending reset and no more than 1.5 s before it. */
  predicate ResubmitInWindow(w: World, t: int, f: Form) {
    AwaitingReset(w) && Submittable(f) && w.now <= t <= w.timers[0].due <= t + SendDelayMs
  }

  /** As written, the earlier send's reset fires while the new send is
      in flight: the status drops to "idle", the button is enabled again
      and "Sending..." disappears, with the new send's timer still
      pending. */
  lemma StaleResetInterruptsSend(w: World, t: int, f: Form)
    requires ResubmitInWindow(w, t, f)
    ensures var r := Play(w, [Tick(t), Edit(f), Send, Run(0)], false);
      && r.status == Idle && r.now == w.timers[0].due
      && r.timers == [Timer(t + SendDelayMs, ShowSuccess)]
      && !Consistent(r)
  {
    var w3 := Step(Step(Step(w, Tick(t), false), Edit(f), false), Send, false);
    ResubmitSent(w, t, f, false);
    assert IsNext(w3.timers, 0);
    assert Remove(w3.timers, 0) == [Timer(t + SendDelayMs, ShowSuccess)];
    PlayFour(w, Tick(t), Edit(f), Send, Run(0), false);
  }

  /** With the reset cancelled, the same resubmission stays "submitting"
      until its own send completes. */
  lemma CancellingResubmitSucceeds(w: World, t: int, f: Form)
    requires ResubmitInWindow(w, t, f)
    ensures var r := Play(w, [Tick(t), Edit(f), Send], true);
      r.status == Submitting && r.timers == [Timer(t + SendDelayMs, ShowSuccess)]
    ensures var r := Play(w, [Tick(t), Edit(f), Send, Run(0)], true);
      r.status == Success && r.now == t + SendDelayMs
  {
    var w3 := Step(Step(Step(w, Tick(t), true), Edit(f), true), Send, true);
    ResubmitSent(w, t, f, true);
    assert IsNext(w3.timers, 0);
    PlayFour(w, Tick(t), Edit(f), Send, Run(0), true);
  }

  /** The clock reaches `t`, the form is filled in and sent: "submitting",
      with the new send behind the old reset unless that was cancelled.
      Shared by `StaleResetInterruptsSend` and `CancellingResubmitSucceeds`. */
  lemma ResubmitSent(w: World, t: int, f: Form, cancelling: bool)
    requires ResubmitInWindow(w, t, f)
    ensures var w3 := Step(Step(Step(w, Tick(t), cancelling), Edit(f), cancelling), Send, cancelling);
      && w3.status == Submitting && w3.now == t
      && w3.timers == (if cancelling then [] else [w.timers[0]]) + [Timer(t + SendDelayMs, ShowSuccess)]
  {
    var w1 := Step(w, Tick(t), cancelling);
    assert w1 == w.(now := t);
    var w2 := Step(w1, Edit(f), cancelling);
    assert w2 == w.(now := t, form := f);
    if cancelling {
      assert WithoutResets(w2.timers) == [];
    }
  }

  /** Four events are played one after the other: unfolds `Play` for the
      resubmission timelines of `StaleResetInterruptsSend` and
      `CancellingResubmitSucceeds`. */
  lemma PlayFour(w: World, a: Event, b: Event, c: Event, d: Event, cancelling: bool)
    ensures var w3 := Step(Step(Step(w, a, cancelling), b, cancelling), c, cancelling);
      && Play(w, [a, b, c], cancelling) == w3
      && Play(w, [a, b, c, d], cancelling) == Step(w3, d, cancelling)
  {
    var w1 := Step(w, a, cancelling);
    var w2 := Step(w1, b, cancelling);
    var w3 := Step(w2, c, cancelling);
    assert [a, b, c, d][1..] == [b, c, d] && [b, c, d][1..] == [c, d] && [c, d][1..] == [d];
    assert Play(w, [a, b, c, d], cancelling) == Play(w1, [b, c, d], cancelling);
    assert Play(w1, [b, c, d], cancelling) == Play(w2, [c, d], cancelling);
    assert Play(w2, [c, d], cancelling) == Play(w3, [d], cancelling);
    assert [a, b, c][1..] == [b, c] && [b, c][1..] == [c];
    assert Play(w, [a, b, c], cancelling) == Play(w1, [b, c], cancelling);
    assert Play(w1, [b, c], cancelling) == Play(w2, [c], cancelling);
    assert [c][1..] == [] && [d][1..] == [];
    assert Play(w2, [c], cancelling) == Play(w3, [], cancelling) == w3;
    assert Play(w3, [d], cancelling) == Play(Step(w3, d, cancelling), [], cancelling);
  }

  /** What the form shows for a status. */
  datatype View = View(buttonDisabled: bool, sending: bool, successBanner: bool, errorBanner: bool)

  /** The button is disabled and reads "Sending..." exactly while
      submitting; each banner shows exactly in its own status. */
  function Render(s: Status): (v: View)
    ensures v.buttonDisabled <==> s == Submitting
    ensures v.sending <==> s == Submitting
    ensures v.successBanner <==> s == Success
    ensures v.errorBanner <==> s == Error
  {
    View(s == Submitting, s == Submitting, s == Success, s == Error)
  }

  /** The error banner is never shown. */
  lemma ErrorBannerNeverShown(es: seq<Event>, cancelling: bool)
    ensures !Render(Play(Initial(), es, cancelling).status).errorBanner
  {
    NeverError(Initial(), es, cancelling);
  }
}

=== FILE: counting.dfy ===
/** Counting facts shared by the models: distinct entries, index ranges
    and the pigeonhole principle. */
module Counting {

  /** No value occurs twice in `s`. */
  predicate Distinct(s: seq<int>) {
    forall a, b :: 0 <= a < b < |s| ==> s[a] != s[b]
  }

  /** A sequence without repetitions has as many distinct elements as entries. */
  lemma {:induction false} DistinctCard(s: seq<int>)
    requires Distinct(s)
    ensures |set x | x in s| == |s|
  {
    if s == [] {
      assert (set x | x in s) == {};
    } else {
      var t := s[1..];
      assert s == [s[0]] + t;
      DistinctCard(t);
      assert s[0] !in t;
      assert (set x | x in s) == (set x | x in t) + {s[0]};
    }
  }

  /** The set of indices `0 .. n-1`. */
  function IndexSet(n: nat): (r: set<nat>)
    ensures forall k: nat :: k in r <==> k < n
    ensures |r| == n
  {
    if n == 0 then {} else IndexSet(n - 1) + {n - 1}
  }

  /** A subset is no larger than its superset. */
  lemma SubsetCard<T>(a: set<T>, b: set<T>)
    requires a <= b
    ensures |a| <= |b|
  {
    assert b == a + (b - a);
  }

  /** Pigeonhole: distinct entries drawn from `pool` are at most `|pool|` many. */
  lemma DistinctWithin(s: seq<int>, pool: set<int>)
    requires Distinct(s)
    requires forall k :: 0 <= k < |s| ==> s[k] in pool
    ensures |s| <= |pool|
  {
    DistinctCard(s);
    SubsetCard((set x | x in s), pool);
  }

  /** `Math.min(Math.floor(total / step), cap)`: whole steps that fit in
      `total`, capped at `cap`. */
  function CappedQuotient(total: nat, step: nat, cap: nat): (n: nat)
    requires step > 0
    ensures n <= cap
    ensures n < cap ==> n * step <= total < (n + 1) * step
    ensures n == cap ==> cap * step <= total
  {
    if total / step < cap then total / step else cap
  }
}

=== FILE: daily_updates.dfy ===
/** The daily-updates feed (projects/DailyUpdates.tsx): the CSV text of a
    published sheet becomes at most five update records, and each status
    gets a badge colour.  The fetch itself is outside the model; this
    module starts from the response text. */
module DailyUpdates {
  import opened Strings

  datatype Update = Update(date: string, status: string, task: string, description: string)

  /** How many data rows are looked at. */
  const RowLimit: nat := 5

  /** One cell: trimmed, then every double quote removed. */
  function Field(raw: string): (r: string)
    ensures '"' !in r
    ensures multiset(r) == multiset(Trim(raw))['"' := 0]
  {
    RemoveAll(Trim(raw), '"')
  }

  /** `columns[i] || ''`: the i-th cell, or the empty string when the row
      has fewer cells. */
  function Column(cells: seq<string>, i: nat): string {
    if i < |cells| then cells[i] else []
  }

  /** All cells of a row, split on every comma with no regard for quotes. */
  function Cells(row: string): (r: seq<string>)
    ensures |r| == |Split(row, ',')|
    ensures forall i :: 0 <= i < |r| ==> r[i] == Field(Split(row, ',')[i])
  {
    var raw := Split(row, ',');
    seq(|raw|, i requires 0 <= i < |raw| => Field(raw[i]))
  }

  /** One row as an update: cells 0-3 are date, status, task and
      description; missing cells are empty and extra cells are ignored. */
  function ParseRow(row: string): (u: Update)
    ensures '"' !in u.date && '"' !in u.status && '"' !in u.task && '"' !in u.description
    ensures var raw := Split(row, ',');
      && u.date == Field(raw[0])
      && u.status == (if 1 < |raw| then Field(raw[1]) else [])
      && u.task == (if 2 < |raw| then Field(raw[2]) else [])
      && u.description == (if 3 < |raw| then Field(raw[3]) else [])
  {
    var cells := Cells(row);
    Update(Column(cells, 0), Column(cells, 1), Column(cells, 2), Column(cells, 3))
  }

  /** `update.date && update.task`. */
  predicate Keep(u: Update) {
    u.date != [] && u.task != []
  }

  /** `filter(Keep)`: the kept updates, in order. */
  function KeepValid(us: seq<Update>): (r: seq<Update>)
    ensures |r| <= |us|
    ensures forall k :: 0 <= k < |r| ==> Keep(r[k])
    ensures forall u :: u in r <==> u in us && Keep(u)
    ensures forall u :: multiset(r)[u] == if Keep(u) then multiset(us)[u] else 0
  {
    if us == [] then []
    else
      var head := if Keep(us[0]) then [us[0]] else [];
      assert us == [us[0]] + us[1..];
      head + KeepValid(us[1..])
  }

  /** `xs` is obtained from `ys` by deleting entries: order is preserved. */
  predicate IsSubsequence<T(==)>(xs: seq<T>, ys: seq<T>)
    decreases |ys|
  {
    if xs == [] then true
    else if ys == [] then false
    else if xs[0] == ys[0] then IsSubsequence(xs[1..], ys[1..])
    else IsSubsequence(xs, ys[1..])
  }

  lemma {:induction false} KeepValidIsSubsequence(us: seq<Update>)
    ensures IsSubsequence(KeepValid(us), us)
  {
    if us != [] {
      KeepValidIsSubsequence(us[1..]);
      if !Keep(us[0]) {
        assert KeepValid(us) == KeepValid(us[1..]);
      }
    }
  }

  /** The rows examined: the lines after the header, at most five. */
  function DataRows(data: string): (rows: seq<string>)
    ensures var lines := Split(data, '\n');
      && |rows| == (if |lines| - 1 <= RowLimit then |lines| - 1 else RowLimit)
      && rows == lines[1..][..|rows|]
  {
    var lines := Split(data, '\n');
    var body := lines[1..];
    if |body| <= RowLimit then body else body[..RowLimit]
  }

  /** Every examined row parsed, in order. */
  function ParsedRows(data: string): (r: seq<Update>)
    ensures |r| == |DataRows(data)|
    ensures forall i :: 0 <= i < |r| ==> r[i] == ParseRow(DataRows(data)[i])
  {
    var rows := DataRows(data);
    seq(|rows|, i requires 0 <= i < |rows| => ParseRow(rows[i]))
  }

  /** The parsing pipeline of `fetchUpdates`. */
  function ParseUpdates(data: string): (r: seq<Update>)
    ensures |r| <= RowLimit
    ensures forall k :: 0 <= k < |r| ==> Keep(r[k])
  {
    KeepValid(ParsedRows(data))
  }

  /** The result consists exactly of the well-formed updates among the
      first five data rows, in row order and with their multiplicities;
      later rows are never looked at, even when some of the first five
      were dropped. */
  lemma ParseUpdatesSpec(data: string)
    ensures var lines := Split(data, '\n');
      |DataRows(data)| <= RowLimit && DataRows(data) == lines[1..][..|DataRows(data)|]
    ensures var parsed := ParsedRows(data);
      && IsSubsequence(ParseUpdates(data), parsed)
      && (forall u :: multiset(ParseUpdates(data))[u] == if Keep(u) then multiset(parsed)[u] else 0)
  {
    KeepValidIsSubsequence(ParsedRows(data));
  }

  /** No date in the result holds a double quote. */
  lemma UpdatesUnquoted(data: string)
    ensures forall k :: 0 <= k < |ParseUpdates(data)| ==> '"' !in ParseUpdates(data)[k].date
  {
    var parsed := ParsedRows(data);
    var r := ParseUpdates(data);
    forall k | 0 <= k < |r|
      ensures '"' !in r[k].date
    {
      assert r[k] in parsed;
      var i :| 0 <= i < |parsed| && parsed[i] == r[k];
      assert parsed[i] == ParseRow(DataRows(data)[i]);
    }
  }

  /** The first line is always discarded: two inputs that differ only in
      their first line parse alike. */
  lemma HeaderIgnored(h1: string, h2: string, body: string)
    requires '\n' !in h1 && '\n' !in h2
    ensures ParseUpdates(h1 + ['\n'] + body) == ParseUpdates(h2 + ['\n'] + body)
  {
    SplitAfterLine(h1, body);
    SplitAfterLine(h2, body);
  }

  lemma SplitAfterLine(h: string, body: string)
    requires '\n' !in h
    ensures Split(h + ['\n'] + body, '\n')[1..] == Split(body, '\n')
  {
    SplitAtPiece(h, body, '\n');
  }

  /** A comma inside a quoted cell still splits the cell (section 2 rule 6
      of RFC 4180 is not followed): a row `date,"first,second",task` puts
      the two halves of the quoted cell into the status and task columns
      and shifts the real task into the description. */
  lemma QuotesAreNotHonoured(date: string, first: string, second: string, task: string)
    requires ',' !in date && ',' !in first && ',' !in second && ',' !in task
    ensures var row := date + [','] + ['"'] + first + [','] + second + ['"'] + [','] + task;
      ParseRow(row) == Update(Field(date), Field(['"'] + first), Field(second + ['"']), Field(task))
  {
    var row := date + [','] + ['"'] + first + [','] + second + ['"'] + [','] + task;
    var parts := [date, ['"'] + first, second + ['"'], task];
    assert Join(parts[3..], ',') == task;
    assert Join(parts[2..], ',') == second + ['"'] + [','] + task;
    assert Join(parts[1..], ',') == ['"'] + first + [','] + second + ['"'] + [','] + task;
    assert Join(parts, ',') == row;
    JoinSplit(parts, ',');
  }

  /** Spaces inside quotes survive: the quotes are removed only after
      trimming, so they shield the padding from `trim`. */
  lemma QuotedPaddingKept(x: string)
    requires '"' !in x
    ensures Field(['"'] + x + ['"']) == x
  {
    var q := ['"'] + x + ['"'];
    TrimUnpadded(q);
    RemoveAllConcat(['"'] + x, ['"'], '"');
    RemoveAllConcat(['"'], x, '"');
    RemoveAbsent(x, '"');
  }

  /** Badge colours of `getStatusColor`. */
  datatype StatusColor = Green | Blue | Yellow | Neutral

  /** `getStatusColor`: the lower-cased status is searched for keywords,
      first "complete"/"done", then "progress"/"working", then
      "testing"/"review". */
  function StatusColorOf(status: string): (c: StatusColor)
    ensures var s := ToLower(status);
      && (c == Green <==> Contains(s, "complete") || Contains(s, "done"))
      && (c == Blue <==> !(Contains(s, "complete") || Contains(s, "done")) && (Contains(s, "progress") || Contains(s, "working")))
      && (c == Yellow <==> !(Contains(s, "complete") || Contains(s, "done") || Contains(s, "progress") || Contains(s, "working"))
                           && (Contains(s, "testing") || Contains(s, "review")))
      && (c == Neutral <==> !(Contains(s, "complete") || Contains(s, "done") || Contains(s, "progress")
                              || Contains(s, "working") || Contains(s, "testing") || Contains(s, "review")))
  {
    var s := ToLower(status);
    if Contains(s, "complete") || Contains(s, "done") then Green
    else if Contains(s, "progress") || Contains(s, "working") then Blue
    else if Contains(s, "testing") || Contains(s, "review") then Yellow
    else Neutral
  }

  /** The colour ignores letter case: a status and its lower-cased form
      get the same badge. */
  lemma StatusColorIgnoresCase(status: string)
    ensures StatusColorOf(ToLower(status)) == StatusColorOf(status)
  {
    ToLowerIdempotent(status);
  }
}

=== FILE: draws.dfy ===
/** `Math.random()` as an oracle: every call the components make is an
    input value in [0, 1). */
module Random {

  /** A value `Math.random()` can return. */
  predicate IsDraw(d: real) {
    0.0 <= d < 1.0
  }

  predicate AllDraws(ds: seq<real>) {
    forall k :: 0 <= k < |ds| ==> IsDraw(ds[k])
  }

  /** `Math.random() * w` lies in `[0, w]`. */
  lemma ScaleWithin(d: real, w: real)
    requires 0.0 <= d <= 1.0 && 0.0 <= w
    ensures 0.0 <= d * w <= w
  {
    assert (1.0 - d) * w >= 0.0;
  }

  /** A value known to be a draw times `w` lies in `[0, w]`. */
  lemma ScaledValue(d: real, w: real, x: real)
    requires IsDraw(d) && 0.0 <= w && x == d * w
    ensures 0.0 <= x <= w
  {
    ScaleWithin(d, w);
  }

  lemma ScaleBelow(d: real, w: real)
    requires IsDraw(d) && 0.0 < w
    ensures 0.0 <= d * w < w
  {
    assert (1.0 - d) * w > 0.0;
  }

  /** `Math.random() * w`: a point of `[0, w]`. */
  function Scaled(d: real, w: real): (r: real)
    requires IsDraw(d) && 0.0 <= w
    ensures 0.0 <= r <= w
  {
    ScaleWithin(d, w);
    d * w
  }

  /** `Math.random() * span + lo`: a point of `[lo, lo + span)`. */
  function Spread(d: real, lo: real, span: real): (r: real)
    requires IsDraw(d) && 0.0 < span
    ensures lo <= r < lo + span
  {
    ScaleBelow(d, span);
    d * span + lo
  }
}

=== FILE: goo_background.dfy ===
/** The node graph of the "goo" canvas background (GooBackground.tsx):
    how many nodes a window gets, how each node is seeded, how the
    connection graph is drawn at random, the per-frame spring/bounce step
    and the distance gate for drawing an edge.

    `Math.random()` is an oracle: every call is an entry of a draw
    sequence, each in [0, 1).  The mouse force's direction (`atan2`,
    `cos`, `sin`) and every `Math.sqrt` distance are inputs. */
module Goo {
  import opened Options
  import opened Counting
  import opened Random

  /** Pixels of window width per node. */
  const Spacing: nat := 80
  const MaxNodes: nat := 35

  datatype Node = Node(
    x: real, y: real,
    targetX: real, targetY: real,
    vx: real, vy: real,
    radius: real,
    connections: seq<nat>,
    hue: int)

  /** `Math.min(Math.floor(window.innerWidth / 80), 35)`. */
  function NodeCount(width: nat): nat {
    CappedQuotient(width, Spacing, MaxNodes)
  }

  /** A node as `initializeNodes` seeds it from six draws: position,
      velocity, radius and hue; no connections yet. */
  function MakeNode(width: nat, height: nat, d: seq<real>): (node: Node)
    requires |d| == 6 && AllDraws(d)
    ensures node.targetX == node.x && node.targetY == node.y
    ensures 0.0 <= node.x <= width as real && 0.0 <= node.y <= height as real
    ensures -0.25 <= node.vx < 0.25 && -0.25 <= node.vy < 0.25
    ensures 3.0 <= node.radius < 8.0
    ensures node.hue == 190 || node.hue == 200
    ensures node.connections == []
  {
    var x := Scaled(d[0], width as real);
    var y := Scaled(d[1], height as real);
    // `(Math.random() - 0.5) * 0.5` is `Math.random() * 0.5 - 0.25`.
    var vx := Spread(d[2], -0.25, 0.5);
    var vy := Spread(d[3], -0.25, 0.5);
    var radius := Spread(d[4], 3.0, 5.0);
    Node(x, y, x, y, vx, vy, radius, [], if d[5] > 0.5 then 200 else 190)
  }

  /** `Math.floor(Math.random() * 3) + 1`. */
  function ConnectionCount(d: real): (c: nat)
    requires IsDraw(d)
    ensures 1 <= c <= 3
    ensures c == 1 <==> d < 1.0 / 3.0
    ensures c == 3 <==> 2.0 / 3.0 <= d
  {
    (d * 3.0).Floor + 1
  }

  /** `Math.floor(Math.random() * n)`: an index below `n`. */
  function DrawIndex(d: real, n: nat): (t: nat)
    requires IsDraw(d) && 0 < n
    ensures t < n
    ensures t as real <= d * n as real < t as real + 1.0
  {
    ScaleBelow(d, n as real);
    (d * n as real).Floor
  }

  /** The connections of node `i` among `n` nodes are usable: each names
      another node, none twice. */
  predicate WellFormed(i: nat, n: nat, conns: seq<nat>) {
    && Distinct(conns)
    && forall k :: 0 <= k < |conns| ==> conns[k] < n && conns[k] != i
  }

  // ---------------------------------------------------------------------
  // The connection loop as written: a rejection loop
  // ---------------------------------------------------------------------

  /** One run of the `do … while` loop: draws are consumed until one names
      a node other than `i` that is not yet a target.  `None` means the
      given draws ran out before the loop exited. */
  function PickAsWritten(i: nat, n: nat, conns: seq<nat>, draws: seq<real>): (r: Option<(nat, seq<real>)>)
    requires i < n && AllDraws(draws)
    ensures r.Some? ==> r.value.0 < n && r.value.0 != i && r.value.0 !in conns
    ensures r.Some? ==> |r.value.1| < |draws| && AllDraws(r.value.1)
    decreases |draws|
  {
    if draws == [] then None
    else
      var t := DrawIndex(draws[0], n);
      if t == i || t in conns then PickAsWritten(i, n, conns, draws[1..])
      else Some((t, draws[1..]))
  }

  /** The `for (c …)` loop of one node as written: `count` rejection loops
      in a row, each appending its target.  `None` means the draws ran out. */
  function ConnectAsWritten(i: nat, n: nat, count: nat, conns: seq<nat>, draws: seq<real>): (r: Option<(seq<nat>, seq<real>)>)
    requires i < n && AllDraws(draws)
    ensures r.Some? ==> |r.value.0| == |conns| + count && r.value.0[..|conns|] == conns
    ensures r.Some? && WellFormed(i, n, conns) ==> WellFormed(i, n, r.value.0)
    ensures r.Some? ==> AllDraws(r.value.1)
    decreases count
  {
    if count == 0 then Some((conns, draws))
    else
      match PickAsWritten(i, n, conns, draws)
      case None => None
      case Some((t, rest)) =>
        var r := ConnectAsWritten(i, n, count - 1, conns + [t], rest);
        assert (conns + [t])[..|conns|] == conns;
        assert r.Some? ==> r.value.0[..|conns|] == r.value.0[..|conns| + 1][..|conns|];
        r
  }

  /** The other nodes: every index below `n` except `i`. */
  function Others(i: nat, n: nat): (pool: set<int>)
    requires i < n
    ensures forall t: int :: t in pool <==> 0 <= t < n && t != i
    ensures |pool| == n - 1
  {
    var all := IndexSet(n);
    var pool: set<int> := all - {i};
    assert all == pool + {i} && pool * {i} == {};
    pool
  }

  /** Pigeonhole: a node cannot have more distinct targets than there are
      other nodes. */
  lemma WellFormedBound(i: nat, n: nat, conns: seq<nat>)
    requires i < n && WellFormed(i, n, conns)
    ensures |conns| <= n - 1
  {
    DistinctWithin(conns, Others(i, n));
  }

  /** While fewer than `n - 1` targets are taken, some other node is free. */
  lemma FreeTargetExists(i: nat, n: nat, conns: seq<nat>)
    requires i < n && WellFormed(i, n, conns) && |conns| < n - 1
    ensures exists t: nat :: t < n && t != i && t !in conns
  {
    if forall t: nat :: t < n && t != i ==> t in conns {
      var taken := set x: int | x in conns;
      SubsetCard(Others(i, n), taken);
      DistinctCard(conns);
    }
  }

  /** Whatever the draws, a run that finishes has found `count` distinct
      other nodes, so it needs `count <= n - 1`. */
  lemma FinishedNeedsRoom(i: nat, n: nat, count: nat, draws: seq<real>)
    requires i < n && AllDraws(draws)
    requires ConnectAsWritten(i, n, count, [], draws).Some?
    ensures count <= n - 1
  {
    WellFormedBound(i, n, ConnectAsWritten(i, n, count, [], draws).value.0);
  }

  /** The draw `t / n` names node `t`. */
  lemma PickStep(i: nat, n: nat, conns: seq<nat>, t: nat, rest: seq<real>)
    requires i < n && t < n && t != i && t !in conns && AllDraws(rest)
    ensures IsDraw(t as real / n as real)
    ensures AllDraws([t as real / n as real] + rest)
    ensures PickAsWritten(i, n, conns, [t as real / n as real] + rest) == Some((t, rest))
  {
    var d := t as real / n as real;
    assert d * n as real == t as real;
    assert DrawIndex(d, n) == t;
    assert ([d] + rest)[1..] == rest;
  }

  /** A node that `i` is not yet connected to; adding it keeps the connections usable. */
  lemma FreeTarget(i: nat, n: nat, conns: seq<nat>) returns (t: nat)
    requires i < n && WellFormed(i, n, conns) && |conns| < n - 1
    ensures t < n && t != i && t !in conns
    ensures WellFormed(i, n, conns + [t])
  {
    FreeTargetExists(i, n, conns);
    t :| t < n && t != i && t !in conns;
  }

  /** A draw naming a free node `t`, followed by draws that finish the
      remaining connections from `conns + [t]`, finish the whole loop. */
  lemma FinishStep(i: nat, n: nat, count: nat, conns: seq<nat>, t: nat, rest: seq<real>) returns (draws: seq<real>)
    requires i < n && 0 < count && t < n && t != i && t !in conns
    requires AllDraws(rest) && ConnectAsWritten(i, n, count - 1, conns + [t], rest).Some?
    ensures AllDraws(draws) && ConnectAsWritten(i, n, count, conns, draws).Some?
  {
    PickStep(i, n, conns, t, rest);
    draws := [t as real / n as real] + rest;
    assert ConnectAsWritten(i, n, count, conns, draws) == ConnectAsWritten(i, n, count - 1, conns + [t], rest);
  }

  /** Draws that let the loop finish when there is room: one draw naming
      a free node per connection. */
  lemma {:induction false} FinishingDraws(i: nat, n: nat, count: nat, conns: seq<nat>) returns (draws: seq<real>)
    requires i < n && WellFormed(i, n, conns) && |conns| + count <= n - 1
    ensures AllDraws(draws) && ConnectAsWritten(i, n, count, conns, draws).Some?
    decreases count
  {
    if count == 0 {
      draws := [];
    } else {
      var t := FreeTarget(i, n, conns);
      var rest := FinishingDraws(i, n, count - 1, conns + [t]);
      draws := FinishStep(i, n, count, conns, t, rest);
    }
  }

  /** With room left, some draws let the loop finish. */
  lemma CanFinish(i: nat, n: nat, count: nat, conns: seq<nat>)
    requires i < n && WellFormed(i, n, conns) && |conns| + count <= n - 1
    ensures exists draws :: AllDraws(draws) && ConnectAsWritten(i, n, count, conns, draws).Some?
  {
    var draws := FinishingDraws(i, n, count, conns);
  }

  /** The loop of one node can exit exactly when the node has at least
      `count` other nodes to choose from; otherwise no sequence of draws,
      however long, ends it. */
  lemma ConnectTerminatesIff(i: nat, n: nat, count: nat)
    requires i < n
    ensures (exists draws :: AllDraws(draws) && ConnectAsWritten(i, n, count, [], draws).Some?)
            <==> count <= n - 1
  {
    if count <= n - 1 {
      CanFinish(i, n, count, []);
    } else {
      forall draws | AllDraws(draws)
        ensures ConnectAsWritten(i, n, count, [], draws).None?
      {
        if ConnectAsWritten(i, n, count, [], draws).Some? {
          FinishedNeedsRoom(i, n, count, draws);
        }
      }
    }
  }

  // ---------------------------------------------------------------------
  // The corrected connection loop: one draw per connection
  // ---------------------------------------------------------------------

  /** The nodes below `m` that node `i` may still connect to, in index order. */
  function Candidates(i: nat, m: nat, conns: seq<nat>): (r: seq<nat>)
    ensures forall t: nat :: t in r <==> t < m && t != i && t !in conns
    decreases m
  {
    if m == 0 then []
    else Candidates(i, m - 1, conns) + (if m - 1 != i && m - 1 !in conns then [m - 1] else [])
  }

  /** One pick of the corrected loop: a single draw chooses among the free
      nodes, so no draw is ever rejected. */
  function Pick(i: nat, n: nat, conns: seq<nat>, d: real): (t: nat)
    requires i < n && IsDraw(d) && WellFormed(i, n, conns) && |conns| < n - 1
    ensures t < n && t != i && t !in conns
  {
    FreeTargetExists(i, n, conns);
    var cands := Candidates(i, n, conns);
    assert exists t: nat :: t in cands;
    var j := DrawIndex(d, |cands|);
    assert cands[j] in cands;
    cands[j]
  }

  function ConnectFrom(i: nat, n: nat, count: nat, conns: seq<nat>, draws: seq<real>): (r: seq<nat>)
    requires i < n && WellFormed(i, n, conns) && |conns| + count <= n - 1
    requires |draws| >= count && AllDraws(draws)
    ensures WellFormed(i, n, r)
    ensures |r| == |conns| + count && r[..|conns|] == conns
    decreases count
  {
    if count == 0 then conns
    else
      var t := Pick(i, n, conns, draws[0]);
      var r := ConnectFrom(i, n, count - 1, conns + [t], draws[1..]);
      assert r[..|conns|] == r[..|conns| + 1][..|conns|];
      r
  }

  /** The corrected `for (c …)` loop of node `i`: `count` connections, or
      all `n - 1` other nodes when there are fewer, each distinct and none
      to `i` itself. */
  function Connect(i: nat, n: nat, count: nat, draws: seq<real>): (r: seq<nat>)
    requires i < n && |draws| >= count && AllDraws(draws)
    ensures WellFormed(i, n, r)
    ensures |r| == if count <= n - 1 then count else n - 1
  {
    ConnectFrom(i, n, if count <= n - 1 then count else n - 1, [], draws)
  }

  // ---------------------------------------------------------------------
  // initializeNodes
  // ---------------------------------------------------------------------

  /** The draws `initializeNodes` consumes, grouped by purpose: six per
      node for its seed, one per node for its connection count, and the
      draws of each node's connection loop. */
  datatype Draws = Draws(seeds: seq<seq<real>>, counts: seq<real>, picks: seq<seq<real>>)

  predicate Enough(ds: Draws, n: nat) {
    && |ds.seeds| >= n && |ds.counts| >= n && |ds.picks| >= n
    && (forall k :: 0 <= k < n ==> |ds.seeds[k]| == 6 && AllDraws(ds.seeds[k]))
    && (forall k :: 0 <= k < n ==> IsDraw(ds.counts[k]))
    && (forall k :: 0 <= k < n ==> AllDraws(ds.picks[k]))
  }

  /** `initializeNodes` with the corrected connection loop. */
  function InitNodes(width: nat, height: nat, ds: Draws): (nodes: seq<Node>)
    requires Enough(ds, NodeCount(width))
    requires forall k :: 0 <= k < NodeCount(width) ==> |ds.picks[k]| >= 3
    ensures |nodes| == NodeCount(width)
    ensures forall k :: 0 <= k < |nodes| ==>
      nodes[k] == MakeNode(width, height, ds.seeds[k]).(connections := nodes[k].connections)
    ensures forall k :: 0 <= k < |nodes| ==> WellFormed(k, |nodes|, nodes[k].connections)
    ensures forall k :: 0 <= k < |nodes| ==>
      |nodes[k].connections| == Min(ConnectionCount(ds.counts[k]), |nodes| - 1)
  {
    var n := NodeCount(width);
    seq(n, k requires 0 <= k < n =>
      MakeNode(width, height, ds.seeds[k]).(connections := Connect(k, n, ConnectionCount(ds.counts[k]), ds.picks[k])))
  }

  function Min(a: int, b: int): int {
    if a <= b then a else b
  }

  /** With four or more nodes every node gets one to three connections. */
  lemma ConnectionsInRange(width: nat, height: nat, ds: Draws)
    requires Enough(ds, NodeCount(width))
    requires forall k :: 0 <= k < NodeCount(width) ==> |ds.picks[k]| >= 3
    requires NodeCount(width) >= 4
    ensures forall k :: 0 <= k < |InitNodes(width, height, ds)| ==>
      1 <= |InitNodes(width, height, ds)[k].connections| <= 3
  {
  }

  /** `initializeNodes` as written: `None` when some node's rejection loop
      has not exited on the draws given to it. */
  function InitAsWritten(width: nat, height: nat, ds: Draws): (r: Option<seq<Node>>)
    requires Enough(ds, NodeCount(width))
    ensures r.Some? <==> forall k :: 0 <= k < NodeCount(width) ==>
      ConnectAsWritten(k, NodeCount(width), ConnectionCount(ds.counts[k]), [], ds.picks[k]).Some?
    ensures r.Some? ==> |r.value| == NodeCount(width)
    ensures r.Some? ==> forall k :: 0 <= k < |r.value| ==>
      r.value[k] == MakeNode(width, height, ds.seeds[k]).(connections := r.value[k].connections)
    ensures r.Some? ==> forall k :: 0 <= k < |r.value| ==> WellFormed(k, |r.value|, r.value[k].connections)
    ensures r.Some? ==> forall k :: 0 <= k < |r.value| ==>
      |r.value[k].connections| == ConnectionCount(ds.counts[k])
  {
    var n := NodeCount(width);
    if forall k :: 0 <= k < n ==> ConnectAsWritten(k, n, ConnectionCount(ds.counts[k]), [], ds.picks[k]).Some? then
      Some(seq(n, k requires 0 <= k < n =>
        MakeNode(width, height, ds.seeds[k]).(connections := ConnectAsWritten(k, n, ConnectionCount(ds.counts[k]), [], ds.picks[k]).value.0)))
    else None
  }

  /** A window narrower than 80 pixels gets no node at all, and then
      both loops are empty: the loop as written finishes too. */
  lemma NarrowWindowHasNoNodes(width: nat, height: nat, ds: Draws)
    requires width < Spacing && Enough(ds, NodeCount(width))
    ensures InitAsWritten(width, height, ds) == Some([])
    ensures InitNodes(width, height, ds) == []
  {
    assert NodeCount(width) == 0;
  }

  /** A window 80 to 159 pixels wide gets a single node, which needs at
      least one connection and has no other node to pick: the page hangs
      whatever `Math.random()` returns. */
  lemma SingleNodeHangs(width: nat, height: nat, ds: Draws)
    requires 80 <= width < 160 && Enough(ds, NodeCount(width))
    ensures InitAsWritten(width, height, ds).None?
  {
    assert NodeCount(width) == 1;
    ConnectTerminatesIff(0, 1, ConnectionCount(ds.counts[0]));
  }

  /** With one to three nodes (a window 80 to 319 pixels wide) the first
      node hangs whenever its count draw asks for three connections. */
  lemma FewNodesCanHang(width: nat, height: nat, ds: Draws)
    requires 80 <= width < 320 && Enough(ds, NodeCount(width))
    requires ds.counts[0] >= 2.0 / 3.0
    ensures InitAsWritten(width, height, ds).None?
  {
    var n := NodeCount(width);
    assert 1 <= n <= 3;
    ConnectTerminatesIff(0, n, ConnectionCount(ds.counts[0]));
  }

  /** When the loop as written does finish, every node asked for at most
      as many connections as there are other nodes, and the corrected loop
      would have produced the same number of connections. */
  lemma AsWrittenFinishedHadRoom(width: nat, height: nat, ds: Draws)
    requires Enough(ds, NodeCount(width))
    requires InitAsWritten(width, height, ds).Some?
    ensures forall k :: 0 <= k < NodeCount(width) ==> ConnectionCount(ds.counts[k]) <= NodeCount(width) - 1
  {
    var n := NodeCount(width);
    forall k | 0 <= k < n
      ensures ConnectionCount(ds.counts[k]) <= n - 1
    {
      FinishedNeedsRoom(k, n, ConnectionCount(ds.counts[k]), ds.picks[k]);
    }
  }

  // ---------------------------------------------------------------------
  // updateNodes
  // ---------------------------------------------------------------------

  /** The pointer as seen from one node: whether the button is down, the
      `Math.sqrt` distance, and `cos`/`sin` of the `atan2` angle. */
  datatype Pointer = Pointer(isDown: bool, distance: real, cos: real, sin: real)

  /** The draws of the occasional retargeting: the chance draw and the new
      target's two draws. */
  datatype Retarget = Retarget(chance: real, tx: real, ty: real)

  /** Strength of the pointer's pull: a strong pull while pressed within
      200, a gentle one within 150, none further away. */
  function MouseForce(isDown: bool, distance: real): (f: real)
    requires 0.0 <= distance
    ensures 0.0 <= f <= 2.0
    ensures f > 0.0 <==> (isDown && distance < 200.0) || distance < 150.0
  {
    if isDown && distance < 200.0 then (200.0 - distance) * 0.01
    else if distance < 150.0 then 0.05
    else 0.0
  }

  /** Pressing the button never weakens the pull. */
  lemma PressingStrengthensPull(distance: real)
    requires 0.0 <= distance
    ensures MouseForce(true, distance) >= MouseForce(false, distance)
  {
  }

  /** The bounce on one axis: `p` is the coordinate after the velocity
      step, `v` the velocity, `limit` the canvas extent. */
  function Bounce(p: real, v: real, r: real, limit: real): (pv: (real, real))
    ensures r <= p <= limit - r ==> pv == (p, v)
    ensures p < r ==> pv == (r, -0.7 * v)
    ensures r <= p && limit - r < p ==> pv == (limit - r, -0.7 * v)
    ensures 2.0 * r <= limit ==> r <= pv.0 <= limit - r
  {
    if p < r then (r, v * -0.7)
    else if p > limit - r then (limit - r, v * -0.7)
    else (p, v)
  }

  /** The pointer's pull on the two axes: `MouseForce` along the angle
      toward the pointer. */
  function Pull(ptr: Pointer): (real, real)
    requires 0.0 <= ptr.distance
  {
    var f := MouseForce(ptr.isDown, ptr.distance);
    (ptr.cos * f, ptr.sin * f)
  }

  /** The velocity on one axis after the pointer's `pull`, the spring
      toward the target `gap` away, and the 0.95 friction. */
  function Velocity(v: real, pull: real, gap: real): real {
    (v + pull + gap * 0.003) * 0.95
  }

  /** One node's step in `updateNodes`: the damped velocity moves the node
      and `Bounce` keeps it on the canvas. */
  function UpdateNode(node: Node, width: nat, height: nat, ptr: Pointer, rt: Retarget): (r: Node)
    requires 0.0 <= ptr.distance
    ensures r.connections == node.connections && r.radius == node.radius && r.hue == node.hue
    ensures 2.0 * node.radius <= width as real ==> node.radius <= r.x <= width as real - node.radius
    ensures 2.0 * node.radius <= height as real ==> node.radius <= r.y <= height as real - node.radius
    ensures rt.chance < 0.001 ==> r.targetX == rt.tx * width as real && r.targetY == rt.ty * height as real
    ensures rt.chance >= 0.001 ==> r.targetX == node.targetX && r.targetY == node.targetY
    ensures var vx := Velocity(node.vx, Pull(ptr).0, node.targetX - node.x);
      (r.x, r.vx) == Bounce(node.x + vx, vx, node.radius, width as real)
    ensures var vy := Velocity(node.vy, Pull(ptr).1, node.targetY - node.y);
      (r.y, r.vy) == Bounce(node.y + vy, vy, node.radius, height as real)
  {
    var vx := Velocity(node.vx, Pull(ptr).0, node.targetX - node.x);
    var vy := Velocity(node.vy, Pull(ptr).1, node.targetY - node.y);
    var bouncedX := Bounce(node.x + vx, vx, node.radius, width as real);
    var bouncedY := Bounce(node.y + vy, vy, node.radius, height as real);
    var target := Retargeted(node, width, height, rt);
    node.(x := bouncedX.0, y := bouncedY.0, vx := bouncedX.1, vy := bouncedY.1, targetX := target.0, targetY := target.1)
  }

  /** The target after the occasional retargeting: a fresh point of the
      canvas when the chance draw is below 0.001, else the old target. */
  function Retargeted(node: Node, width: nat, height: nat, rt: Retarget): (t: (real, real))
    ensures rt.chance < 0.001 ==> t == (rt.tx * width as real, rt.ty * height as real)
    ensures rt.chance >= 0.001 ==> t == (node.targetX, node.targetY)
  {
    if rt.chance < 0.001 then (rt.tx * width as real, rt.ty * height as real)
    else (node.targetX, node.targetY)
  }

  /** A retarget lands on the canvas, and an old target on the canvas is kept there. */
  lemma RetargetOnCanvas(node: Node, width: nat, height: nat, rt: Retarget)
    requires IsDraw(rt.tx) && IsDraw(rt.ty)
    requires 0.0 <= node.targetX <= width as real && 0.0 <= node.targetY <= height as real
    ensures var t := Retargeted(node, width, height, rt);
      0.0 <= t.0 <= width as real && 0.0 <= t.1 <= height as real
  {
    var t := Retargeted(node, width, height, rt);
    if rt.chance < 0.001 {
      var w, h := width as real, height as real;
      assert t.0 == rt.tx * w && t.1 == rt.ty * h;
      ScaledValue(rt.tx, w, t.0);
      ScaledValue(rt.ty, h, t.1);
    }
  }

  /** Targets stay on the canvas: a retarget draws them inside it. */
  lemma TargetsStayOnCanvas(node: Node, width: nat, height: nat, ptr: Pointer, rt: Retarget)
    requires 0.0 <= ptr.distance && IsDraw(rt.tx) && IsDraw(rt.ty)
    requires 0.0 <= node.targetX <= width as real && 0.0 <= node.targetY <= height as real
    ensures var r := UpdateNode(node, width, height, ptr, rt);
      0.0 <= r.targetX <= width as real && 0.0 <= r.targetY <= height as real
  {
    RetargetOnCanvas(node, width, height, rt);
    var t := Retargeted(node, width, height, rt);
    var r := UpdateNode(node, width, height, ptr, rt);
    assert r.targetX == t.0 && r.targetY == t.1;
  }

  /** Away from the pointer and the edges, a node at rest moves toward its
      target without overshooting it. */
  lemma SpringMovesTowardTarget(node: Node, width: nat, height: nat, ptr: Pointer, rt: Retarget)
    requires 150.0 <= ptr.distance && !ptr.isDown
    requires node.vx == 0.0 && node.x < node.targetX
    requires node.radius <= node.targetX <= width as real - node.radius
    requires node.radius <= node.x
    ensures var r := UpdateNode(node, width, height, ptr, rt);
      node.x < r.x <= node.targetX
  {
  }

  /** `updateNodes`: every node takes one step; the list and every node's
      connections are left as they were. */
  function UpdateNodes(nodes: seq<Node>, width: nat, height: nat, ptrs: seq<Pointer>, rts: seq<Retarget>): (r: seq<Node>)
    requires |ptrs| == |nodes| && |rts| == |nodes|
    requires forall k :: 0 <= k < |ptrs| ==> 0.0 <= ptrs[k].distance
    ensures |r| == |nodes|
    ensures forall k :: 0 <= k < |r| ==> r[k] == UpdateNode(nodes[k], width, height, ptrs[k], rts[k])
    ensures forall k :: 0 <= k < |r| ==> r[k].connections == nodes[k].connections
    ensures forall k :: 0 <= k < |r| && 2.0 * nodes[k].radius <= width as real ==>
      nodes[k].radius <= r[k].x <= width as real - nodes[k].radius
    ensures forall k :: 0 <= k < |r| && 2.0 * nodes[k].radius <= height as real ==>
      nodes[k].radius <= r[k].y <= height as real - nodes[k].radius
  {
    seq(|nodes|, k requires 0 <= k < |nodes| => UpdateNode(nodes[k], width, height, ptrs[k], rts[k]))
  }

  /** Updating keeps every node well formed: the graph never changes. */
  lemma UpdateKeepsGraph(nodes: seq<Node>, width: nat, height: nat, ptrs: seq<Pointer>, rts: seq<Retarget>)
    requires |ptrs| == |nodes| && |rts| == |nodes|
    requires forall k :: 0 <= k < |ptrs| ==> 0.0 <= ptrs[k].distance
    requires forall k :: 0 <= k < |nodes| ==> WellFormed(k, |nodes|, nodes[k].connections)
    ensures var r := UpdateNodes(nodes, width, height, ptrs, rts);
      forall k :: 0 <= k < |r| ==> WellFormed(k, |r|, r[k].connections)
  {
  }

  // ---------------------------------------------------------------------
  // draw
  // ---------------------------------------------------------------------

  /** An edge is stroked only between endpoints closer than 250. */
  const EdgeReach: real := 250.0

  /** The edges of node `i` that `draw` strokes, in connection order;
      `dist` is the `Math.sqrt` distance between two nodes. */
  function EdgesOf(i: nat, conns: seq<nat>, dist: (nat, nat) -> real): (es: seq<(nat, nat)>)
    ensures forall e :: e in es <==> e.0 == i && e.1 in conns && dist(e.0, e.1) < EdgeReach
  {
    if conns == [] then []
    else
      (if dist(i, conns[0]) < EdgeReach then [(i, conns[0])] else []) + EdgesOf(i, conns[1..], dist)
  }

  /** All stroked edges of nodes `from` onward. */
  function EdgesFrom(nodes: seq<Node>, from: nat, dist: (nat, nat) -> real): (es: seq<(nat, nat)>)
    ensures forall e :: e in es <==>
      from <= e.0 < |nodes| && e.1 in nodes[e.0].connections && dist(e.0, e.1) < EdgeReach
    decreases |nodes| - from
  {
    if from >= |nodes| then []
    else EdgesOf(from, nodes[from].connections, dist) + EdgesFrom(nodes, from + 1, dist)
  }

  /** The edges `draw` strokes: exactly the connections whose endpoints
      are closer than 250. */
  function DrawnEdges(nodes: seq<Node>, dist: (nat, nat) -> real): (es: seq<(nat, nat)>)
    ensures forall e :: e in es <==>
      e.0 < |nodes| && e.1 in nodes[e.0].connections && dist(e.0, e.1) < EdgeReach
  {
    EdgesFrom(nodes, 0, dist)
  }
}

=== FILE: header.dfy ===
/** The site header (Header.tsx): which navigation link is highlighted,
    whether the bar has its scrolled look, and the mobile menu. */
module Header {
  import opened Strings

  /** The scroll offset, in CSS pixels, past which the bar turns solid. */
  const ScrollThreshold: real := 10.0

  const Home: string := "/"
  const Projects: string := "/projects"

  /** `isActive(path)` for the current `location.pathname`: the home link
      only on the root itself, every other link on any path it begins. */
  predicate IsActive(pathname: string, path: string) {
    if path == Home then pathname == Home else StartsWith(pathname, path)
  }

  /** The home link is active exactly on "/". */
  lemma HomeActiveExactly(pathname: string)
    ensures IsActive(pathname, Home) <==> pathname == Home
  {
  }

  /** Any other link is active exactly on the paths that extend it; the
      match is on characters, not path segments. */
  lemma {:induction false} OtherActiveIffExtends(pathname: string, path: string)
    requires path != Home
    ensures IsActive(pathname, path) <==> exists rest :: pathname == path + rest
  {
    if IsActive(pathname, path) {
      assert pathname == path + pathname[|path|..];
    }
    if exists rest :: pathname == path + rest {
      var rest :| pathname == path + rest;
      assert pathname[..|path|] == path;
    }
  }

  /** "/projects" is highlighted on "/projectsX" and on any other path
      that merely starts with the same letters. */
  lemma ProjectsActiveOnLongerName(rest: string)
    ensures IsActive(Projects + rest, Projects)
  {
    assert Projects != Home by { assert |Projects| == 9; }
    OtherActiveIffExtends(Projects + rest, Projects);
  }

  /** The two router links are never highlighted together. */
  lemma HomeAndProjectsExclusive(pathname: string)
    ensures !(IsActive(pathname, Home) && IsActive(pathname, Projects))
  {
    assert Projects == "/projects";
  }

  /** The header's state: the mobile menu, the scrolled look, the path. */
  datatype State = State(menuOpen: bool, scrolled: bool, pathname: string)

  /** Mounting: menu closed, not scrolled. */
  function Initial(pathname: string): (s: State)
    ensures !s.menuOpen && !s.scrolled && s.pathname == pathname
  {
    State(false, false, pathname)
  }

  /** The result of the scroll handler: the new state and whether it
      called `setScrolled`. */
  datatype Scrolled = Scrolled(state: State, wrote: bool)

  /** The scroll handler: compares `scrollY > 10` with the current value
      and writes only when they differ. */
  function OnScroll(s: State, scrollY: real): (r: Scrolled)
    ensures r.state.scrolled <==> scrollY > ScrollThreshold
    ensures r.wrote <==> s.scrolled != (scrollY > ScrollThreshold)
    ensures r.state.menuOpen == s.menuOpen && r.state.pathname == s.pathname
  {
    var isScrolled := scrollY > ScrollThreshold;
    if isScrolled != s.scrolled then Scrolled(s.(scrolled := isScrolled), true)
    else Scrolled(s, false)
  }

  /** A second scroll event at the same offset writes nothing. */
  lemma ScrollSettles(s: State, scrollY: real)
    ensures var once := OnScroll(s, scrollY).state;
      OnScroll(once, scrollY) == Scrolled(once, false)
  {
  }

  /** The menu button: open becomes closed and closed becomes open. */
  function ToggleMenu(s: State): (r: State)
    ensures r.menuOpen != s.menuOpen
    ensures r.scrolled == s.scrolled && r.pathname == s.pathname
  {
    s.(menuOpen := !s.menuOpen)
  }

  /** A route change: the location effect closes the menu. */
  function Navigate(s: State, pathname: string): (r: State)
    ensures !r.menuOpen && r.pathname == pathname && r.scrolled == s.scrolled
  {
    State(false, s.scrolled, pathname)
  }

  datatype Event = Toggle | GoTo(pathname: string) | Scroll(scrollY: real)

  function Step(s: State, e: Event): State {
    match e
    case Toggle => ToggleMenu(s)
    case GoTo(p) => Navigate(s, p)
    case Scroll(y) => OnScroll(s, y).state
  }

  /** The state after a run of events, the last event applied last. */
  function Run(s: State, es: seq<Event>): State
    decreases |es|
  {
    if es == [] then s else Step(Run(s, es[..|es| - 1]), es[|es| - 1])
  }

  /** Whether some event of the run is a route change. */
  predicate Navigated(es: seq<Event>) {
    exists k :: 0 <= k < |es| && es[k].GoTo?
  }

  /** Menu clicks since the last route change (all of them when there was none). */
  function TogglesSinceNavigation(es: seq<Event>): nat
    decreases |es|
  {
    if es == [] || es[|es| - 1].GoTo? then 0
    else TogglesSinceNavigation(es[..|es| - 1]) + (if es[|es| - 1].Toggle? then 1 else 0)
  }

  /** The menu is open exactly when an odd number of clicks followed the
      last route change (counting from the state's own value when no route
      change happened): scrolling never touches it. */
  lemma {:induction false} MenuOpenAfterRun(s: State, es: seq<Event>)
    ensures Run(s, es).menuOpen <==>
      (if Navigated(es) then TogglesSinceNavigation(es) % 2 == 1
       else s.menuOpen != (TogglesSinceNavigation(es) % 2 == 1))
  {
    if es != [] {
      var init := es[..|es| - 1];
      var last := es[|es| - 1];
      MenuOpenAfterRun(s, init);
      if !last.GoTo? {
        assert Navigated(es) <==> Navigated(init) by {
          if Navigated(es) {
            var k :| 0 <= k < |es| && es[k].GoTo?;
            assert k < |init| && init[k] == es[k];
          }
          if Navigated(init) {
            var k :| 0 <= k < |init| && init[k].GoTo?;
            assert es[k] == init[k];
          }
        }
      } else {
        assert Navigated(es);
      }
    }
  }

  /** After a run of events, the scrolled look matches the last scroll
      offset (or the state's own value when there was no scroll). */
  function LastScroll(es: seq<Event>): (r: real)
    requires exists k :: 0 <= k < |es| && es[k].Scroll?
    decreases |es|
  {
    var last := es[|es| - 1];
    if last.Scroll? then last.scrollY
    else
      var init := es[..|es| - 1];
      assert exists k :: 0 <= k < |init| && init[k].Scroll? by {
        var k :| 0 <= k < |es| && es[k].Scroll?;
        assert k < |init| && init[k] == es[k];
      }
      LastScroll(init)
  }

  lemma {:induction false} ScrolledTracksLastScroll(s: State, es: seq<Event>)
    requires exists k :: 0 <= k < |es| && es[k].Scroll?
    ensures Run(s, es).scrolled <==> LastScroll(es) > ScrollThreshold
  {
    var last := es[|es| - 1];
    if !last.Scroll? {
      var init := es[..|es| - 1];
      assert exists k :: 0 <= k < |init| && init[k].Scroll? by {
        var k :| 0 <= k < |es| && es[k].Scroll?;
        assert k < |init| && init[k] == es[k];
      }
      ScrolledTracksLastScroll(s, init);
    }
  }
}

=== FILE: neural_background.dfy ===
/** The "neural network" canvas background (NeuralBackground.tsx): node
    count, the distance-based connection graph built once at start-up, the
    per-frame move/bounce/clamp step, pointer activation and the set of
    recently activated nodes that the drawing highlights.

    `Math.random()` draws, `Math.sqrt` distances and the pointer's
    `atan2`/`cos`/`sin` velocity change are inputs. */
module Neural {
  import opened Counting
  import opened Random

  const Spacing: nat := 100
  const MaxNodes: nat := 30
  /** A node closer than this to the pointer is activated. */
  const Reach: real := 100.0
  /** How many activations survive each frame. */
  const Recent: nat := 5

  datatype Node = Node(x: real, y: real, vx: real, vy: real, radius: real)

  /** A connection between the nodes at indices `from` and `to`. */
  datatype Connection = Connection(from: nat, to: nat, strength: real)

  /** `Math.min(Math.floor(window.innerWidth / 100), 30)`. */
  function NodeCount(width: nat): nat {
    CappedQuotient(width, Spacing, MaxNodes)
  }

  /** A node as seeded from five draws in [0, 1). */
  function MakeNode(width: nat, height: nat, d: seq<real>): (node: Node)
    requires |d| == 5 && AllDraws(d)
    ensures 0.0 <= node.x <= width as real && 0.0 <= node.y <= height as real
    ensures -0.25 <= node.vx < 0.25 && -0.25 <= node.vy < 0.25
    ensures 2.0 <= node.radius < 5.0
  {
    var x := Scaled(d[0], width as real);
    var y := Scaled(d[1], height as real);
    // `(Math.random() - 0.5) * 0.5` is `Math.random() * 0.5 - 0.25`.
    var vx := Spread(d[2], -0.25, 0.5);
    var vy := Spread(d[3], -0.25, 0.5);
    var radius := Spread(d[4], 2.0, 3.0);
    Node(x, y, vx, vy, radius)
  }

  /** Node pairs are connected below a quarter of the canvas width. */
  function Radius(width: nat): real {
    width as real / 4.0
  }

  /** `dist` is a distance among the first `n` nodes: never negative. */
  predicate NonNegative(dist: (nat, nat) -> real, n: nat) {
    forall i: nat, j: nat :: i < n && j < n ==> dist(i, j) >= 0.0
  }

  /** A connection as `initializeNodes` records it: `from < to`, closer
      than the radius `r`, strength `1 - d / r`. */
  predicate Recorded(c: Connection, n: nat, r: real, dist: (nat, nat) -> real) {
    && c.from < c.to < n
    && dist(c.from, c.to) < r
    && 0.0 < r
    && c.strength == 1.0 - dist(c.from, c.to) / r
  }

  /** The list holds a connection from `i` to `j`. */
  predicate Linked(cs: seq<Connection>, i: nat, j: nat) {
    exists k :: 0 <= k < |cs| && cs[k].from == i && cs[k].to == j
  }

  lemma LinkedConcat(a: seq<Connection>, b: seq<Connection>, i: nat, j: nat)
    ensures Linked(a + b, i, j) <==> Linked(a, i, j) || Linked(b, i, j)
  {
    if Linked(a + b, i, j) {
      var k :| 0 <= k < |a + b| && (a + b)[k].from == i && (a + b)[k].to == j;
      if k >= |a| {
        assert b[k - |a|] == (a + b)[k];
      }
    }
    if Linked(a, i, j) {
      var k :| 0 <= k < |a| && a[k].from == i && a[k].to == j;
      assert (a + b)[k] == a[k];
    }
    if Linked(b, i, j) {
      var k :| 0 <= k < |b| && b[k].from == i && b[k].to == j;
      assert (a + b)[|a| + k] == b[k];
    }
  }

  lemma LinkedCons(c: Connection, rest: seq<Connection>, i: nat, j: nat)
    ensures Linked([c] + rest, i, j) <==> (c.from == i && c.to == j) || Linked(rest, i, j)
  {
    LinkedConcat([c], rest, i, j);
    if c.from == i && c.to == j {
      assert [c][0] == c;
    }
  }

  /** Every connection of `cs` starts at node `i`. */
  predicate AllFrom(cs: seq<Connection>, i: nat) {
    forall k :: 0 <= k < |cs| ==> cs[k].from == i
  }

  /** Every connection of `cs` starts after node `i`. */
  predicate AllAfter(cs: seq<Connection>, i: nat) {
    forall k :: 0 <= k < |cs| ==> i < cs[k].from
  }

  /** The inner loop: the connections `(i, j)` for `j` from `from` to `n - 1`. */
  function RowFrom(i: nat, from: nat, n: nat, r: real, dist: (nat, nat) -> real): (cs: seq<Connection>)
    requires i < from && 0.0 < r
    ensures AllFrom(cs, i)
    ensures forall k :: 0 <= k < |cs| ==> from <= cs[k].to && Recorded(cs[k], n, r, dist)
    ensures forall a, b :: 0 <= a < b < |cs| ==> cs[a].to < cs[b].to
    decreases n - from
  {
    if from >= n then []
    else
      var rest := RowFrom(i, from + 1, n, r, dist);
      if dist(i, from) < r then [Connection(i, from, 1.0 - dist(i, from) / r)] + rest
      else rest
  }

  /** `row` links `(i, j)`, for every `j` from `from` to `n - 1`, exactly
      when the pair is closer than `r`. */
  predicate RowExact(row: seq<Connection>, i: nat, from: nat, n: nat, r: real, dist: (nat, nat) -> real) {
    forall j: nat :: from <= j < n ==> (Linked(row, i, j) <==> dist(i, j) < r)
  }

  /** `cs` links `(i, j)`, for every `from <= i < j < n`, exactly when the
      pair is closer than `r`. */
  predicate PairsExact(cs: seq<Connection>, from: nat, n: nat, r: real, dist: (nat, nat) -> real) {
    forall i: nat, j: nat :: from <= i < j < n ==> (Linked(cs, i, j) <==> dist(i, j) < r)
  }

  /** The inner loop records `(i, j)` exactly when the pair is close enough. */
  lemma {:induction false} RowFromSpec(i: nat, from: nat, n: nat, r: real, dist: (nat, nat) -> real)
    requires i < from && 0.0 < r
    ensures RowExact(RowFrom(i, from, n, r, dist), i, from, n, r, dist)
    decreases n - from
  {
    if from < n {
      var rest := RowFrom(i, from + 1, n, r, dist);
      RowFromSpec(i, from + 1, n, r, dist);
      if dist(i, from) < r {
        var c := Connection(i, from, 1.0 - dist(i, from) / r);
        forall j: nat | from <= j < n
          ensures Linked([c] + rest, i, j) <==> dist(i, j) < r
        {
          LinkedCons(c, rest, i, j);
        }
      } else {
        assert !Linked(rest, i, from);
      }
    }
  }

  /** Lexicographic order on index pairs: the order the two loops visit them. */
  predicate Before(a: Connection, b: Connection) {
    a.from < b.from || (a.from == b.from && a.to < b.to)
  }

  /** The outer loop from node `from` on. */
  function PairsFrom(from: nat, n: nat, r: real, dist: (nat, nat) -> real): (cs: seq<Connection>)
    requires 0.0 < r
    ensures forall k :: 0 <= k < |cs| ==> from <= cs[k].from && Recorded(cs[k], n, r, dist)
    ensures forall a, b :: 0 <= a < b < |cs| ==> Before(cs[a], cs[b])
    decreases n - from
  {
    if from >= n then []
    else
      var row := RowFrom(from, from + 1, n, r, dist);
      var rest := PairsFrom(from + 1, n, r, dist);
      SortedJoin(row, rest, from);
      row + rest
  }

  lemma SortedJoin(row: seq<Connection>, rest: seq<Connection>, from: nat)
    requires AllFrom(row, from) && AllAfter(rest, from)
    requires forall a, b :: 0 <= a < b < |row| ==> row[a].to < row[b].to
    requires forall a, b :: 0 <= a < b < |rest| ==> Before(rest[a], rest[b])
    ensures forall a, b :: 0 <= a < b < |row + rest| ==> Before((row + rest)[a], (row + rest)[b])
  {
    var cs := row + rest;
    forall a, b | 0 <= a < b < |cs|
      ensures Before(cs[a], cs[b])
    {
      if b < |row| {
        assert cs[a] == row[a] && cs[b] == row[b];
      } else if a >= |row| {
        assert cs[a] == rest[a - |row|] && cs[b] == rest[b - |row|];
      } else {
        assert cs[a] == row[a] && cs[b] == rest[b - |row|];
      }
    }
  }

  lemma NotLinkedFrom(cs: seq<Connection>, i: nat, j: nat)
    requires forall k :: 0 <= k < |cs| ==> cs[k].from != i
    ensures !Linked(cs, i, j)
  {
  }

  lemma PairsStep(row: seq<Connection>, rest: seq<Connection>, from: nat, n: nat, r: real, dist: (nat, nat) -> real)
    requires RowExact(row, from, from + 1, n, r, dist)
    requires PairsExact(rest, from + 1, n, r, dist)
    requires AllFrom(row, from) && AllAfter(rest, from)
    ensures PairsExact(row + rest, from, n, r, dist)
  {
    forall i: nat, j: nat | from <= i < j < n
      ensures Linked(row + rest, i, j) <==> dist(i, j) < r
    {
      LinkedConcat(row, rest, i, j);
      if i == from {
        NotLinkedFrom(rest, i, j);
      } else {
        NotLinkedFrom(row, i, j);
      }
    }
  }

  /** The outer loop from node `from` on records exactly the close pairs. */
  predicate OuterExact(from: nat, n: nat, r: real, dist: (nat, nat) -> real)
    requires 0.0 < r
  {
    PairsExact(PairsFrom(from, n, r, dist), from, n, r, dist)
  }

  lemma PairsFromEmpty(from: nat, n: nat, r: real, dist: (nat, nat) -> real)
    requires n <= from && 0.0 < r
    ensures OuterExact(from, n, r, dist)
  {
  }

  /** One outer iteration: exactness from `from + 1` on extends to `from`. */
  lemma PairsFromStep(from: nat, n: nat, r: real, dist: (nat, nat) -> real)
    requires from < n && 0.0 < r
    requires OuterExact(from + 1, n, r, dist)
    ensures OuterExact(from, n, r, dist)
  {
    var row := RowFrom(from, from + 1, n, r, dist);
    var rest := PairsFrom(from + 1, n, r, dist);
    RowFromSpec(from, from + 1, n, r, dist);
    PairsStep(row, rest, from, n, r, dist);
  }

  /** The outer loop records exactly the close pairs `i < j` with `from <= i`. */
  lemma {:induction false} PairsFromSpec(from: nat, n: nat, r: real, dist: (nat, nat) -> real)
    requires 0.0 < r
    ensures OuterExact(from, n, r, dist)
    decreases n - from
  {
    if from < n {
      PairsFromSpec(from + 1, n, r, dist);
      PairsFromStep(from, n, r, dist);
    } else {
      PairsFromEmpty(from, n, r, dist);
    }
  }

  /** The connections of `initializeNodes`: exactly the pairs `i < j`
      closer than a quarter of the width, in loop order (so each pair at
      most once and never a node with itself), with strength in (0, 1].
      On a canvas of width 0 no pair is close enough. */
  function Connections(n: nat, width: nat, dist: (nat, nat) -> real): (cs: seq<Connection>)
    requires NonNegative(dist, n)
    ensures forall k :: 0 <= k < |cs| ==> Recorded(cs[k], n, Radius(width), dist)
    ensures forall k :: 0 <= k < |cs| ==> 0.0 < cs[k].strength <= 1.0
    ensures forall i: nat, j: nat :: i < j < n ==> (Linked(cs, i, j) <==> dist(i, j) < Radius(width))
    ensures forall a, b :: 0 <= a < b < |cs| ==> Before(cs[a], cs[b])
  {
    if width == 0 then
      assert forall i: nat, j: nat :: i < j < n ==> !(dist(i, j) < Radius(width));
      []
    else
      var cs := PairsFrom(0, n, Radius(width), dist);
      PairsFromSpec(0, n, Radius(width), dist);
      forall k | 0 <= k < |cs|
        ensures 0.0 < cs[k].strength <= 1.0
      {
        StrengthInRange(dist(cs[k].from, cs[k].to), Radius(width));
      }
      cs
  }

  /** Loop order means no pair is recorded twice. */
  lemma ConnectionsUnique(n: nat, width: nat, dist: (nat, nat) -> real, a: nat, b: nat)
    requires NonNegative(dist, n)
    requires a < b < |Connections(n, width, dist)|
    ensures var cs := Connections(n, width, dist);
      (cs[a].from, cs[a].to) != (cs[b].from, cs[b].to)
  {
  }

  lemma StrengthInRange(d: real, r: real)
    requires 0.0 <= d < r
    ensures 0.0 < 1.0 - d / r <= 1.0
  {
    assert d / r < 1.0;
  }

  // ---------------------------------------------------------------------
  // updateNodes
  // ---------------------------------------------------------------------

  /** One axis of the step: move, reverse the velocity when the moved
      coordinate left `[0, limit]`, then clamp into it. */
  function Axis(p: real, v: real, limit: real): (pv: (real, real))
    requires 0.0 <= limit
    ensures 0.0 <= pv.0 <= limit
    ensures 0.0 <= p + v <= limit ==> pv == (p + v, v)
    ensures p + v < 0.0 ==> pv == (0.0, -v)
    ensures limit < p + v ==> pv == (limit, -v)
  {
    var q := p + v;
    var v' := if q < 0.0 || q > limit then -v else v;
    var clamped := if q < 0.0 then 0.0 else if q > limit then limit else q;
    (clamped, v')
  }

  /** The pointer as seen from one node after its move: the `Math.sqrt`
      distance, and the velocity the node has after the pull and the speed
      cap (used only when the node is within reach). */
  datatype Pointer = Pointer(distance: real, vx: real, vy: real)

  /** Activation order without repetitions: a JavaScript `Set` of indices
      iterates in first-insertion order. */
  function Add(s: seq<nat>, k: nat): (r: seq<nat>)
    ensures Distinct(s) ==> Distinct(r)
    ensures forall x :: x in r <==> x in s || x == k
    ensures k in s ==> r == s
    ensures k !in s ==> r == s + [k]
  {
    if k in s then s else s + [k]
  }

  /** One node's step; `act` is the activation order so far. */
  function UpdateNode(node: Node, index: nat, width: nat, height: nat, ptr: Pointer, act: seq<nat>): (r: (Node, seq<nat>))
    ensures 0.0 <= r.0.x <= width as real && 0.0 <= r.0.y <= height as real
    ensures r.0.radius == node.radius
    ensures r.0.x == Axis(node.x, node.vx, width as real).0 && r.0.y == Axis(node.y, node.vy, height as real).0
    ensures ptr.distance < Reach ==> r.1 == Add(act, index) && r.0.vx == ptr.vx && r.0.vy == ptr.vy
    ensures Reach <= ptr.distance ==> r.1 == act
    ensures Reach <= ptr.distance ==>
      r.0.vx == Axis(node.x, node.vx, width as real).1 && r.0.vy == Axis(node.y, node.vy, height as real).1
  {
    var ax := Axis(node.x, node.vx, width as real);
    var ay := Axis(node.y, node.vy, height as real);
    if ptr.distance < Reach then (Node(ax.0, ay.0, ptr.vx, ptr.vy, node.radius), Add(act, index))
    else (Node(ax.0, ay.0, ax.1, ay.1, node.radius), act)
  }

  /** `updateNodes` over nodes `from` onward, in index order. */
  function UpdateFrom(nodes: seq<Node>, from: nat, width: nat, height: nat, ptrs: seq<Pointer>, act: seq<nat>): (r: (seq<Node>, seq<nat>))
    requires |ptrs| == |nodes| && from <= |nodes|
    ensures |r.0| == |nodes| - from
    ensures forall k :: 0 <= k < |r.0| ==> 0.0 <= r.0[k].x <= width as real && 0.0 <= r.0[k].y <= height as real
    ensures Distinct(act) ==> Distinct(r.1)
    ensures forall x :: x in r.1 <==> x in act || (exists k: nat :: from <= k < |nodes| && x == k && ptrs[k].distance < Reach)
    ensures r.1 == act + Reached(ptrs, from, act)
    decreases |nodes| - from
  {
    if from == |nodes| then ([], act)
    else
      var step := UpdateNode(nodes[from], from, width, height, ptrs[from], act);
      var rest := UpdateFrom(nodes, from + 1, width, height, ptrs, step.1);
      ReachedStep(ptrs, from, act);
      AppendReached(ptrs, from, act);
      ([step.0] + rest.0, rest.1)
  }

  /** A node's step does not depend on the activation set. */
  lemma StepIgnoresSet(node: Node, index: nat, width: nat, height: nat, ptr: Pointer, act: seq<nat>)
    ensures UpdateNode(node, index, width, height, ptr, act).0 == UpdateNode(node, index, width, height, ptr, []).0
  {
  }

  /** The nodes of a pass from `from` on, each after its own step. */
  function Steps(nodes: seq<Node>, from: nat, width: nat, height: nat, ptrs: seq<Pointer>): (r: seq<Node>)
    requires |ptrs| == |nodes| && from <= |nodes|
    ensures |r| == |nodes| - from
    ensures forall k :: 0 <= k < |r| ==> r[k] == UpdateNode(nodes[from + k], from + k, width, height, ptrs[from + k], []).0
    decreases |nodes| - from
  {
    if from == |nodes| then []
    else [UpdateNode(nodes[from], from, width, height, ptrs[from], []).0] + Steps(nodes, from + 1, width, height, ptrs)
  }

  /** Every node of the pass takes its own step, whatever the set holds. */
  lemma {:induction false} UpdateFromMoves(nodes: seq<Node>, from: nat, width: nat, height: nat, ptrs: seq<Pointer>, act: seq<nat>)
    requires |ptrs| == |nodes| && from <= |nodes|
    ensures UpdateFrom(nodes, from, width, height, ptrs, act).0 == Steps(nodes, from, width, height, ptrs)
    decreases |nodes| - from
  {
    if from < |nodes| {
      var step := UpdateNode(nodes[from], from, width, height, ptrs[from], act);
      UpdateFromMoves(nodes, from + 1, width, height, ptrs, step.1);
      StepIgnoresSet(nodes[from], from, width, height, ptrs[from], act);
    }
  }

  /** The indices `from` onward that the pointer reaches and that are not
      yet in `act`, in increasing order: what one pass of `updateNodes`
      adds to the insertion-ordered set. */
  function Reached(ptrs: seq<Pointer>, from: nat, act: seq<nat>): seq<nat>
    requires from <= |ptrs|
    decreases |ptrs| - from
  {
    if from == |ptrs| then []
    else (if ptrs[from].distance < Reach && from !in act then [from] else []) + Reached(ptrs, from + 1, act)
  }

  /** `Reached` holds exactly the reached indices from `from` on that are
      not yet in `act`, each once, in increasing order. */
  lemma {:induction false} ReachedSpec(ptrs: seq<Pointer>, from: nat, act: seq<nat>)
    requires from <= |ptrs|
    ensures forall x :: x in Reached(ptrs, from, act) <==> from <= x < |ptrs| && ptrs[x].distance < Reach && x !in act
    ensures forall i :: 0 <= i < |Reached(ptrs, from, act)| ==> from <= Reached(ptrs, from, act)[i]
    ensures forall a, b :: 0 <= a < b < |Reached(ptrs, from, act)| ==> Reached(ptrs, from, act)[a] < Reached(ptrs, from, act)[b]
    decreases |ptrs| - from
  {
    if from < |ptrs| {
      ReachedSpec(ptrs, from + 1, act);
      var rest := Reached(ptrs, from + 1, act);
      var head: seq<nat> := if ptrs[from].distance < Reach && from !in act then [from] else [];
      var f := Reached(ptrs, from, act);
      assert f == head + rest;
      forall i | 0 <= i < |f|
        ensures from <= f[i]
      {
        if i >= |head| {
          assert f[i] == rest[i - |head|];
        }
      }
      forall a, b | 0 <= a < b < |f|
        ensures f[a] < f[b]
      {
        assert f[b] == rest[b - |head|];
        if a >= |head| {
          assert f[a] == rest[a - |head|];
        }
      }
    }
  }

  /** Appending `Reached` keeps the set free of repetitions and adds
      exactly the reached indices. */
  lemma AppendReached(ptrs: seq<Pointer>, from: nat, act: seq<nat>)
    requires from <= |ptrs|
    ensures Distinct(act) ==> Distinct(act + Reached(ptrs, from, act))
    ensures forall x :: x in act + Reached(ptrs, from, act) <==>
      x in act || (exists k: nat :: from <= k < |ptrs| && x == k && ptrs[k].distance < Reach)
  {
    var f := Reached(ptrs, from, act);
    ReachedSpec(ptrs, from, act);
    if Distinct(act) {
      var s := act + f;
      forall a, b | 0 <= a < b < |s|
        ensures s[a] != s[b]
      {
        if b < |act| {
        } else if a < |act| {
          assert s[a] == act[a] && s[b] == f[b - |act|];
          assert f[b - |act|] in f;
        } else {
          assert s[a] == f[a - |act|] && s[b] == f[b - |act|];
        }
      }
    }
  }

  /** An index below `from` in the set does not change what a pass from
      `from` adds. */
  lemma {:induction false} ReachedIgnoresEarlier(ptrs: seq<Pointer>, from: nat, act: seq<nat>, x: nat)
    requires from <= |ptrs| && x < from
    ensures Reached(ptrs, from, act + [x]) == Reached(ptrs, from, act)
    decreases |ptrs| - from
  {
    if from < |ptrs| {
      ReachedIgnoresEarlier(ptrs, from + 1, act, x);
      assert (from in act + [x]) == (from in act);
      var head: seq<nat> := if ptrs[from].distance < Reach && from !in act then [from] else [];
      assert Reached(ptrs, from, act + [x]) == head + Reached(ptrs, from + 1, act + [x]);
    }
  }

  /** One step of the pass: adding `from` when it is reached and then
      passing over the rest appends the same indices as `Reached`. */
  lemma ReachedStep(ptrs: seq<Pointer>, from: nat, act: seq<nat>)
    requires from < |ptrs|
    ensures var next := if ptrs[from].distance < Reach then Add(act, from) else act;
      next + Reached(ptrs, from + 1, next) == act + Reached(ptrs, from, act)
  {
    if ptrs[from].distance < Reach && from !in act {
      ReachedIgnoresEarlier(ptrs, from + 1, act, from);
      assert Add(act, from) == act + [from];
      assert act + [from] + Reached(ptrs, from + 1, act) == act + ([from] + Reached(ptrs, from + 1, act));
    } else {
      assert Reached(ptrs, from, act) == [] + Reached(ptrs, from + 1, act);
    }
  }

  /** The whole animation state: the connections are part of it so that a
      frame can be seen to leave them alone. */
  datatype Scene = Scene(nodes: seq<Node>, connections: seq<Connection>, activated: seq<nat>)

  /** `Array.from(set).slice(-5)` when the set is not empty. */
  function KeepRecent(s: seq<nat>): (r: seq<nat>)
    ensures |r| <= Recent && |r| <= |s|
    ensures |s| <= Recent ==> r == s
    ensures |s| > Recent ==> |r| == Recent
    ensures r == s[|s| - |r|..]
    ensures Distinct(s) ==> Distinct(r)
  {
    if |s| <= Recent then s else s[|s| - Recent..]
  }

  /** One animation frame: `updateNodes`, then the fading at the end of `draw`. */
  function Frame(scene: Scene, width: nat, height: nat, ptrs: seq<Pointer>): (r: Scene)
    requires |ptrs| == |scene.nodes|
    ensures r.connections == scene.connections
    ensures |r.nodes| == |scene.nodes|
    ensures forall k :: 0 <= k < |r.nodes| ==> 0.0 <= r.nodes[k].x <= width as real && 0.0 <= r.nodes[k].y <= height as real
    ensures forall k :: 0 <= k < |r.nodes| ==> r.nodes[k] == UpdateNode(scene.nodes[k], k, width, height, ptrs[k], []).0
    ensures r.activated == KeepRecent(scene.activated + Reached(ptrs, 0, scene.activated))
    ensures |r.activated| <= Recent
    ensures Distinct(scene.activated) ==> Distinct(r.activated)
  {
    var u := UpdateFrom(scene.nodes, 0, width, height, ptrs, scene.activated);
    UpdateFromMoves(scene.nodes, 0, width, height, ptrs, scene.activated);
    Scene(u.0, scene.connections, KeepRecent(u.1))
  }

  /** The five most recent activations survive a frame, in order: the
      kept indices are the last five of the old set with the indices newly
      reached this frame appended in index order, and when at most five indices were
      active after the update none is dropped. */
  lemma FrameKeepsRecent(scene: Scene, width: nat, height: nat, ptrs: seq<Pointer>)
    requires |ptrs| == |scene.nodes|
    ensures var all := scene.activated + Reached(ptrs, 0, scene.activated);
      && Frame(scene, width, height, ptrs).activated == all[|all| - |Frame(scene, width, height, ptrs).activated|..]
      && (|all| <= Recent ==> Frame(scene, width, height, ptrs).activated == all)
  {
    var all := scene.activated + Reached(ptrs, 0, scene.activated);
    var kept := KeepRecent(all);
    assert Frame(scene, width, height, ptrs).activated == kept;
  }

  // ---------------------------------------------------------------------
  // draw
  // ---------------------------------------------------------------------

  /** Opacity of a connection's line: `min(0.2, strength)`, raised by half
      when both ends are active and halved when neither is. */
  function LineAlpha(c: Connection, activated: seq<nat>): (a: real)
    requires 0.0 < c.strength <= 1.0
    ensures 0.0 < a <= 0.3
  {
    var base := if c.strength < 0.2 then c.strength else 0.2;
    var fromOn := c.from in activated;
    var toOn := c.to in activated;
    if fromOn && toOn then base * 1.5
    else if fromOn || toOn then base
    else base * 0.5
  }

  /** Activating an endpoint never dims a line. */
  lemma ActivationBrightens(c: Connection, activated: seq<nat>, k: nat)
    requires 0.0 < c.strength <= 1.0
    ensures LineAlpha(c, activated) <= LineAlpha(c, Add(activated, k))
  {
  }
}

=== FILE: options.dfy ===
/** The optional-value type shared by every module of the model. */
module Options {

  /** `None` stands for JavaScript's `null`/`undefined` (or a thrown
      exception, where a module says so); `Some(v)` for a present value. */
  datatype Option<+T> = None | Some(value: T) {

    /** The value, or `default` when absent. */
    function GetOr(default: T): T {
      match this
      case Some(v) => v
      case None => default
    }
  }
}

=== FILE: particle_background.dfy ===
/** The particle canvas background (ParticleBackground.tsx): how many
    particles a window gets and how they are seeded, the per-frame move,
    edge wrap and pointer nudge, and the proximity links drawn between
    particles.

    `Math.random()` draws, `Math.hypot` distances and the pointer's
    `cos`/`sin` are inputs. */
module Particles {
  import opened Random

  const MaxParticles: nat := 100
  /** Links and the pointer's pull reach this far. */
  const Reach: real := 100.0

  datatype Particle = Particle(x: real, y: real, size: real, speedX: real, speedY: real, opacity: real)

  /** Number of loop iterations of `for (i = 0; i < min(width / 10, 100); i++)`
      for a whole-pixel width: the real bound makes it a ceiling. */
  function ParticleCount(width: nat): (n: nat)
    ensures n <= MaxParticles
    ensures n < MaxParticles ==> (n as real) >= width as real / 10.0 && (n == 0 || ((n - 1) as real) < width as real / 10.0)
    ensures n == MaxParticles ==> width as real / 10.0 > 99.0
  {
    if (width + 9) / 10 < MaxParticles then (width + 9) / 10 else MaxParticles
  }

  /** A particle as seeded from six draws in [0, 1). */
  function MakeParticle(width: nat, height: nat, d: seq<real>): (p: Particle)
    requires |d| == 6 && AllDraws(d)
    ensures 0.0 <= p.x <= width as real && 0.0 <= p.y <= height as real
    ensures 0.5 <= p.size < 2.5
    ensures -0.25 <= p.speedX < 0.25 && -0.25 <= p.speedY < 0.25
    ensures 0.1 <= p.opacity < 0.6
  {
    var x := Scaled(d[0], width as real);
    var y := Scaled(d[1], height as real);
    var size := Spread(d[2], 0.5, 2.0);
    var sx := Spread(d[3], -0.25, 0.5);
    var sy := Spread(d[4], -0.25, 0.5);
    var opacity := Spread(d[5], 0.1, 0.5);
    Particle(x, y, size, sx, sy, opacity)
  }

  /** `createParticles`: the loop runs while `i < min(width / 10, 100)`,
      with `i` an integer and the bound a real, seeding one particle per
      iteration. */
  method CreateParticles(width: nat, height: nat, draws: seq<seq<real>>) returns (ps: seq<Particle>)
    requires |draws| >= MaxParticles
    requires forall k :: 0 <= k < |draws| ==> |draws[k]| == 6 && AllDraws(draws[k])
    ensures |ps| == ParticleCount(width)
    ensures forall k :: 0 <= k < |ps| ==> ps[k] == MakeParticle(width, height, draws[k])
  {
    var bound := if width as real / 10.0 < 100.0 then width as real / 10.0 else 100.0;
    ps := [];
    var i := 0;
    while (i as real) < bound
      invariant 0 <= i <= MaxParticles
      invariant i == 0 || ((i - 1) as real) < bound
      invariant |ps| == i
      invariant forall k :: 0 <= k < i ==> ps[k] == MakeParticle(width, height, draws[k])
      decreases MaxParticles - i
    {
      ps := ps + [MakeParticle(width, height, draws[i])];
      i := i + 1;
    }
    CountIsCeiling(width, i, bound);
  }

  /** The loop exit condition pins the count down to the ceiling formula. */
  lemma CountIsCeiling(width: nat, i: nat, bound: real)
    requires bound == (if width as real / 10.0 < 100.0 then width as real / 10.0 else 100.0)
    requires bound <= i as real
    requires i == 0 || ((i - 1) as real) < bound
    ensures i == ParticleCount(width)
  {
    var c := (width + 9) / 10;
    assert c * 10 >= width && (c == 0 || (c - 1) * 10 < width);
    if bound == 100.0 {
      assert i == 100;
    }
  }

  /** A 95-pixel window gets ten particles, not nine. */
  lemma CountRoundsUp()
    ensures ParticleCount(95) == 10
  {
  }

  /** The edge wrap on one axis: below 0 jumps to the far edge, beyond the
      far edge jumps to 0. */
  function Wrap(p: real, limit: real): (r: real)
    requires 0.0 <= limit
    ensures 0.0 <= r <= limit
    ensures 0.0 <= p <= limit ==> r == p
    ensures p < 0.0 ==> r == limit
    ensures limit < p ==> r == 0.0
  {
    var q := if p < 0.0 then limit else p;
    if q > limit then 0.0 else q
  }

  /** The pointer as seen from one particle after its wrap: the
      `Math.hypot` distance, and `cos`/`sin` of the angle toward it. */
  datatype Pointer = Pointer(distance: real, cos: real, sin: real)

  /** One particle's update: move, wrap, then the nudge toward a close pointer. */
  function Step(p: Particle, width: nat, height: nat, ptr: Pointer): (r: Particle)
    ensures r.size == p.size && r.opacity == p.opacity && r.speedX == p.speedX && r.speedY == p.speedY
    ensures Reach <= ptr.distance ==>
      r.x == Wrap(p.x + p.speedX, width as real) && r.y == Wrap(p.y + p.speedY, height as real)
    ensures Reach <= ptr.distance ==> 0.0 <= r.x <= width as real && 0.0 <= r.y <= height as real
    ensures ptr.distance < Reach ==>
      r.x == Wrap(p.x + p.speedX, width as real) + ptr.cos * 0.2 && r.y == Wrap(p.y + p.speedY, height as real) + ptr.sin * 0.2
  {
    var x := Wrap(p.x + p.speedX, width as real);
    var y := Wrap(p.y + p.speedY, height as real);
    if ptr.distance < Reach then p.(x := x + ptr.cos * 0.2, y := y + ptr.sin * 0.2)
    else p.(x := x, y := y)
  }

  /** The nudge comes after the wrap, so a particle can end a frame just
      outside the canvas. */
  lemma NudgeCanLeaveCanvas()
    ensures Step(Particle(0.0, 5.0, 1.0, 0.0, 0.0, 0.5), 100, 100, Pointer(50.0, -1.0, 0.0)).x < 0.0
  {
  }

  /** The overshoot is bounded by the nudge: at most 0.2 beyond each edge. */
  lemma NudgeOvershootBounded(p: Particle, width: nat, height: nat, ptr: Pointer)
    requires -1.0 <= ptr.cos <= 1.0 && -1.0 <= ptr.sin <= 1.0
    ensures var r := Step(p, width, height, ptr);
      -0.2 <= r.x <= width as real + 0.2 && -0.2 <= r.y <= height as real + 0.2
  {
  }

  /** A link line: particles `i < j` and the line's opacity. */
  datatype Link = Link(i: nat, j: nat, alpha: real)

  /** Opacity of a link at distance `d`. */
  function LinkAlpha(d: real): (a: real)
    requires 0.0 <= d < Reach
    ensures 0.0 < a <= 0.15
  {
    0.15 * (1.0 - d / Reach)
  }

  /** Some link of the list goes to particle `j`. */
  predicate Reaches(ls: seq<Link>, j: nat) {
    exists k :: 0 <= k < |ls| && ls[k].j == j
  }

  /** Every link of `ls` starts at `i`, ends at a particle `j >= from` of
      `cur` closer than `Reach` to `moved`, and has that distance's opacity. */
  predicate RowLinks(ls: seq<Link>, i: nat, moved: Particle, cur: seq<Particle>, from: nat,
                     dist: (Particle, Particle) -> real)
    requires forall a: Particle, b: Particle :: dist(a, b) >= 0.0
  {
    forall k :: 0 <= k < |ls| ==>
      && ls[k].i == i && from <= ls[k].j < |cur|
      && dist(moved, cur[ls[k].j]) < Reach
      && ls[k].alpha == LinkAlpha(dist(moved, cur[ls[k].j]))
  }

  /** The links' far ends strictly increase. */
  predicate RowSorted(ls: seq<Link>) {
    forall a, b :: 0 <= a < b < |ls| ==> ls[a].j < ls[b].j
  }

  /** Exactly the particles `j >= from` closer than `Reach` to `moved` are reached. */
  predicate RowExact(ls: seq<Link>, moved: Particle, cur: seq<Particle>, from: nat,
                     dist: (Particle, Particle) -> real) {
    forall j :: from <= j < |cur| ==> (Reaches(ls, j) <==> dist(moved, cur[j]) < Reach)
  }

  /** The links of particle `i` (already moved to `moved`) to the particles
      `j >= from` of `cur`, which have not moved yet this frame. */
  function LinksOf(i: nat, moved: Particle, cur: seq<Particle>, from: nat, dist: (Particle, Particle) -> real): (ls: seq<Link>)
    requires i < from
    requires forall a: Particle, b: Particle :: dist(a, b) >= 0.0
    ensures RowLinks(ls, i, moved, cur, from, dist)
    ensures RowSorted(ls)
    ensures RowExact(ls, moved, cur, from, dist)
    decreases |cur| - from
  {
    if from >= |cur| then []
    else
      var rest := LinksOf(i, moved, cur, from + 1, dist);
      var d := dist(moved, cur[from]);
      if d < Reach then
        var l := Link(i, from, LinkAlpha(d));
        RowLinkAdded(l, rest, i, moved, cur, from, dist);
        [l] + rest
      else
        RowLinkSkipped(rest, i, moved, cur, from, dist);
        rest
  }

  /** A close particle `from` put in front of the row for `from + 1`. */
  lemma RowLinkAdded(l: Link, rest: seq<Link>, i: nat, moved: Particle, cur: seq<Particle>, from: nat,
                     dist: (Particle, Particle) -> real)
    requires forall a: Particle, b: Particle :: dist(a, b) >= 0.0
    requires from < |cur| && dist(moved, cur[from]) < Reach
    requires l == Link(i, from, LinkAlpha(dist(moved, cur[from])))
    requires RowLinks(rest, i, moved, cur, from + 1, dist) && RowSorted(rest)
    requires RowExact(rest, moved, cur, from + 1, dist)
    ensures RowLinks([l] + rest, i, moved, cur, from, dist) && RowSorted([l] + rest)
    ensures RowExact([l] + rest, moved, cur, from, dist)
  {
    ConsLink(l, rest);
    RowLinksCons(l, rest, i, moved, cur, from, dist);
    RowSortedCons(l, rest, from);
    RowExactCons(l, rest, moved, cur, from, dist);
  }

  /** The new link and the old ones all satisfy `RowLinks` from `from`. */
  lemma RowLinksCons(l: Link, rest: seq<Link>, i: nat, moved: Particle, cur: seq<Particle>, from: nat,
                     dist: (Particle, Particle) -> real)
    requires forall a: Particle, b: Particle :: dist(a, b) >= 0.0
    requires from < |cur| && dist(moved, cur[from]) < Reach
    requires l == Link(i, from, LinkAlpha(dist(moved, cur[from])))
    requires RowLinks(rest, i, moved, cur, from + 1, dist)
    ensures RowLinks([l] + rest, i, moved, cur, from, dist)
  {
    var ls := [l] + rest;
    forall k | 0 <= k < |ls|
      ensures && ls[k].i == i && from <= ls[k].j < |cur|
              && dist(moved, cur[ls[k].j]) < Reach
              && ls[k].alpha == LinkAlpha(dist(moved, cur[ls[k].j]))
    {
      if k > 0 {
        assert ls[k] == rest[k - 1];
      }
    }
  }

  /** A link to `from` in front of links to later particles keeps the order. */
  lemma RowSortedCons(l: Link, rest: seq<Link>, from: nat)
    requires l.j == from && RowSorted(rest)
    requires forall k :: 0 <= k < |rest| ==> from < rest[k].j
    ensures RowSorted([l] + rest)
  {
    var ls := [l] + rest;
    forall a, b | 0 <= a < b < |ls|
      ensures ls[a].j < ls[b].j
    {
      assert ls[b] == rest[b - 1];
      if a > 0 {
        assert ls[a] == rest[a - 1];
      }
    }
  }

  /** Reaching `from` in front of the row for `from + 1` gives the row for `from`. */
  lemma RowExactCons(l: Link, rest: seq<Link>, moved: Particle, cur: seq<Particle>, from: nat,
                     dist: (Particle, Particle) -> real)
    requires from < |cur| && dist(moved, cur[from]) < Reach && l.j == from
    requires RowExact(rest, moved, cur, from + 1, dist)
    requires forall j :: Reaches([l] + rest, j) <==> l.j == j || Reaches(rest, j)
    ensures RowExact([l] + rest, moved, cur, from, dist)
  {
  }

  /** A distant particle `from` leaves the row for `from + 1` as it is. */
  lemma RowLinkSkipped(rest: seq<Link>, i: nat, moved: Particle, cur: seq<Particle>, from: nat,
                       dist: (Particle, Particle) -> real)
    requires forall a: Particle, b: Particle :: dist(a, b) >= 0.0
    requires from < |cur| && Reach <= dist(moved, cur[from])
    requires RowLinks(rest, i, moved, cur, from + 1, dist)
    requires RowExact(rest, moved, cur, from + 1, dist)
    ensures RowLinks(rest, i, moved, cur, from, dist)
    ensures RowExact(rest, moved, cur, from, dist)
  {
    assert !Reaches(rest, from);
  }

  /** What putting one link in front of a list does to it. */
  lemma ConsLink(l: Link, rest: seq<Link>)
    ensures ([l] + rest)[0] == l
    ensures forall k :: 0 <= k < |rest| ==> ([l] + rest)[k + 1] == rest[k]
    ensures forall j :: Reaches([l] + rest, j) <==> l.j == j || Reaches(rest, j)
  {
    var ls := [l] + rest;
    forall j
      ensures Reaches(ls, j) <==> l.j == j || Reaches(rest, j)
    {
      if Reaches(rest, j) {
        var k :| 0 <= k < |rest| && rest[k].j == j;
        assert ls[k + 1].j == j;
      }
      if Reaches(ls, j) && l.j != j {
        var k :| 0 <= k < |ls| && ls[k].j == j;
        assert rest[k - 1].j == j;
      }
    }
  }

  /** Link order: by the first particle, then by the second. */
  predicate Before(a: Link, b: Link) {
    a.i < b.i || (a.i == b.i && a.j < b.j)
  }

  /** The `forEach` of `animate` from particle `k` on: `cur[..k]` have
      moved this frame and `cur[k..]` have not yet.  Returns the particles
      after the frame and the links drawn, in drawing order. */
  function AnimateFrom(cur: seq<Particle>, k: nat, width: nat, height: nat, ptrs: seq<Pointer>,
                       dist: (Particle, Particle) -> real): (r: (seq<Particle>, seq<Link>))
    requires k <= |cur| && |ptrs| == |cur|
    requires forall a: Particle, b: Particle :: dist(a, b) >= 0.0
    ensures |r.0| == |cur|
    ensures forall m :: 0 <= m < k ==> r.0[m] == cur[m]
    ensures forall m :: k <= m < |cur| ==> r.0[m] == Step(cur[m], width, height, ptrs[m])
    ensures forall a :: 0 <= a < |r.1| ==> k <= r.1[a].i < r.1[a].j < |cur| && 0.0 < r.1[a].alpha <= 0.15
    ensures forall a, b :: 0 <= a < b < |r.1| ==> Before(r.1[a], r.1[b])
    decreases |cur| - k
  {
    if k == |cur| then (cur, [])
    else
      var moved := Step(cur[k], width, height, ptrs[k]);
      var ls := LinksOf(k, moved, cur, k + 1, dist);
      var rest := AnimateFrom(cur[k := moved], k + 1, width, height, ptrs, dist);
      RowBounds(ls, k, moved, cur, k + 1, dist);
      FrameLinksAppend(ls, rest.1, k, |cur|);
      (rest.0, ls + rest.1)
  }

  /** The links of one row start at `i`, end after `from` and have an
      opacity in (0, 0.15]. */
  lemma RowBounds(ls: seq<Link>, i: nat, moved: Particle, cur: seq<Particle>, from: nat,
                  dist: (Particle, Particle) -> real)
    requires forall a: Particle, b: Particle :: dist(a, b) >= 0.0
    requires RowLinks(ls, i, moved, cur, from, dist)
    ensures forall a :: 0 <= a < |ls| ==> ls[a].i == i && from <= ls[a].j < |cur| && 0.0 < ls[a].alpha <= 0.15
  {
    forall a | 0 <= a < |ls|
      ensures 0.0 < ls[a].alpha <= 0.15
    {
      assert ls[a].alpha == LinkAlpha(dist(moved, cur[ls[a].j]));
    }
  }

  /** Particle `k`'s row in front of the links of the later particles
      keeps the links in drawing order and within bounds. */
  lemma FrameLinksAppend(ls: seq<Link>, rest: seq<Link>, k: nat, n: nat)
    requires forall a :: 0 <= a < |ls| ==> ls[a].i == k && k + 1 <= ls[a].j < n && 0.0 < ls[a].alpha <= 0.15
    requires RowSorted(ls)
    requires forall a :: 0 <= a < |rest| ==> k + 1 <= rest[a].i < rest[a].j < n && 0.0 < rest[a].alpha <= 0.15
    requires forall a, b :: 0 <= a < b < |rest| ==> Before(rest[a], rest[b])
    ensures forall a :: 0 <= a < |ls + rest| ==>
      k <= (ls + rest)[a].i < (ls + rest)[a].j < n && 0.0 < (ls + rest)[a].alpha <= 0.15
    ensures forall a, b :: 0 <= a < b < |ls + rest| ==> Before((ls + rest)[a], (ls + rest)[b])
  {
    var links := ls + rest;
    assert forall a :: 0 <= a < |rest| ==> links[|ls| + a] == rest[a];
    assert forall a :: 0 <= a < |ls| ==> links[a] == ls[a];
  }

  /** One frame of `animate`.  Every particle's new state depends only on
      its own old state, and each pair of particles is considered for a
      link once, with the lower index first. */
  function Animate(ps: seq<Particle>, width: nat, height: nat, ptrs: seq<Pointer>,
                   dist: (Particle, Particle) -> real): (r: (seq<Particle>, seq<Link>))
    requires |ptrs| == |ps|
    requires forall a: Particle, b: Particle :: dist(a, b) >= 0.0
    ensures |r.0| == |ps|
    ensures forall m :: 0 <= m < |ps| ==> r.0[m] == Step(ps[m], width, height, ptrs[m])
    ensures forall a :: 0 <= a < |r.1| ==> r.1[a].i < r.1[a].j < |ps| && 0.0 < r.1[a].alpha <= 0.15
    ensures forall a, b :: 0 <= a < b < |r.1| ==> (r.1[a].i, r.1[a].j) != (r.1[b].i, r.1[b].j)
    ensures LinksExact(r.1, ps, 0, width, height, ptrs, dist)
    ensures AlphasExact(r.1, ps, 0, width, height, ptrs, dist)
  {
    FrameLinks(ps, 0, width, height, ptrs, dist);
    AnimateFrom(ps, 0, width, height, ptrs, dist)
  }

  /** The list holds a link from particle `i` to particle `j`. */
  predicate Linked(ls: seq<Link>, i: nat, j: nat) {
    exists a :: 0 <= a < |ls| && ls[a].i == i && ls[a].j == j
  }

  /** The distance the frame measures for the pair `i < j`: particle `i`
      after its own update against particle `j` before its update. */
  function PairDistance(cur: seq<Particle>, i: nat, j: nat, width: nat, height: nat, ptrs: seq<Pointer>,
                        dist: (Particle, Particle) -> real): real
    requires i < j < |cur| && |ptrs| == |cur|
  {
    dist(Step(cur[i], width, height, ptrs[i]), cur[j])
  }

  /** Among the pairs `lo <= i < j`, exactly the close ones are linked. */
  predicate LinksExact(ls: seq<Link>, cur: seq<Particle>, lo: nat, width: nat, height: nat, ptrs: seq<Pointer>,
                       dist: (Particle, Particle) -> real)
    requires |ptrs| == |cur|
  {
    forall i, j :: lo <= i < j < |cur| ==>
      (Linked(ls, i, j) <==> PairDistance(cur, i, j, width, height, ptrs, dist) < Reach)
  }

  /** Every link joins a close pair `lo <= i < j` and is drawn with the
      opacity of that pair's distance. */
  predicate AlphasExact(ls: seq<Link>, cur: seq<Particle>, lo: nat, width: nat, height: nat, ptrs: seq<Pointer>,
                        dist: (Particle, Particle) -> real)
    requires |ptrs| == |cur|
    requires forall a: Particle, b: Particle :: dist(a, b) >= 0.0
  {
    forall a :: 0 <= a < |ls| ==>
      && lo <= ls[a].i < ls[a].j < |cur|
      && PairDistance(cur, ls[a].i, ls[a].j, width, height, ptrs, dist) < Reach
      && ls[a].alpha == LinkAlpha(PairDistance(cur, ls[a].i, ls[a].j, width, height, ptrs, dist))
  }

  /** The links of one frame from particle `k` on: a pair `k <= i < j` is
      linked exactly when moved particle `i` and unmoved particle `j` are
      closer than `Reach`, with opacity falling off with the distance. */
  lemma {:induction false} FrameLinks(cur: seq<Particle>, k: nat, width: nat, height: nat, ptrs: seq<Pointer>,
                                      dist: (Particle, Particle) -> real)
    requires k <= |cur| && |ptrs| == |cur|
    requires forall a: Particle, b: Particle :: dist(a, b) >= 0.0
    ensures LinksExact(AnimateFrom(cur, k, width, height, ptrs, dist).1, cur, k, width, height, ptrs, dist)
    ensures AlphasExact(AnimateFrom(cur, k, width, height, ptrs, dist).1, cur, k, width, height, ptrs, dist)
    decreases |cur| - k
  {
    if k < |cur| {
      var moved := Step(cur[k], width, height, ptrs[k]);
      var ls := LinksOf(k, moved, cur, k + 1, dist);
      var cur' := cur[k := moved];
      var rest := AnimateFrom(cur', k + 1, width, height, ptrs, dist).1;
      FrameLinks(cur', k + 1, width, height, ptrs, dist);
      var links := ls + rest;
      assert AnimateFrom(cur, k, width, height, ptrs, dist).1 == links;
      assert forall i, j :: k < i < j < |cur| ==>
        PairDistance(cur', i, j, width, height, ptrs, dist) == PairDistance(cur, i, j, width, height, ptrs, dist) by {
        forall i, j | k < i < j < |cur|
          ensures PairDistance(cur', i, j, width, height, ptrs, dist) == PairDistance(cur, i, j, width, height, ptrs, dist)
        {
          assert cur'[i] == cur[i] && cur'[j] == cur[j];
        }
      }
      forall i, j | k <= i < j < |cur|
        ensures Linked(links, i, j) <==> PairDistance(cur, i, j, width, height, ptrs, dist) < Reach
      {
        LinkedAppend(ls, rest, i, j);
        if i == k {
          assert !Linked(rest, i, j);
          assert Linked(ls, i, j) <==> Reaches(ls, j);
        } else {
          assert !Linked(ls, i, j);
          assert Linked(rest, i, j) <==> PairDistance(cur', i, j, width, height, ptrs, dist) < Reach;
        }
      }
      forall a | 0 <= a < |links|
        ensures && k <= links[a].i < links[a].j < |cur|
                && PairDistance(cur, links[a].i, links[a].j, width, height, ptrs, dist) < Reach
                && links[a].alpha == LinkAlpha(PairDistance(cur, links[a].i, links[a].j, width, height, ptrs, dist))
      {
        if a < |ls| {
          assert links[a] == ls[a];
        } else {
          assert links[a] == rest[a - |ls|];
        }
      }
    }
  }

  /** A link is in a concatenation exactly when it is in one of the parts. */
  lemma LinkedAppend(a: seq<Link>, b: seq<Link>, i: nat, j: nat)
    ensures Linked(a + b, i, j) <==> Linked(a, i, j) || Linked(b, i, j)
  {
    var c := a + b;
    if Linked(a, i, j) {
      var x :| 0 <= x < |a| && a[x].i == i && a[x].j == j;
      assert c[x] == a[x];
    }
    if Linked(b, i, j) {
      var x :| 0 <= x < |b| && b[x].i == i && b[x].j == j;
      assert c[|a| + x] == b[x];
    }
    if Linked(c, i, j) {
      var x :| 0 <= x < |c| && c[x].i == i && c[x].j == j;
      if x >= |a| {
        assert b[x - |a|] == c[x];
      }
    }
  }
}

=== FILE: progress_preview.dfy ===
/** The sheet-URL rewriter of the progress preview (`getPreviewUrl` in
    projects/ProgressPreview.tsx): a Google Sheets link is turned into the
    minimal embedded-editor link for the same sheet; any other string is
    passed through. */
module ProgressPreview {
  import opened Options
  import opened Strings

  /** The literal part of `/spreadsheets\/d\/([a-zA-Z0-9-_]+)/`. */
  const Marker: string := "spreadsheets/d/"

  const Prefix: string := "https://docs.google.com/spreadsheets/d/"
  const Suffix: string := "/edit?usp=sharing&rm=minimal&single=true" + "&gid=0&headers=false&chrome=false"

  /** The class `[a-zA-Z0-9-_]`: both `-` and `_` are literal members. */
  predicate IsIdChar(c: char) {
    ('a' <= c <= 'z') || ('A' <= c <= 'Z') || ('0' <= c <= '9') || c == '-' || c == '_'
  }

  /** The regular expression matches at `i`: the marker, then at least one id character. */
  predicate MatchAt(s: string, i: nat) {
    OccursAt(s, i, Marker) && i + |Marker| < |s| && IsIdChar(s[i + |Marker|])
  }

  /** `i` is where the leftmost match of the regular expression starts. */
  predicate IsLeftmostMatch(s: string, i: nat) {
    MatchAt(s, i) && forall k: nat :: k < i ==> !MatchAt(s, k)
  }

  /** `s[j..j + n]` is a non-empty maximal run of id characters: what the
      greedy `+` captures. */
  predicate IsMaxRun(s: string, j: nat, n: nat) {
    && 0 < n && j + n <= |s|
    && (forall k :: j <= k < j + n ==> IsIdChar(s[k]))
    && (j + n == |s| || !IsIdChar(s[j + n]))
  }

  /** The leftmost match at or after `from`. */
  function FirstMatchFrom(s: string, from: nat): (r: Option<nat>)
    ensures r.Some? ==> from <= r.value && MatchAt(s, r.value)
    ensures r.Some? ==> forall k: nat :: from <= k < r.value ==> !MatchAt(s, k)
    ensures r.None? ==> forall k: nat :: from <= k ==> !MatchAt(s, k)
    decreases |s| - from
  {
    if from >= |s| then None
    else if MatchAt(s, from) then Some(from)
    else FirstMatchFrom(s, from + 1)
  }

  /** Length of the run of id characters starting at `j`. */
  function IdRun(s: string, j: nat): (n: nat)
    requires j <= |s|
    ensures j + n <= |s|
    ensures forall k :: j <= k < j + n ==> IsIdChar(s[k])
    ensures j + n == |s| || !IsIdChar(s[j + n])
    decreases |s| - j
  {
    if j == |s| || !IsIdChar(s[j]) then 0 else 1 + IdRun(s, j + 1)
  }

  /** A run of id characters that stops where the characters stop is the
      one `IdRun` measures. */
  lemma {:induction false} IdRunExact(s: string, j: nat, n: nat)
    requires j + n <= |s|
    requires forall k :: j <= k < j + n ==> IsIdChar(s[k])
    requires j + n == |s| || !IsIdChar(s[j + n])
    ensures IdRun(s, j) == n
    decreases n
  {
    if n > 0 {
      IdRunExact(s, j + 1, n - 1);
    }
  }

  /** The regular expression matches first at `i` and captures `n` characters. */
  predicate Capture(s: string, i: nat, n: nat) {
    IsLeftmostMatch(s, i) && IsMaxRun(s, i + |Marker|, n)
  }

  /** There is at most one leftmost match and one maximal run after it. */
  lemma CaptureUnique(s: string, i: nat, n: nat, i': nat, n': nat)
    requires Capture(s, i, n) && Capture(s, i', n')
    ensures i == i' && n == n'
  {
    IdRunExact(s, i + |Marker|, n);
    IdRunExact(s, i' + |Marker|, n');
  }

  /** The id a capture at `i` of length `n` takes from `s`. */
  function CapturedId(s: string, i: nat, n: nat): string
    requires i + |Marker| + n <= |s|
  {
    s[i + |Marker|..i + |Marker| + n]
  }

  /** The minimal embedded-editor link for the sheet `id`. */
  function EmbedLink(id: string): string {
    Prefix + id + Suffix
  }

  /** `getPreviewUrl`: with no match the input comes back unchanged;
      otherwise the result is the fixed prefix, the id captured after the
      leftmost match, and the fixed suffix; the rest of the input is dropped. */
  function PreviewUrl(url: string): (r: string)
    ensures (forall k: nat :: !MatchAt(url, k)) ==> r == url
    ensures forall i: nat, n: nat :: Capture(url, i, n) ==> r == EmbedLink(CapturedId(url, i, n))
  {
    match FirstMatchFrom(url, 0)
    case None =>
      NoCapture(url);
      url
    case Some(i) =>
      CaptureFound(url, i);
      EmbedLink(CapturedId(url, i, IdRun(url, i + |Marker|)))
  }

  /** Without a match there is nothing to capture. */
  lemma NoCapture(url: string)
    requires FirstMatchFrom(url, 0).None?
    ensures forall k: nat :: !MatchAt(url, k)
    ensures forall i: nat, n: nat :: !Capture(url, i, n)
  {
    assert forall i: nat, n: nat :: Capture(url, i, n) ==> MatchAt(url, i);
  }

  /** The leftmost match and the id run after it form a capture. */
  lemma LeftmostCaptures(url: string, i: nat)
    requires FirstMatchFrom(url, 0) == Some(i)
    ensures i + |Marker| <= |url|
    ensures Capture(url, i, IdRun(url, i + |Marker|))
  {
    var j := i + |Marker|;
    assert IsLeftmostMatch(url, i);
    assert IsMaxRun(url, j, IdRun(url, j)) by {
      assert IsIdChar(url[j]);
    }
  }

  /** The leftmost match and the id run after it form the only capture. */
  lemma CaptureFound(url: string, i: nat)
    requires FirstMatchFrom(url, 0) == Some(i)
    ensures i + |Marker| <= |url|
    ensures Capture(url, i, IdRun(url, i + |Marker|))
    ensures forall i': nat, n': nat :: Capture(url, i', n') ==> i' == i && n' == IdRun(url, i + |Marker|)
  {
    var n := IdRun(url, i + |Marker|);
    LeftmostCaptures(url, i);
    forall i': nat, n': nat | Capture(url, i', n')
      ensures i' == i && n' == n
    {
      CaptureUnique(url, i, n, i', n');
    }
  }

  /** Every match has a leftmost one and a maximal id run after it. */
  lemma MatchHasCapture(url: string, k: nat)
    requires MatchAt(url, k)
    ensures exists i: nat, n: nat :: Capture(url, i, n)
  {
    LeftmostCaptures(url, FirstMatchFrom(url, 0).value);
  }

  lemma PrefixFacts()
    ensures |Prefix| == 39 && Prefix[24..] == Marker
    ensures forall k :: 0 <= k < 24 ==> Prefix[k] != 's' || Prefix[k + 1] != 'p'
  {
    assert Prefix == "https://docs.google.com/spreadsheets/d/";
    assert Marker == "spreadsheets/d/";
  }

  lemma SuffixFacts()
    ensures |Suffix| > 0 && Suffix[0] == '/'
  {
    var head := "/edit?usp=sharing&rm=minimal&single=true";
    assert Suffix == head + "&gid=0&headers=false&chrome=false";
    assert head[0] == '/';
  }

  /** Every match starts with "sp". */
  lemma MatchStartsSp(s: string, k: nat)
    requires MatchAt(s, k)
    ensures s[k] == 's' && s[k + 1] == 'p'
  {
    var m := s[k..k + |Marker|];
    assert m == Marker;
    assert Marker[0] == 's' && Marker[1] == 'p';
    assert s[k] == m[0] && s[k + 1] == m[1];
  }

  /** So no match starts where "sp" does not. */
  lemma MatchNeedsSp(s: string, k: nat)
    requires k + 1 < |s| && (s[k] != 's' || s[k + 1] != 'p')
    ensures !MatchAt(s, k)
  {
    if MatchAt(s, k) {
      MatchStartsSp(s, k);
    }
  }

  /** No match can start inside "https://docs.google.com/". */
  lemma NoEarlyMatch(out: string)
    requires |out| >= 39 && out[..39] == Prefix
    ensures forall k: nat :: k < 24 ==> !MatchAt(out, k)
  {
    PrefixFacts();
    forall k: nat | k < 24
      ensures !MatchAt(out, k)
    {
      assert out[k] == Prefix[k] && out[k + 1] == Prefix[k + 1];
      MatchNeedsSp(out, k);
    }
  }

  /** In a rewritten link the marker sits right after "https://docs.google.com/"
      and nowhere earlier, and the id runs up to the suffix's slash. */
  lemma RewrittenMatch(id: string)
    requires id != [] && forall k :: 0 <= k < |id| ==> IsIdChar(id[k])
    ensures Capture(Prefix + id + Suffix, 24, |id|)
  {
    PrefixFacts();
    SuffixFacts();
    var out := Prefix + id + Suffix;
    assert out[..39] == Prefix;
    NoEarlyMatch(out);
    assert out[24..39] == Marker;
    assert out[39] == id[0];
    assert MatchAt(out, 24);
    assert out[39 + |id|] == Suffix[0];
    forall k | 39 <= k < 39 + |id|
      ensures IsIdChar(out[k])
    {
      assert out[k] == id[k - 39];
    }
  }

  /** Rewriting is idempotent: a rewritten link rewrites to itself. */
  lemma PreviewUrlIdempotent(url: string)
    ensures PreviewUrl(PreviewUrl(url)) == PreviewUrl(url)
  {
    if i: nat, n: nat :| Capture(url, i, n) {
      var id := CapturedId(url, i, n);
      assert PreviewUrl(url) == Prefix + id + Suffix;
      RewrittenMatch(id);
      PrefixFacts();
      var out := Prefix + id + Suffix;
      assert out[39..39 + |id|] == id;
    } else {
      forall k: nat
        ensures !MatchAt(url, k)
      {
        if MatchAt(url, k) {
          MatchHasCapture(url, k);
        }
      }
    }
  }
}

=== FILE: project_card.dfy ===
/** Icon choice of a project card (projects/ProjectCard.tsx): features and
    technologies are mapped one-for-one to display items with an icon. */
module ProjectCard {
  import opened Strings

  /** A feature as passed in; its icon name is declared as one of "mail",
      "bot" and "mic", but nothing checks that at run time. */
  datatype Feature = Feature(title: string, description: string, icon: string)

  /** The icons a card can draw. */
  datatype Icon = Mail | Bot | Mic | N8n

  datatype FeatureItem = FeatureItem(title: string, description: string, icon: Icon)

  datatype TechItem = TechItem(name: string, icon: Icon)

  /** The nested conditional of `featureItems`: "mail", then "mic", and
      every other name is drawn as a bot. */
  function FeatureIconOf(name: string): (i: Icon)
    ensures i == Mail <==> name == "mail"
    ensures i == Mic <==> name == "mic"
    ensures i == Bot <==> name != "mail" && name != "mic"
  {
    if name == "mail" then Mail else if name == "mic" then Mic else Bot
  }

  /** `features.map(...)`: title and description copied, icon classified. */
  function FeatureItems(fs: seq<Feature>): (r: seq<FeatureItem>)
    ensures |r| == |fs|
    ensures forall k :: 0 <= k < |fs| ==>
      r[k].title == fs[k].title && r[k].description == fs[k].description && r[k].icon == FeatureIconOf(fs[k].icon)
  {
    seq(|fs|, k requires 0 <= k < |fs| => FeatureItem(fs[k].title, fs[k].description, FeatureIconOf(fs[k].icon)))
  }

  /** The declared icon names. */
  predicate IsDeclaredIcon(name: string) {
    name == "mail" || name == "bot" || name == "mic"
  }

  /** The declared name an item's icon stands for. */
  function FeatureNameOf(i: Icon): (name: string)
    ensures IsDeclaredIcon(name)
    ensures i != N8n ==> FeatureIconOf(name) == i
  {
    match i
    case Mail => "mail"
    case Mic => "mic"
    case _ => "bot"
  }

  /** With declared icon names only, the feature list is recoverable from
      the items: distinct names never share an icon. */
  lemma FeatureItemsInvertible(fs: seq<Feature>)
    requires forall k :: 0 <= k < |fs| ==> IsDeclaredIcon(fs[k].icon)
    ensures var items := FeatureItems(fs);
      forall k :: 0 <= k < |fs| ==>
        fs[k] == Feature(items[k].title, items[k].description, FeatureNameOf(items[k].icon))
  {
    var items := FeatureItems(fs);
    forall k | 0 <= k < |fs|
      ensures fs[k] == Feature(items[k].title, items[k].description, FeatureNameOf(items[k].icon))
    {
      assert items[k].icon == FeatureIconOf(fs[k].icon);
      assert "mail" != "bot" && "mic" != "bot";
    }
  }

  /** The `if`/`else if` of `techItems`: "n8n" is looked for first, then
      "OpenAI", both case-sensitively; anything else gets the mail icon. */
  function TechIconOf(tech: string): (i: Icon)
    ensures i == N8n <==> Contains(tech, "n8n")
    ensures i == Bot <==> !Contains(tech, "n8n") && Contains(tech, "OpenAI")
    ensures i == Mail <==> !Contains(tech, "n8n") && !Contains(tech, "OpenAI")
    ensures i != Mic
  {
    if Contains(tech, "n8n") then N8n
    else if Contains(tech, "OpenAI") then Bot
    else Mail
  }

  /** `technologies.map(...)`: the name kept, the icon classified. */
  function TechItems(ts: seq<string>): (r: seq<TechItem>)
    ensures |r| == |ts|
    ensures forall k :: 0 <= k < |ts| ==> r[k].name == ts[k] && r[k].icon == TechIconOf(ts[k])
  {
    seq(|ts|, k requires 0 <= k < |ts| => TechItem(ts[k], TechIconOf(ts[k])))
  }

  /** The names of the tech items are the technologies, in order. */
  lemma TechNamesPreserved(ts: seq<string>)
    ensures var items := TechItems(ts);
      seq(|items|, k requires 0 <= k < |items| => items[k].name) == ts
  {
  }

  /** A name mentioning both gets the n8n icon: "n8n" wins over "OpenAI". */
  lemma N8nBeatsOpenAI(a: string, b: string, c: string)
    ensures TechIconOf(a + "n8n" + b + "OpenAI" + c) == N8n
    ensures TechIconOf(a + "OpenAI" + b + "n8n" + c) == N8n
  {
    var s1 := a + "n8n" + b + "OpenAI" + c;
    assert s1[|a|..|a| + 3] == "n8n";
    assert OccursAt(s1, |a|, "n8n");
    var s2 := a + "OpenAI" + b + "n8n" + c;
    var j := |a| + 6 + |b|;
    assert s2[j..j + 3] == "n8n";
    assert OccursAt(s2, j, "n8n");
  }

  /** Matching is case-sensitive: "N8N" and "openai" alone fall through
      to the mail icon. */
  lemma TechMatchIsCaseSensitive()
    ensures TechIconOf("N8N") == Mail
    ensures TechIconOf("openai") == Mail
  {
    assert !Contains("N8N", "n8n") by {
      forall i | 0 <= i <= 3 ensures !OccursAt("N8N", i, "n8n") {
        if i == 0 { assert "N8N"[0] != "n8n"[0]; }
      }
    }
    assert !Contains("openai", "OpenAI") by {
      forall i | 0 <= i <= 6 ensures !OccursAt("openai", i, "OpenAI") {
        if i == 0 { assert "openai"[0] != "OpenAI"[0]; }
      }
    }
    assert !Contains("openai", "n8n") by {
      forall i | 0 <= i <= 6 ensures !OccursAt("openai", i, "n8n") {
        if i + 3 <= 6 { assert "openai"[i] != 'n' || "openai"[i + 1] != '8'; }
      }
    }
  }
}

=== FILE: reader_session.dfy ===
/** The text reader's session: stored preferences, the setting handlers,
    and the playback flags driven by the buttons and by the speech
    engine's utterance callbacks (TextReader.tsx).

    The speech engine is outside the model.  Each handler returns the calls
    it makes on the engine; the engine's `onstart`, `onend` and `onerror`
    callbacks are events that may arrive at any time.  `localStorage` is a
    string map, and `parseFloat` / `Number.prototype.toString` are
    parameters. */
module ReaderSession {
  import opened Options
  import opened Storage
  import opened Strings
  import opened Voices
  import Upload

  const VoiceKey: string := "voiceName"
  const RateKey: string := "speechRate"
  const PitchKey: string := "speechPitch"

  /** The initial slider values. */
  const DefaultRate: real := 1.0
  const DefaultPitch: real := 1.0

  /** The ranges a stored value must fall in to be adopted (also the
      sliders' bounds). */
  const MinRate: real := 0.5
  const MaxRate: real := 1.4
  const MinPitch: real := 0.5
  const MaxPitch: real := 1.5

  /** The mount effect's rule for one stored number: a present, non-empty
      string whose parse lies in `[lo, hi]` replaces `current`; anything
      else (absent, empty, not a number, out of range) leaves `current`.
      Out-of-range values are discarded, not clamped.  `parse` returns
      `None` for NaN. */
  function AdoptStored(raw: Option<string>, parse: string -> Option<real>, lo: real, hi: real, current: real): (r: real)
    ensures r != current ==> raw.Some? && raw.value != "" && parse(raw.value) == Some(r) && lo <= r <= hi
    ensures raw.Some? && raw.value != "" && parse(raw.value).Some? && lo <= parse(raw.value).value <= hi
            ==> r == parse(raw.value).value
  {
    match raw
    case None => current
    case Some(s) =>
      if s == "" then current
      else
        match parse(s)
        case None => current
        case Some(v) => if lo <= v && v <= hi then v else current
  }

  datatype Utterance = Utterance(text: string, voice: Option<Voice>, rate: real, pitch: real)

  /** Calls made on the speech engine. */
  datatype EngineCall = Cancel | Speak(utterance: Utterance) | PauseSpeech | ResumeSpeech

  /** The reader component's state.  `hasEngine` is whether
      `window.speechSynthesis` exists. */
  datatype Reader = Reader(
    hasEngine: bool,
    text: string,
    voices: seq<Voice>,
    selected: string,
    rate: real,
    pitch: real,
    playing: bool,
    paused: bool,
    store: Store)

  datatype Step = Step(reader: Reader, calls: seq<EngineCall>)

  /** Freshly mounted, before the effects run. */
  function Initial(hasEngine: bool, store: Store): (r: Reader)
    ensures !r.playing && !r.paused && r.text == [] && r.voices == [] && r.selected == ""
    ensures r.rate == DefaultRate && r.pitch == DefaultPitch
    ensures r.store == store && r.hasEngine == hasEngine
  {
    Reader(hasEngine, [], [], "", DefaultRate, DefaultPitch, false, false, store)
  }

  /** The settings-loading mount effect. */
  function LoadSettings(r: Reader, parse: string -> Option<real>): (r': Reader)
    ensures r'.rate == r.rate || MinRate <= r'.rate <= MaxRate
    ensures r'.pitch == r.pitch || MinPitch <= r'.pitch <= MaxPitch
    ensures r' == r.(rate := r'.rate, pitch := r'.pitch)
  {
    r.(rate := AdoptStored(GetItem(r.store, RateKey), parse, MinRate, MaxRate, r.rate),
       pitch := AdoptStored(GetItem(r.store, PitchKey), parse, MinPitch, MaxPitch, r.pitch))
  }

  /** `handleVoiceChange`: select and persist at once. */
  function ChooseVoice(r: Reader, name: string): (r': Reader)
    ensures r'.selected == name && GetItem(r'.store, VoiceKey) == Some(name)
    ensures forall k :: k != VoiceKey ==> GetItem(r'.store, k) == GetItem(r.store, k)
    ensures r' == r.(selected := name, store := r'.store)
  {
    r.(selected := name, store := SetItem(r.store, VoiceKey, name))
  }

  /** `handleRateChange`; `show` is `Number.prototype.toString`. */
  function ChooseRate(r: Reader, rate: real, show: real -> string): (r': Reader)
    ensures r'.rate == rate && GetItem(r'.store, RateKey) == Some(show(rate))
    ensures forall k :: k != RateKey ==> GetItem(r'.store, k) == GetItem(r.store, k)
    ensures r' == r.(rate := rate, store := r'.store)
  {
    r.(rate := rate, store := SetItem(r.store, RateKey, show(rate)))
  }

  /** `handlePitchChange`. */
  function ChoosePitch(r: Reader, pitch: real, show: real -> string): (r': Reader)
    ensures r'.pitch == pitch && GetItem(r'.store, PitchKey) == Some(show(pitch))
    ensures forall k :: k != PitchKey ==> GetItem(r'.store, k) == GetItem(r.store, k)
    ensures r' == r.(pitch := pitch, store := r'.store)
  {
    r.(pitch := pitch, store := SetItem(r.store, PitchKey, show(pitch)))
  }

  /** A rate or pitch set on the slider survives a reload: the next mount
      adopts the stored value, provided the number prints and parses back
      to itself. */
  lemma SettingsSurviveReload(r: Reader, rate: real, pitch: real, show: real -> string, parse: string -> Option<real>, other: Reader)
    requires MinRate <= rate <= MaxRate && MinPitch <= pitch <= MaxPitch
    requires show(rate) != "" && parse(show(rate)) == Some(rate)
    requires show(pitch) != "" && parse(show(pitch)) == Some(pitch)
    ensures var saved := ChoosePitch(ChooseRate(r, rate, show), pitch, show).store;
            var loaded := LoadSettings(other.(store := saved), parse);
            loaded.rate == rate && loaded.pitch == pitch
  {
    var saved := ChoosePitch(ChooseRate(r, rate, show), pitch, show).store;
    assert GetItem(saved, RateKey) == Some(show(rate));
    assert GetItem(saved, PitchKey) == Some(show(pitch));
  }

  /** `v` is the first voice of the list called `name`. */
  predicate FirstNamed(voices: seq<Voice>, name: string, v: Voice) {
    exists k :: 0 <= k < |voices| && voices[k] == v && v.name == name
      && forall j :: 0 <= j < k ==> voices[j].name != name
  }

  /** `voices.find(v => v.name === name)`. */
  function FindVoice(voices: seq<Voice>, name: string): (r: Option<Voice>)
    ensures r.Some? ==> r.value in voices && r.value.name == name
    ensures r.Some? ==> FirstNamed(voices, name, r.value)
    ensures r.None? ==> forall k :: 0 <= k < |voices| ==> voices[k].name != name
  {
    if voices == [] then None
    else if voices[0].name == name then Some(voices[0])
    else FindVoice(voices[1..], name)
  }

  /** `speak`: nothing without an engine or with blank text; otherwise
      cancel whatever is speaking and speak the whole text with the chosen
      voice (when listed), rate and pitch.  The flags change only when the
      engine reports `onstart`. */
  function SpeakPressed(r: Reader): (s: Step)
    ensures s.reader == r
    ensures !r.hasEngine || IsBlank(r.text) ==> s.calls == []
    ensures r.hasEngine && !IsBlank(r.text) ==>
      && |s.calls| == 2 && s.calls[0] == Cancel && s.calls[1].Speak?
      && s.calls[1].utterance.text == r.text
      && s.calls[1].utterance.rate == r.rate && s.calls[1].utterance.pitch == r.pitch
      && (s.calls[1].utterance.voice.Some? ==> FirstNamed(r.voices, r.selected, s.calls[1].utterance.voice.value))
      && (s.calls[1].utterance.voice.None? <==> forall k :: 0 <= k < |r.voices| ==> r.voices[k].name != r.selected)
  {
    if !r.hasEngine || Trim(r.text) == [] then Step(r, [])
    else Step(r, [Cancel, Speak(Utterance(r.text, FindVoice(r.voices, r.selected), r.rate, r.pitch))])
  }

  /** `pause`: only while playing. */
  function PausePressed(r: Reader): (s: Step)
    ensures r.hasEngine && r.playing ==> s == Step(r.(paused := true), [PauseSpeech])
    ensures !(r.hasEngine && r.playing) ==> s == Step(r, [])
  {
    if r.hasEngine && r.playing then Step(r.(paused := true), [PauseSpeech]) else Step(r, [])
  }

  /** `resume`: only while paused. */
  function ResumePressed(r: Reader): (s: Step)
    ensures r.hasEngine && r.paused ==> s == Step(r.(paused := false), [ResumeSpeech])
    ensures !(r.hasEngine && r.paused) ==> s == Step(r, [])
  {
    if r.hasEngine && r.paused then Step(r.(paused := false), [ResumeSpeech]) else Step(r, [])
  }

  /** `stop`: cancel and clear both flags. */
  function StopPressed(r: Reader): (s: Step)
    ensures r.hasEngine ==> s == Step(r.(playing := false, paused := false), [Cancel])
    ensures !r.hasEngine ==> s == Step(r, [])
  {
    if r.hasEngine then Step(r.(playing := false, paused := false), [Cancel]) else Step(r, [])
  }

  /** Everything that can happen to the reader. */
  datatype Event =
    | SpeakClicked | PauseClicked | ResumeClicked | StopClicked
    | UtteranceStarted | UtteranceEnded | UtteranceFailed
    | VoicesChanged(engineVoices: seq<Voice>)
    | VoiceChosen(name: string) | RateMoved(rate: real) | PitchMoved(pitch: real)
    | TextEdited(text: string)
    | FileChosen(file: Option<Upload.File>)

  /** The selection after `updateVoices` ran on the engine's list, from
      the current selection and the saved name.  As written (`live` false)
      the handler reads the selection captured at mount, the empty string
      (see `Voices.UpdateVoicesAsWritten`); with `live` it reads the
      current selection, as the corrected handler does. */
  function ArrivedSelection(engine: seq<Voice>, saved: Option<string>, current: string, live: bool): (sel: string)
    ensures sel == current || exists k :: 0 <= k < |engine| && engine[k].name == sel
    ensures engine != [] && (!live || current == "") ==> exists k :: 0 <= k < |engine| && engine[k].name == sel
    ensures (!live || current == "") && FirstGoogleUs(engine).Some? ==> sel == engine[FirstGoogleUs(engine).value].name
    ensures live && current != "" ==> sel == current || saved == Some(sel)
  {
    ChoiceFacts(engine, saved, if live then current else "");
    Selected(current, if live then UpdateVoices(engine, saved, current) else UpdateVoicesAsWritten(engine, saved))
  }

  /** `voiceschanged`: the engine's list, ordered, replaces the voices, and
      `updateVoices` may change the selection; nothing else changes. */
  function VoicesArrive(r: Reader, engine: seq<Voice>, live: bool): (r': Reader)
    ensures r' == r.(voices := r'.voices, selected := r'.selected)
    ensures r'.voices == OrderVoices(engine)
    ensures |r'.voices| == |engine| && forall v :: v in r'.voices <==> v in engine
    ensures r'.selected == r.selected || exists k :: 0 <= k < |engine| && engine[k].name == r'.selected
    ensures engine != [] && (!live || r.selected == "") ==>
      exists k :: 0 <= k < |engine| && engine[k].name == r'.selected
    ensures (!live || r.selected == "") && FirstGoogleUs(engine).Some? ==>
      r'.selected == engine[FirstGoogleUs(engine).value].name
    ensures live && r.selected != "" ==> r'.selected == r.selected || GetItem(r.store, VoiceKey) == Some(r'.selected)
  {
    OrderVoicesFacts(engine);
    r.(voices := OrderVoices(engine), selected := ArrivedSelection(engine, GetItem(r.store, VoiceKey), r.selected, live))
  }

  /** One event.  `live` chooses the corrected `voiceschanged` handler. */
  function Next(r: Reader, e: Event, show: real -> string, live: bool): (s: Step)
    ensures e.SpeakClicked? ==> s == SpeakPressed(r)
    ensures e.PauseClicked? ==> s == PausePressed(r)
    ensures e.ResumeClicked? ==> s == ResumePressed(r)
    ensures e.StopClicked? ==> s == StopPressed(r)
    ensures e.UtteranceStarted? ==> s.reader.playing && !s.reader.paused
    ensures e.UtteranceEnded? || e.UtteranceFailed? ==> !s.reader.playing && !s.reader.paused
    ensures e.UtteranceStarted? || e.UtteranceEnded? || e.UtteranceFailed? ==> s.reader == r.(playing := s.reader.playing, paused := s.reader.paused)
    ensures !e.SpeakClicked? && !e.PauseClicked? && !e.ResumeClicked? && !e.StopClicked? ==> s.calls == []
    ensures e.VoicesChanged? ==> s.reader == VoicesArrive(r, e.engineVoices, live)
    ensures e.VoiceChosen? ==> s.reader == ChooseVoice(r, e.name)
    ensures e.RateMoved? ==> s.reader == ChooseRate(r, e.rate, show)
    ensures e.PitchMoved? ==> s.reader == ChoosePitch(r, e.pitch, show)
    ensures e.TextEdited? ==> s.reader == r.(text := e.text)
    ensures e.FileChosen? ==> s.reader == r.(text := Upload.HandleUpload(e.file, r.text).text)
  {
    match e
    case SpeakClicked => SpeakPressed(r)
    case PauseClicked => PausePressed(r)
    case ResumeClicked => ResumePressed(r)
    case StopClicked => StopPressed(r)
    case UtteranceStarted => Step(r.(playing := true, paused := false), [])
    case UtteranceEnded => Step(r.(playing := false, paused := false), [])
    case UtteranceFailed => Step(r.(playing := false, paused := false), [])
    case VoicesChanged(engine) => Step(VoicesArrive(r, engine, live), [])
    case VoiceChosen(name) => Step(ChooseVoice(r, name), [])
    case RateMoved(rate) => Step(ChooseRate(r, rate, show), [])
    case PitchMoved(pitch) => Step(ChoosePitch(r, pitch, show), [])
    case TextEdited(t) => Step(r.(text := t), [])
    case FileChosen(file) => Step(r.(text := Upload.HandleUpload(file, r.text).text), [])
  }

  /** The reader's invariant: "paused" implies "playing". */
  predicate Consistent(r: Reader) {
    r.paused ==> r.playing
  }

  lemma NextKeepsConsistent(r: Reader, e: Event, show: real -> string, live: bool)
    requires Consistent(r)
    ensures Consistent(Next(r, e, show, live).reader)
  {
  }

  /** A run of events from a state: the final state and every engine call, in order. */
  function Run(r: Reader, events: seq<Event>, show: real -> string, live: bool): Step
    decreases |events|
  {
    if events == [] then Step(r, [])
    else
      var first := Next(r, events[0], show, live);
      var rest := Run(first.reader, events[1..], show, live);
      Step(rest.reader, first.calls + rest.calls)
  }

  /** Every `speak` the reader issues is immediately preceded by `cancel`. */
  predicate CancelsBeforeSpeaking(calls: seq<EngineCall>) {
    forall i :: 0 <= i < |calls| && calls[i].Speak? ==> 0 < i && calls[i - 1] == Cancel
  }

  lemma CancelsConcat(a: seq<EngineCall>, b: seq<EngineCall>)
    requires CancelsBeforeSpeaking(a) && CancelsBeforeSpeaking(b)
    ensures CancelsBeforeSpeaking(a + b)
  {
    var c := a + b;
    forall i | 0 <= i < |c| && c[i].Speak?
      ensures 0 < i && c[i - 1] == Cancel
    {
      if i >= |a| {
        assert c[i] == b[i - |a|];
        if i - |a| > 0 {
          assert c[i - 1] == b[i - 1 - |a|];
        }
      }
    }
  }

  /** Over any run: "paused" implies "playing" throughout, and at most one
      utterance is ever live, because each `speak` follows a `cancel`. */
  lemma {:induction false} RunInvariants(r: Reader, events: seq<Event>, show: real -> string, live: bool)
    requires Consistent(r)
    ensures Consistent(Run(r, events, show, live).reader)
    ensures CancelsBeforeSpeaking(Run(r, events, show, live).calls)
    decreases |events|
  {
    if events != [] {
      var first := Next(r, events[0], show, live);
      NextKeepsConsistent(r, events[0], show, live);
      RunInvariants(first.reader, events[1..], show, live);
      assert CancelsBeforeSpeaking(first.calls);
      CancelsConcat(first.calls, Run(first.reader, events[1..], show, live).calls);
    }
  }

  /** Stopping twice leaves the same state as stopping once, and stopping
      an idle reader changes nothing but re-sends `cancel`. */
  lemma StopIdempotent(r: Reader)
    ensures StopPressed(StopPressed(r).reader).reader == StopPressed(r).reader
    ensures !r.playing && !r.paused ==> StopPressed(r).reader == r
  {
  }

  /** Pausing is only possible while playing and resuming only while paused:
      a click in any other state changes nothing. */
  lemma ButtonsGuarded(r: Reader, show: real -> string, live: bool)
    requires Consistent(r)
    ensures !r.playing ==> Next(r, PauseClicked, show, live) == Step(r, [])
    ensures !r.paused ==> Next(r, ResumeClicked, show, live) == Step(r, [])
    ensures r.hasEngine && r.paused ==> Next(Next(r, ResumeClicked, show, live).reader, PauseClicked, show, live).reader == r
  {
  }
}

=== FILE: reader_upload.dfy ===
/** Document upload of the text reader (`handleFileUpload`,
    `extractTextFromPDF` and `extractTextFromWord` in TextReader.tsx).

    The PDF parser, the Word converter and `File.text()` are outside the
    model: a file carries what each of them would produce for it, `None`
    when that reader throws. */
module Upload {
  import opened Options
  import opened Strings

  /** The size ceiling: 10 MiB. */
  const MaxBytes: int := 10 * 1024 * 1024

  const PdfType: string := "application/pdf"
  const DocxType: string := "application/vnd.openxmlformats-officedocument.wordprocessingml.document"
  const DocType: string := "application/msword"
  const TextType: string := "text/plain"

  /** What the external readers yield for a file: the PDF's pages, each a
      list of text-item strings; the Word converter's raw text; the file
      read as text.  `None` means the reader throws. */
  datatype Contents = Contents(pdfPages: Option<seq<seq<string>>>, wordRaw: Option<string>, plain: Option<string>)

  datatype File = File(name: string, size: int, mime: string, contents: Contents)

  /** The error toasts of the handler. */
  datatype Failure = TooLarge | UnsupportedType | NoTextFound | PdfFailed | WordFailed | ReadFailed

  datatype Extracted = Text(text: string) | Failed(failure: Failure)

  /** `Loaded(t)` is the success toast; the text box then holds `t`. */
  datatype Outcome = Loaded(text: string) | Rejected(failure: Failure)

  /** `outcome` is `None` when no file was chosen; `text` is the text box afterwards. */
  datatype UploadResult = UploadResult(outcome: Option<Outcome>, text: string)

  /** One page's text items joined by single spaces. */
  function PageText(items: seq<string>): string {
    Join(items, ' ')
  }

  /** The untrimmed PDF text: every page's text followed by a newline. */
  function FullText(pages: seq<seq<string>>): string {
    if pages == [] then [] else PageText(pages[0]) + ['\n'] + FullText(pages[1..])
  }

  /** The text `extractTextFromPDF` resolves to. */
  function PdfText(pages: seq<seq<string>>): string {
    Trim(FullText(pages))
  }

  lemma {:induction false} FullTextSnoc(pages: seq<seq<string>>, page: seq<string>)
    ensures FullText(pages + [page]) == FullText(pages) + PageText(page) + ['\n']
  {
    if pages == [] {
      assert [page][1..] == [];
    } else {
      assert (pages + [page])[1..] == pages[1..] + [page];
      FullTextSnoc(pages[1..], page);
    }
  }

  /** The page loop of `extractTextFromPDF`: `fullText += pageText + '\n'`
      for pages 1 .. numPages, then `trim`. */
  method ExtractPdfText(pages: seq<seq<string>>) returns (text: string)
    ensures text == Trim(FullText(pages))
    ensures text == [] || (!IsJsSpace(text[0]) && !IsJsSpace(text[|text| - 1]))
  {
    var fullText: string := [];
    var i := 0;
    while i < |pages|
      invariant 0 <= i <= |pages|
      invariant fullText == FullText(pages[..i])
    {
      var pageText := Join(pages[i], ' ');
      FullTextSnoc(pages[..i], pages[i]);
      assert pages[..i + 1] == pages[..i] + [pages[i]];
      fullText := fullText + pageText + ['\n'];
      i := i + 1;
    }
    assert pages[..i] == pages;
    text := Trim(fullText);
  }

  /** The page texts of a PDF, in page order. */
  function PageTexts(pages: seq<seq<string>>): (r: seq<string>)
    ensures |r| == |pages|
    ensures forall p :: 0 <= p < |pages| ==> r[p] == PageText(pages[p])
  {
    if pages == [] then [] else [PageText(pages[0])] + PageTexts(pages[1..])
  }

  lemma {:induction false} FullTextIsJoin(pages: seq<seq<string>>)
    ensures FullText(pages) == Join(PageTexts(pages) + [[]], '\n')
  {
    if pages != [] {
      FullTextIsJoin(pages[1..]);
      assert PageTexts(pages) + [[]] == [PageText(pages[0])] + (PageTexts(pages[1..]) + [[]]);
    }
  }

  /** When no page's text holds a newline, the untrimmed PDF text splits
      back into exactly the page texts (plus the empty piece after the
      last page's newline): pages are neither merged nor lost. */
  lemma PagesRecoverable(pages: seq<seq<string>>)
    requires Unbroken(PageTexts(pages), '\n')
    ensures Split(FullText(pages), '\n') == PageTexts(pages) + [[]]
  {
    var parts := PageTexts(pages) + [[]];
    var full := FullText(pages);
    assert full == Join(parts, '\n') by { FullTextIsJoin(pages); }
    assert Split(Join(parts, '\n'), '\n') == parts by {
      UnbrokenSnoc(PageTexts(pages), [], '\n');
      JoinSplit(parts, '\n');
    }
  }

  /** The MIME dispatch of `handleFileUpload`. */
  function Extract(f: File): (r: Extracted)
    ensures f.mime !in {PdfType, DocxType, DocType, TextType} <==> r == Failed(UnsupportedType)
    ensures f.mime == PdfType && f.contents.pdfPages.Some? ==> r == Text(PdfText(f.contents.pdfPages.value))
    ensures (f.mime == DocxType || f.mime == DocType) && f.contents.wordRaw.Some? ==> r == Text(Trim(f.contents.wordRaw.value))
    ensures f.mime == TextType && f.contents.plain.Some? ==> r == Text(f.contents.plain.value)
    ensures f.mime == PdfType && f.contents.pdfPages.None? ==> r == Failed(PdfFailed)
    ensures (f.mime == DocxType || f.mime == DocType) && f.contents.wordRaw.None? ==> r == Failed(WordFailed)
    ensures f.mime == TextType && f.contents.plain.None? ==> r == Failed(ReadFailed)
  {
    if f.mime == PdfType then
      (match f.contents.pdfPages
       case Some(pages) => Text(PdfText(pages))
       case None => Failed(PdfFailed))
    else if f.mime == DocxType || f.mime == DocType then
      (match f.contents.wordRaw
       case Some(raw) => Text(Trim(raw))
       case None => Failed(WordFailed))
    else if f.mime == TextType then
      (match f.contents.plain
       case Some(t) => Text(t)
       case None => Failed(ReadFailed))
    else Failed(UnsupportedType)
  }

  /** `handleFileUpload`: `file` is the first chosen file, `text` the text
      box before the upload. */
  function HandleUpload(file: Option<File>, text: string): (r: UploadResult)
    ensures file.None? ==> r == UploadResult(None, text)
    ensures file.Some? && file.value.size > MaxBytes ==> r == UploadResult(Some(Rejected(TooLarge)), text)
    ensures file.Some? ==> r.outcome.Some?
    ensures r.text != text ==> r.outcome == Some(Loaded(r.text))
    ensures r.outcome.Some? && r.outcome.value.Loaded? ==> r.text == r.outcome.value.text && !IsBlank(r.text)
    ensures r.outcome.Some? && r.outcome.value.Rejected? ==> r.text == text
    ensures file.Some? && file.value.size <= MaxBytes && Extract(file.value).Text? && !IsBlank(Extract(file.value).text) ==>
      r == UploadResult(Some(Loaded(Extract(file.value).text)), Extract(file.value).text)
    ensures file.Some? && file.value.size <= MaxBytes && Extract(file.value).Text? && IsBlank(Extract(file.value).text) ==>
      r == UploadResult(Some(Rejected(NoTextFound)), text)
    ensures file.Some? && file.value.size <= MaxBytes && Extract(file.value).Failed? ==>
      r == UploadResult(Some(Rejected(Extract(file.value).failure)), text)
  {
    match file
    case None => UploadResult(None, text)
    case Some(f) =>
      if f.size > MaxBytes then UploadResult(Some(Rejected(TooLarge)), text)
      else
        match Extract(f)
        case Failed(e) => UploadResult(Some(Rejected(e)), text)
        case Text(t) =>
          if Trim(t) != [] then UploadResult(Some(Loaded(t)), t)
          else UploadResult(Some(Rejected(NoTextFound)), text)
  }

  /** An oversized file or one of an unsupported type is refused before
      any reader runs: the result does not depend on the file's contents. */
  lemma RefusedWithoutReading(f: File, other: Contents, text: string)
    requires f.size > MaxBytes || f.mime !in {PdfType, DocxType, DocType, TextType}
    ensures HandleUpload(Some(f), text) == HandleUpload(Some(f.(contents := other)), text)
    ensures HandleUpload(Some(f), text).text == text
    ensures HandleUpload(Some(f), text).outcome.value.Rejected?
  {
  }

  /** The text box is replaced exactly when extraction yields a non-blank string. */
  lemma ReplacedIffNonBlank(f: File, text: string)
    requires f.size <= MaxBytes
    ensures HandleUpload(Some(f), text).outcome.value.Loaded?
            <==> Extract(f).Text? && !IsBlank(Extract(f).text)
  {
  }

  /** A PDF whose text layer is empty is reported as having no text and
      leaves the text box alone: there is no OCR fallback. */
  lemma EmptyPdfHasNoText(name: string, size: int, pages: seq<seq<string>>, text: string)
    requires 0 <= size <= MaxBytes
    requires forall p, k :: 0 <= p < |pages| && 0 <= k < |pages[p]| ==> pages[p][k] == []
    ensures var f := File(name, size, PdfType, Contents(Some(pages), None, None));
            HandleUpload(Some(f), text) == UploadResult(Some(Rejected(NoTextFound)), text)
  {
    BlankPages(pages);
  }

  lemma {:induction false} BlankItems(items: seq<string>)
    requires forall k :: 0 <= k < |items| ==> items[k] == []
    ensures IsBlank(Join(items, ' '))
  {
    if |items| > 1 {
      BlankItems(items[1..]);
      assert Join(items, ' ') == [' '] + Join(items[1..], ' ');
    }
  }

  lemma {:induction false} BlankPages(pages: seq<seq<string>>)
    requires forall p, k :: 0 <= p < |pages| && 0 <= k < |pages[p]| ==> pages[p][k] == []
    ensures IsBlank(FullText(pages))
  {
    if pages != [] {
      BlankItems(pages[0]);
      BlankPages(pages[1..]);
    }
  }

  /** A plain-text file is loaded verbatim, without trimming. */
  lemma PlainTextLoadedVerbatim(name: string, size: int, content: string, text: string)
    requires 0 <= size <= MaxBytes
    requires !IsBlank(content)
    ensures var f := File(name, size, TextType, Contents(None, None, Some(content)));
            HandleUpload(Some(f), text) == UploadResult(Some(Loaded(content)), content)
  {
  }
}

=== FILE: reader_voices.dfy ===
/** Voice ordering and automatic voice selection of the text reader
    (`getVoicesFiltered` and `updateVoices` in TextReader.tsx).

    The speech engine's voice list is a sequence of `Voice` values.  The
    source compares voices by object identity (`!==`, `includes`), so the
    ordering is computed on indices into the engine list: two voices with
    equal name and language are still two different entries. */
module Voices {
  import opened Options
  import opened Strings
  import opened Counting

  datatype Voice = Voice(name: string, lang: string)

  /** `/google.*us.*english/i.test(name)`. */
  predicate NameIsGoogleUsEnglish(name: string) {
    exists i, j, k ::
      && 0 <= i <= j <= k <= |name|
      && MatchesAt(name, i, "google") && MatchesAt(name, j, "us") && MatchesAt(name, k, "english")
      && i + 6 <= j && j + 2 <= k
      && NoLineTerminator(name, i + 6, j) && NoLineTerminator(name, j + 2, k)
  }

  /** `/en.*us/i.test(lang)`. */
  predicate LangIsEnUs(lang: string) {
    exists i, j ::
      && 0 <= i <= j <= |lang|
      && MatchesAt(lang, i, "en") && MatchesAt(lang, j, "us")
      && i + 2 <= j && NoLineTerminator(lang, i + 2, j)
  }

  /** `/google/i.test(v.name)`. */
  predicate HasGoogle(v: Voice) {
    ContainsFolded(v.name, "google")
  }

  /** `/microsoft/i.test(v.name)`. */
  predicate HasMicrosoft(v: Voice) {
    ContainsFolded(v.name, "microsoft")
  }

  /** `/^en(-|_|$)/i.test(v.lang || '')`: the language tag is `en` alone or
      `en` followed by `-` or `_`. */
  predicate IsEnglishLang(lang: string) {
    MatchesAt(lang, 0, "en") && (|lang| == 2 || lang[2] == '-' || lang[2] == '_')
  }

  /** The "Google US English" rule used both for ordering and for selection. */
  predicate IsGoogleUs(v: Voice) {
    NameIsGoogleUsEnglish(v.name) || (HasGoogle(v) && LangIsEnUs(v.lang))
  }

  /** Every voice the Google-US rule accepts has "google" in its name. */
  lemma GoogleUsHasGoogle(v: Voice)
    requires IsGoogleUs(v)
    ensures HasGoogle(v)
  {
    if NameIsGoogleUsEnglish(v.name) {
      var i, j, k :| && 0 <= i <= j <= k <= |v.name|
                     && MatchesAt(v.name, i, "google") && MatchesAt(v.name, j, "us") && MatchesAt(v.name, k, "english")
                     && i + 6 <= j && j + 2 <= k
                     && NoLineTerminator(v.name, i + 6, j) && NoLineTerminator(v.name, j + 2, k);
      assert MatchesAt(v.name, i, "google");
    }
  }

  /** `Array.prototype.find` with the Google-US rule, from index `from` on:
      the index of the first accepted voice. */
  function FirstGoogleUsFrom(vs: seq<Voice>, from: nat): (r: Option<nat>)
    requires from <= |vs|
    ensures r.Some? ==> from <= r.value < |vs| && IsGoogleUs(vs[r.value])
    ensures r.Some? ==> forall k :: from <= k < r.value ==> !IsGoogleUs(vs[k])
    ensures r.None? ==> forall k :: from <= k < |vs| ==> !IsGoogleUs(vs[k])
    decreases |vs| - from
  {
    if from == |vs| then None
    else if IsGoogleUs(vs[from]) then Some(from)
    else FirstGoogleUsFrom(vs, from + 1)
  }

  function FirstGoogleUs(vs: seq<Voice>): (r: Option<nat>)
    ensures r.Some? ==> r.value < |vs| && IsGoogleUs(vs[r.value])
    ensures r.Some? ==> forall k :: 0 <= k < r.value ==> !IsGoogleUs(vs[k])
    ensures r.None? <==> forall k :: 0 <= k < |vs| ==> !IsGoogleUs(vs[k])
  {
    FirstGoogleUsFrom(vs, 0)
  }

  /** `Array.prototype.filter` over the indices `0 .. n-1`: the indices
      accepted by `p`, in increasing order. */
  function FilterIndices(n: nat, p: nat -> bool): (r: seq<nat>)
    ensures forall x: nat :: x in r <==> x < n && p(x)
    ensures forall a :: 0 <= a < |r| ==> r[a] < n
    ensures forall a, b :: 0 <= a < b < |r| ==> r[a] < r[b]
  {
    if n == 0 then []
    else
      var init := FilterIndices(n - 1, p);
      init + (if p(n - 1) then [n - 1] else [])
  }

  /** `googleTranslate`: the first Google-US voice, if any. */
  function PreferredGroup(vs: seq<Voice>): seq<nat> {
    var preferred := FirstGoogleUs(vs);
    if preferred.Some? then [preferred.value] else []
  }

  /** `otherGoogle`: "google" voices other than the preferred one. */
  function OtherGoogleGroup(vs: seq<Voice>): seq<nat> {
    FilterIndices(|vs|, (k: nat) => k < |vs| && HasGoogle(vs[k]) && Some(k) != FirstGoogleUs(vs))
  }

  /** `microsoft`: "microsoft" voices without "google". */
  function MicrosoftGroup(vs: seq<Voice>): seq<nat> {
    FilterIndices(|vs|, (k: nat) => k < |vs| && HasMicrosoft(vs[k]) && !HasGoogle(vs[k]))
  }

  /** `english`: English voices naming neither vendor. */
  function EnglishGroup(vs: seq<Voice>): seq<nat> {
    FilterIndices(|vs|, (k: nat) => k < |vs| && IsEnglishLang(vs[k].lang) && !(HasGoogle(vs[k]) || HasMicrosoft(vs[k])))
  }

  /** `rest`: every voice none of the four lists above includes. */
  function RestGroup(vs: seq<Voice>): seq<nat> {
    var g0, g1, g2, g3 := PreferredGroup(vs), OtherGoogleGroup(vs), MicrosoftGroup(vs), EnglishGroup(vs);
    FilterIndices(|vs|, (k: nat) => k !in g0 && k !in g1 && k !in g2 && k !in g3)
  }

  /** `getVoicesFiltered`, on indices: the five lists concatenated. */
  function OrderIndices(vs: seq<Voice>): seq<nat> {
    PreferredGroup(vs) + OtherGoogleGroup(vs) + MicrosoftGroup(vs) + EnglishGroup(vs) + RestGroup(vs)
  }

  /** The list handed to `setVoices`. */
  function OrderVoices(vs: seq<Voice>): (r: seq<Voice>)
    ensures |r| == |OrderIndices(vs)|
  {
    var ix := OrderIndices(vs);
    seq(|ix|, i requires 0 <= i < |ix| => if ix[i] < |vs| then vs[ix[i]] else vs[0])
  }

  /** Reference definition of the ordering: the group a voice belongs to. */
  function Group(vs: seq<Voice>, k: nat): nat
    requires k < |vs|
  {
    if Some(k) == FirstGoogleUs(vs) then 0
    else if HasGoogle(vs[k]) then 1
    else if HasMicrosoft(vs[k]) then 2
    else if IsEnglishLang(vs[k].lang) then 3
    else 4
  }

  /** The group of every engine voice, by index. */
  function Ranks(vs: seq<Voice>): (rank: seq<nat>)
    ensures |rank| == |vs|
    ensures forall k :: 0 <= k < |vs| ==> rank[k] == Group(vs, k)
  {
    seq(|vs|, k requires 0 <= k < |vs| => Group(vs, k))
  }

  /** Index `a` comes strictly before index `b`: lower group, or same group
      and earlier in the engine list. */
  predicate Before(rank: seq<nat>, a: nat, b: nat) {
    && a < |rank| && b < |rank|
    && (rank[a] < rank[b] || (rank[a] == rank[b] && a < b))
  }

  predicate SortedByRank(rank: seq<nat>, s: seq<nat>) {
    && (forall x :: x in s ==> x < |rank|)
    && (forall a, b :: 0 <= a < b < |s| ==> Before(rank, s[a], s[b]))
  }

  /** `s` lists engine indices sorted by group, engine order breaking ties. */
  predicate SortedByGroup(vs: seq<Voice>, s: seq<nat>) {
    SortedByRank(Ranks(vs), s)
  }

  lemma SortedConcat(rank: seq<nat>, s: seq<nat>, t: seq<nat>)
    requires SortedByRank(rank, s) && SortedByRank(rank, t)
    requires forall x, y :: x in s && y in t ==> Before(rank, x, y)
    ensures SortedByRank(rank, s + t)
  {
    var u := s + t;
    forall a, b | 0 <= a < b < |u|
      ensures Before(rank, u[a], u[b])
    {
      if b < |s| {
        assert u[a] == s[a] && u[b] == s[b];
      } else if a >= |s| {
        assert u[a] == t[a - |s|] && u[b] == t[b - |s|];
      } else {
        assert u[a] == s[a] && u[b] == t[b - |s|];
        assert s[a] in s && t[b - |s|] in t;
      }
    }
  }

  /** A group made of indices of one group in increasing order is sorted. */
  lemma GroupSorted(rank: seq<nat>, s: seq<nat>, g: nat)
    requires forall x :: x in s ==> x < |rank| && rank[x] == g
    requires forall a, b :: 0 <= a < b < |s| ==> s[a] < s[b]
    ensures SortedByRank(rank, s)
  {
    forall a, b | 0 <= a < b < |s|
      ensures Before(rank, s[a], s[b])
    {
      assert s[a] in s && s[b] in s;
    }
  }

  /** Each of the five lists collects exactly one group, in engine order. */
  lemma GroupsAreGroups(vs: seq<Voice>)
    ensures forall x: nat :: x in PreferredGroup(vs) <==> x < |vs| && Group(vs, x) == 0
    ensures forall x: nat :: x in OtherGoogleGroup(vs) <==> x < |vs| && Group(vs, x) == 1
    ensures forall x: nat :: x in MicrosoftGroup(vs) <==> x < |vs| && Group(vs, x) == 2
    ensures forall x: nat :: x in EnglishGroup(vs) <==> x < |vs| && Group(vs, x) == 3
    ensures forall x: nat :: x in RestGroup(vs) <==> x < |vs| && Group(vs, x) == 4
  {
    var preferred := FirstGoogleUs(vs);
    if preferred.Some? {
      GoogleUsHasGoogle(vs[preferred.value]);
    }
  }

  /** The five lists in order form a list sorted by group. */
  lemma ConcatSorted(vs: seq<Voice>)
    ensures SortedByGroup(vs, OrderIndices(vs))
  {
    GroupsAreGroups(vs);
    var rank := Ranks(vs);
    var g0, g1, g2, g3, g4 := PreferredGroup(vs), OtherGoogleGroup(vs), MicrosoftGroup(vs), EnglishGroup(vs), RestGroup(vs);
    GroupSorted(rank, g0, 0);
    GroupSorted(rank, g1, 1);
    GroupSorted(rank, g2, 2);
    GroupSorted(rank, g3, 3);
    GroupSorted(rank, g4, 4);
    SortedConcat(rank, g0, g1);
    SortedConcat(rank, g0 + g1, g2);
    SortedConcat(rank, g0 + g1 + g2, g3);
    SortedConcat(rank, g0 + g1 + g2 + g3, g4);
  }

  /** The order is a permutation of the engine list sorted by group, engine
      order kept within a group; the Google-US voice, when there is one,
      comes first. */
  lemma OrderIsStableGroupSort(vs: seq<Voice>)
    ensures var r := OrderIndices(vs);
      && |r| == |vs|
      && (forall k: nat :: k in r <==> k < |vs|)
      && SortedByGroup(vs, r)
      && (FirstGoogleUs(vs).Some? ==> r[0] == FirstGoogleUs(vs).value)
  {
    GroupsAreGroups(vs);
    ConcatSorted(vs);
    var r := OrderIndices(vs);
    assert forall k: nat :: k < |vs| ==> k in r by {
      forall k: nat | k < |vs|
        ensures k in r
      {
        var g := Group(vs, k);
        assert g == 0 || g == 1 || g == 2 || g == 3 || g == 4;
      }
    }
    assert forall a, b :: 0 <= a < b < |r| ==> r[a] != r[b];
    DistinctCard(r);
    assert (set x | x in r) == IndexSet(|vs|);
  }

  /** The ordered list holds each engine voice exactly once, and
      a Google-US voice, when the engine has one, is listed first. */
  lemma OrderVoicesFacts(vs: seq<Voice>)
    ensures |OrderVoices(vs)| == |vs|
    ensures forall k :: 0 <= k < |vs| ==> vs[k] in OrderVoices(vs)
    ensures forall v :: v in OrderVoices(vs) ==> v in vs
    ensures FirstGoogleUs(vs).Some? ==> OrderVoices(vs)[0] == vs[FirstGoogleUs(vs).value]
  {
    OrderIsStableGroupSort(vs);
    var ix := OrderIndices(vs);
    var r := OrderVoices(vs);
    forall k | 0 <= k < |vs|
      ensures vs[k] in r
    {
      assert k in ix;
      var p :| 0 <= p < |ix| && ix[p] == k;
      assert r[p] == vs[k];
    }
  }

  /** `updateVoices`' choice for a non-empty list: `Some(name)` when it calls
      `setSelectedVoice(name)`, `None` when it leaves the selection alone.
      `current` is the selection the handler reads; `saved` is the stored
      `voiceName` (`None` when absent). */
  function AutoSelect(list: seq<Voice>, saved: Option<string>, current: string): (r: Option<string>)
    ensures |list| == 0 ==> r == None
    ensures r.Some? ==> exists k :: 0 <= k < |list| && list[k].name == r.value
    ensures current == "" && |list| > 0 ==> r.Some?
    ensures current == "" && FirstGoogleUs(list).Some? ==> r == Some(list[FirstGoogleUs(list).value].name)
    ensures current != "" && r.Some? ==> saved == r && r.value != ""
    ensures ((current != "" || FirstGoogleUs(list).None?) && saved.Some? && saved.value != ""
             && (exists k :: 0 <= k < |list| && list[k].name == saved.value)) ==> r == saved
    ensures (current == "" && FirstGoogleUs(list).None? && |list| > 0
             && !(saved.Some? && saved.value != "" && exists k :: 0 <= k < |list| && list[k].name == saved.value))
            ==> r == Some(list[0].name)
    ensures (current != "" && !(saved.Some? && saved.value != ""
             && exists k :: 0 <= k < |list| && list[k].name == saved.value)) ==> r == None
  {
    if |list| == 0 then None
    else
      var preferred := FirstGoogleUs(list);
      if preferred.Some? && current == "" then Some(list[preferred.value].name)
      else if saved.Some? && saved.value != "" && exists k :: 0 <= k < |list| && list[k].name == saved.value then
        saved
      else if current == "" then Some(list[0].name)
      else None
  }

  /** The selection after a run of `updateVoices`. */
  function Selected(current: string, choice: Option<string>): string {
    choice.GetOr(current)
  }

  /** `updateVoices` as written: the effect is registered once with no
      dependencies, so the `selectedVoice` it reads is the one captured at
      mount, the empty string, however often `voiceschanged` fires. */
  function UpdateVoicesAsWritten(engine: seq<Voice>, saved: Option<string>): Option<string> {
    AutoSelect(OrderVoices(engine), saved, "")
  }

  /** `updateVoices` reading the live selection. */
  function UpdateVoices(engine: seq<Voice>, saved: Option<string>, current: string): Option<string> {
    AutoSelect(OrderVoices(engine), saved, current)
  }

  /** What `updateVoices` can choose, in terms of the engine's own list: a
      listed name; some name whenever the selection it reads is empty; the
      first Google-US voice then, if there is one; and otherwise only the
      saved name. */
  lemma ChoiceFacts(engine: seq<Voice>, saved: Option<string>, current: string)
    ensures var c := UpdateVoices(engine, saved, current);
      && (c.Some? ==> exists k :: 0 <= k < |engine| && engine[k].name == c.value)
      && (engine != [] && current == "" ==> c.Some?)
      && (current == "" && FirstGoogleUs(engine).Some? ==> c == Some(engine[FirstGoogleUs(engine).value].name))
      && (current != "" && c.Some? ==> saved == c)
  {
    OrderVoicesFacts(engine);
    var list := OrderVoices(engine);
    var c := UpdateVoices(engine, saved, current);
    if c.Some? {
      var k :| 0 <= k < |list| && list[k].name == c.value;
      assert list[k] in engine;
    }
    if current == "" && FirstGoogleUs(engine).Some? {
      PreferredWinsWhenUnselected(engine, saved);
    }
  }

  /** With nothing selected, the engine's first Google-US voice wins over a
      saved preference, and it is the head of the ordered list. */
  lemma PreferredWinsWhenUnselected(engine: seq<Voice>, saved: Option<string>)
    requires FirstGoogleUs(engine).Some?
    ensures UpdateVoices(engine, saved, "") == Some(engine[FirstGoogleUs(engine).value].name)
    ensures UpdateVoices(engine, saved, "") == Some(OrderVoices(engine)[0].name)
  {
    OrderVoicesFacts(engine);
    var list := OrderVoices(engine);
    var g := FirstGoogleUs(engine).value;
    assert IsGoogleUs(list[0]);
    assert FirstGoogleUs(list) == Some(0);
  }

  /** A voice the user picked (the handler stores it as `voiceName` as well)
      is kept by `updateVoices` reading the live selection. */
  lemma UserChoiceKept(engine: seq<Voice>, choice: string)
    requires choice != ""
    requires exists k :: 0 <= k < |engine| && engine[k].name == choice
    ensures Selected(choice, UpdateVoices(engine, Some(choice), choice)) == choice
  {
    OrderVoicesFacts(engine);
    var k :| 0 <= k < |engine| && engine[k].name == choice;
    var list := OrderVoices(engine);
    assert engine[k] in list;
    var p :| 0 <= p < |list| && list[p] == engine[k];
    assert list[p].name == choice;
  }

  /** As written, a late `voiceschanged` replaces the user's pick with the
      Google-US voice: whenever the engine lists a Google-US voice, any
      other listed voice the user chose (and the handler stored) is
      dropped, while reading the live selection keeps it. */
  lemma StaleSelectionOverridesUserChoice(engine: seq<Voice>, choice: string)
    requires FirstGoogleUs(engine).Some?
    requires choice != "" && choice != engine[FirstGoogleUs(engine).value].name
    requires exists k :: 0 <= k < |engine| && engine[k].name == choice
    ensures Selected(choice, UpdateVoices(engine, Some(choice), choice)) == choice
    ensures Selected(choice, UpdateVoicesAsWritten(engine, Some(choice))) == engine[FirstGoogleUs(engine).value].name
  {
    PreferredWinsWhenUnselected(engine, Some(choice));
    UserChoiceKept(engine, choice);
  }

  /** The situation above arises with a real engine list: "Google US
      English" (en-US) satisfies the Google-US rule, so picking "Alex" from
      `[Google US English, Alex]` is overridden. */
  lemma GoogleUsEnglishIsPreferred()
    ensures var engine := [Voice("Google US English", "en-US"), Voice("Alex", "en-US")];
      FirstGoogleUs(engine) == Some(0) && engine[0].name != "Alex"
  {
    var engine := [Voice("Google US English", "en-US"), Voice("Alex", "en-US")];
    GoogleUsEnglishName(engine[0].name);
    assert IsGoogleUs(engine[0]);
    assert engine[0].name[0] != "Alex"[0];
  }

  lemma GoogleUsEnglishName(name: string)
    requires name == "Google US English"
    ensures NameIsGoogleUsEnglish(name)
  {
    assert |name| == 17;
    assert name[..6] == "Google" && name[7..9] == "US" && name[10..] == "English";
    assert MatchesAt(name, 0, "google") by {
      forall k | 0 <= k < 6 ensures FoldAscii(name[k]) == "google"[k] {
        assert name[k] == "Google"[k];
      }
    }
    assert MatchesAt(name, 7, "us") by {
      forall k | 0 <= k < 2 ensures FoldAscii(name[7 + k]) == "us"[k] {
        assert name[7 + k] == "US"[k];
      }
    }
    assert MatchesAt(name, 10, "english") by {
      forall k | 0 <= k < 7 ensures FoldAscii(name[10 + k]) == "english"[k] {
        assert name[10 + k] == "English"[k];
      }
    }
    assert name[6] == ' ' && name[9] == ' ';
    assert NoLineTerminator(name, 6, 7) && NoLineTerminator(name, 9, 10);
  }
}

=== FILE: scroll_progress.dfy ===
/** The reading-progress bar (ScrollProgress.tsx): on every scroll event
    the bar's width becomes the scrolled fraction of the page, in percent. */
module ScrollProgress {
  import opened Options

  const Full: real := 100.0

  /** `updateScrollProgress`: `scrollY / (scrollHeight - clientHeight) * 100`.
      There is no guard for a page that does not scroll: a zero difference
      makes JavaScript produce NaN or an infinity, which is `None` here. */
  function Progress(scrollY: real, scrollHeight: real, clientHeight: real): (r: Option<real>)
    ensures r.None? <==> scrollHeight == clientHeight
    ensures r.Some? ==> r.value * (scrollHeight - clientHeight) == scrollY * Full
  {
    var range := scrollHeight - clientHeight;
    if range == 0.0 then None else Some(scrollY / range * Full)
  }

  /** The width the bar is drawn with before the first scroll event. */
  const InitialProgress: real := 0.0

  /** The ratio of an offset to a positive range, against 0 and 1. */
  lemma RatioBounds(a: real, b: real)
    requires 0.0 < b
    ensures 0.0 <= a <= b ==> 0.0 <= a / b <= 1.0
    ensures a > b ==> a / b > 1.0
  {
  }

  /** Within the scrollable range the bar is between empty and full. */
  lemma ProgressWithin(scrollY: real, scrollHeight: real, clientHeight: real)
    requires clientHeight < scrollHeight
    requires 0.0 <= scrollY <= scrollHeight - clientHeight
    ensures var r := Progress(scrollY, scrollHeight, clientHeight);
      r.Some? && 0.0 <= r.value <= Full
  {
    var range := scrollHeight - clientHeight;
    var q := scrollY / range;
    RatioBounds(scrollY, range);
    assert Progress(scrollY, scrollHeight, clientHeight).value == q * Full;
  }

  /** Empty at the top, full at the bottom. */
  lemma TopAndBottom(scrollHeight: real, clientHeight: real)
    requires scrollHeight != clientHeight
    ensures Progress(0.0, scrollHeight, clientHeight) == Some(0.0)
    ensures Progress(scrollHeight - clientHeight, scrollHeight, clientHeight) == Some(Full)
  {
    var range := scrollHeight - clientHeight;
    assert 0.0 / range == 0.0;
    assert range / range == 1.0;
  }

  /** Scrolling further down never shrinks the bar. */
  lemma ProgressMonotone(y1: real, y2: real, scrollHeight: real, clientHeight: real)
    requires clientHeight < scrollHeight
    requires y1 <= y2
    ensures Progress(y1, scrollHeight, clientHeight).value <= Progress(y2, scrollHeight, clientHeight).value
  {
    var range := scrollHeight - clientHeight;
    var p1 := Progress(y1, scrollHeight, clientHeight).value;
    var p2 := Progress(y2, scrollHeight, clientHeight).value;
    assert (p2 - p1) * range == (y2 - y1) * Full;
  }

  /** The scroll offset is determined by the bar's width: two offsets
      with the same progress on the same page are equal. */
  lemma ProgressDeterminesOffset(y1: real, y2: real, scrollHeight: real, clientHeight: real)
    requires scrollHeight != clientHeight
    requires Progress(y1, scrollHeight, clientHeight) == Progress(y2, scrollHeight, clientHeight)
    ensures y1 == y2
  {
    var range := scrollHeight - clientHeight;
    var p := Progress(y1, scrollHeight, clientHeight).value;
    assert y1 * Full == p * range == y2 * Full;
  }

  /** Nothing clamps the value: an offset past the end (an elastic
      overscroll) makes the bar wider than the page. */
  lemma OverscrollExceedsFull(scrollY: real, scrollHeight: real, clientHeight: real)
    requires clientHeight < scrollHeight
    requires scrollY > scrollHeight - clientHeight
    ensures Progress(scrollY, scrollHeight, clientHeight).value > Full
  {
    var range := scrollHeight - clientHeight;
    var q := scrollY / range;
    RatioBounds(scrollY, range);
    assert Progress(scrollY, scrollHeight, clientHeight).value == q * Full;
  }
}

=== FILE: storage.dfy ===
/** `window.localStorage` as a string-to-string map. */
module Storage {
  import opened Options

  type Store = map<string, string>

  /** `localStorage.getItem(key)`: `None` stands for `null`. */
  function GetItem(store: Store, key: string): Option<string> {
    if key in store then Some(store[key]) else None
  }

  /** `localStorage.setItem(key, value)`. */
  function SetItem(store: Store, key: string, value: string): (r: Store)
    ensures GetItem(r, key) == Some(value)
    ensures forall k :: k != key ==> GetItem(r, k) == GetItem(store, k)
  {
    store[key := value]
  }
}

=== FILE: strings.dfy ===
/** The JavaScript string operations the components rely on: `trim`,
    `includes`, `startsWith`, `split` on one character, `replace(/c/g, '')`,
    `toLowerCase` and ASCII case-insensitive regular-expression matching.
    A string is a sequence of Dafny characters, which are Unicode scalar
    values; JavaScript strings are sequences of UTF-16 code units. */
module Strings {

  /** The LineTerminator code points of ECMAScript: what `.` in a regular
      expression refuses to match. */
  predicate IsLineTerminator(c: char) {
    c == '\n' || c == '\r' || c as int == 0x2028 || c as int == 0x2029
  }

  /** ECMAScript WhiteSpace and LineTerminator code points: what
      `String.prototype.trim` removes from both ends. */
  predicate IsJsSpace(c: char) {
    || IsLineTerminator(c)
    || c == '\t' || c as int == 0x0B || c as int == 0x0C || c == ' '
    || c as int == 0xA0 || c as int == 0xFEFF || c as int == 0x1680
    || (0x2000 <= c as int <= 0x200A)
    || c as int == 0x202F || c as int == 0x205F || c as int == 0x3000
  }

  /** JavaScript's "blank" string: `s.trim()` is empty, i.e. falsy. */
  predicate IsBlank(s: string) {
    forall i :: 0 <= i < |s| ==> IsJsSpace(s[i])
  }

  /** Every character of `s` from `lo` up to `hi` is white space. */
  predicate BlankBetween(s: string, lo: int, hi: int) {
    forall i :: lo <= i < hi && 0 <= i < |s| ==> IsJsSpace(s[i])
  }

  /** End of the run of white space of `s` that starts at `i`. */
  function LeadingFrom(s: string, i: nat): (k: nat)
    requires i <= |s|
    ensures i <= k <= |s|
    ensures BlankBetween(s, i, k)
    ensures k < |s| ==> !IsJsSpace(s[k])
    decreases |s| - i
  {
    if i == |s| || !IsJsSpace(s[i]) then i else LeadingFrom(s, i + 1)
  }

  /** Start of the run of white space of `s` that ends at `hi`, looking no
      further back than `lo`. */
  function TrailingTo(s: string, lo: nat, hi: nat): (k: nat)
    requires lo <= hi <= |s|
    ensures lo <= k <= hi
    ensures BlankBetween(s, k, hi)
    ensures lo < k ==> !IsJsSpace(s[k - 1])
    decreases hi
  {
    if hi == lo || !IsJsSpace(s[hi - 1]) then hi else TrailingTo(s, lo, hi - 1)
  }

  /** Blank stretches at either end are blank slices. */
  lemma BlankSlices(s: string, a: nat, e: nat)
    requires a <= e <= |s| && BlankBetween(s, 0, a) && BlankBetween(s, e, |s|)
    ensures IsBlank(s[..a]) && IsBlank(s[e..])
  {
    assert forall i :: 0 <= i < |s[e..]| ==> s[e..][i] == s[e + i];
  }

  /** `String.prototype.trim`: the longest slice of `s` that neither starts
      nor ends with white space, obtained by dropping blank ends only. */
  function Trim(s: string): (r: string)
    ensures |r| <= |s|
    ensures r == [] <==> IsBlank(s)
    ensures r != [] ==> !IsJsSpace(r[0]) && !IsJsSpace(r[|r| - 1])
    ensures exists i :: 0 <= i <= |s| - |r| && r == s[i..i + |r|] && IsBlank(s[..i]) && IsBlank(s[i + |r|..])
  {
    var a := LeadingFrom(s, 0);
    var e := TrailingTo(s, a, |s|);
    var r := s[a..e];
    assert IsBlank(s[..a]) && IsBlank(s[e..]) by { BlankSlices(s, a, e); }
    assert r == [] <==> IsBlank(s) by {
      if a == e {
        assert BlankBetween(s, 0, |s|);
      } else {
        assert !IsJsSpace(s[a]);
      }
    }
    assert r != [] ==> r[0] == s[a] && r[|r| - 1] == s[e - 1];
    assert r == s[a..a + |r|];
    r
  }

  /** Trimming a string that has no white space at either end changes nothing. */
  lemma TrimUnpadded(s: string)
    requires s == [] || (!IsJsSpace(s[0]) && !IsJsSpace(s[|s| - 1]))
    ensures Trim(s) == s
  {
    if s != [] {
      assert LeadingFrom(s, 0) == 0;
      assert TrailingTo(s, 0, |s|) == |s|;
    }
  }

  /** `trim` is idempotent. */
  lemma TrimIdempotent(s: string)
    ensures Trim(Trim(s)) == Trim(s)
  {
    TrimUnpadded(Trim(s));
  }

  /** ASCII case folding: what a JavaScript `/i` regular expression without
      the `u` flag identifies when the pattern is ASCII.  Its Canonicalize
      upper-cases, but never maps a non-ASCII character onto an ASCII one. */
  function FoldAscii(c: char): (r: char)
    ensures 'A' <= c <= 'Z' ==> r as int == c as int + 32
    ensures !('A' <= c <= 'Z') ==> r == c
  {
    if 'A' <= c <= 'Z' then (c as int + 32) as char else c
  }

  /** `s` holds `pat` at index `i`, letters compared without case;
      `pat` is given in lower case. */
  predicate MatchesAt(s: string, i: nat, pat: string) {
    i + |pat| <= |s| && forall k :: 0 <= k < |pat| ==> FoldAscii(s[i + k]) == pat[k]
  }

  /** A `/pat/i` test: `pat` occurs somewhere in `s`, ignoring ASCII case. */
  predicate ContainsFolded(s: string, pat: string) {
    exists i :: 0 <= i <= |s| && MatchesAt(s, i, pat)
  }

  /** No line terminator between indices `i` and `j`: the gap a `.*` may span. */
  predicate NoLineTerminator(s: string, i: int, j: int) {
    forall k :: i <= k < j && 0 <= k < |s| ==> !IsLineTerminator(s[k])
  }

  /** Case-sensitive `s.includes(pat)`, position by position. */
  predicate OccursAt(s: string, i: nat, pat: string) {
    i + |pat| <= |s| && s[i..i + |pat|] == pat
  }

  /** Case-sensitive `String.prototype.startsWith`. */
  predicate StartsWith(s: string, pat: string) {
    OccursAt(s, 0, pat)
  }

  /** Case-sensitive `String.prototype.includes`. */
  predicate Contains(s: string, pat: string) {
    exists i :: 0 <= i <= |s| && OccursAt(s, i, pat)
  }

  /** The effect of `toLowerCase` on a single character as far as it can
      produce ASCII: A-Z, U+0130 (to "i" + U+0307) and the Kelvin sign
      U+212A (to "k").  Every other character that `toLowerCase` changes is
      mapped to a non-ASCII one and is kept as it is here. */
  function LowerUnit(c: char): (r: string)
    ensures 1 <= |r| <= 2
    ensures 'A' <= c <= 'Z' ==> r == [(c as int + 32) as char]
    ensures c as int < 128 && !('A' <= c <= 'Z') ==> r == [c]
  {
    if 'A' <= c <= 'Z' then [(c as int + 32) as char]
    else if c as int == 0x0130 then ['i', 0x0307 as char]
    else if c as int == 0x212A then ['k']
    else [c]
  }

  /** `String.prototype.toLowerCase`, up to non-ASCII results (see LowerUnit). */
  function ToLower(s: string): (r: string)
    ensures |s| <= |r| <= 2 * |s|
    ensures forall i :: 0 <= i < |r| ==> !('A' <= r[i] <= 'Z')
  {
    if s == [] then [] else LowerUnit(s[0]) + ToLower(s[1..])
  }

  /** Every character of `s` is ASCII. */
  predicate IsAscii(s: string) {
    forall i :: 0 <= i < |s| ==> s[i] as int < 128
  }

  /** `r` is `s` with A-Z turned into a-z and every other character kept,
      position by position. */
  predicate AsciiLowered(s: string, r: string) {
    && |r| == |s|
    && (forall i :: 0 <= i < |s| && 'A' <= s[i] <= 'Z' ==> r[i] == (s[i] as int + 32) as char)
    && (forall i :: 0 <= i < |s| && !('A' <= s[i] <= 'Z') ==> r[i] == s[i])
  }

  /** On ASCII text, `toLowerCase` maps A-Z to a-z and keeps everything else. */
  lemma {:induction false} ToLowerAscii(s: string)
    requires IsAscii(s)
    ensures AsciiLowered(s, ToLower(s))
  {
    if s != [] {
      var t := s[1..];
      assert IsAscii(t);
      ToLowerAscii(t);
      assert s == [s[0]] + t;
      assert ToLower(s) == LowerUnit(s[0]) + ToLower(t);
      AsciiLoweredCons(s[0], t, ToLower(t));
    }
  }

  /** Lowering one more ASCII character in front. */
  lemma AsciiLoweredCons(c: char, t: string, rt: string)
    requires c as int < 128 && AsciiLowered(t, rt)
    ensures AsciiLowered([c] + t, LowerUnit(c) + rt)
  {
    var s, r := [c] + t, LowerUnit(c) + rt;
    assert |LowerUnit(c)| == 1;
    forall i | 1 <= i < |s|
      ensures r[i] == rt[i - 1] && s[i] == t[i - 1]
    {
    }
  }

  /** `toLowerCase` works piece by piece. */
  lemma {:induction false} ToLowerConcat(a: string, b: string)
    ensures ToLower(a + b) == ToLower(a) + ToLower(b)
  {
    if a != [] {
      var u := LowerUnit(a[0]);
      assert (a + b)[0] == a[0] && (a + b)[1..] == a[1..] + b;
      assert ToLower(a + b) == u + ToLower(a[1..] + b);
      assert ToLower(a[1..] + b) == ToLower(a[1..]) + ToLower(b) by { ToLowerConcat(a[1..], b); }
      assert ToLower(a) == u + ToLower(a[1..]);
    } else {
      assert a + b == b;
    }
  }

  /** Lower-casing twice is the same as lower-casing once. */
  lemma {:induction false} ToLowerIdempotent(s: string)
    ensures ToLower(ToLower(s)) == ToLower(s)
  {
    if s != [] {
      var u, t := LowerUnit(s[0]), ToLower(s[1..]);
      assert ToLower(s) == u + t;
      assert ToLower(u + t) == ToLower(u) + ToLower(t) by { ToLowerConcat(u, t); }
      assert ToLower(u) == u by { LowerUnitStable(s[0]); }
      assert ToLower(t) == t by { ToLowerIdempotent(s[1..]); }
    }
  }

  /** What one character lower-cases to is already in lower case. */
  lemma LowerUnitStable(c: char)
    ensures ToLower(LowerUnit(c)) == LowerUnit(c)
  {
    var u := LowerUnit(c);
    if |u| == 2 {
      assert u == ['i', 0x0307 as char];
      assert ToLower(u) == LowerUnit('i') + ToLower(u[1..]);
      assert ToLower(u[1..]) == LowerUnit(0x0307 as char) + ToLower([]);
    } else {
      assert ToLower(u) == LowerUnit(u[0]) + ToLower([]);
    }
  }

  /** Index of the first `c` in `s`. */
  function IndexOf(s: string, c: char): (i: nat)
    requires c in s
    ensures i < |s| && s[i] == c
    ensures forall k :: 0 <= k < i ==> s[k] != c
  {
    if s[0] == c then 0
    else 1 + IndexOf(s[1..], c)
  }

  /** `s.split(sep)` for a one-character separator: the pieces between
      consecutive separators, always at least one (the empty string splits
      into one empty piece). */
  function Split(s: string, sep: char): (parts: seq<string>)
    ensures |parts| >= 1
    ensures forall p :: p in parts ==> sep !in p
    decreases |s|
  {
    if sep !in s then [s]
    else
      var i := IndexOf(s, sep);
      [s[..i]] + Split(s[i + 1..], sep)
  }

  /** `parts.join(sep)`. */
  function Join(parts: seq<string>, sep: char): string {
    if |parts| == 0 then []
    else if |parts| == 1 then parts[0]
    else parts[0] + [sep] + Join(parts[1..], sep)
  }

  /** Joining the pieces of a split with the same separator gives back the input. */
  lemma {:induction false} SplitJoin(s: string, sep: char)
    ensures Join(Split(s, sep), sep) == s
    decreases |s|
  {
    if sep in s {
      var i := IndexOf(s, sep);
      var head, tail := s[..i], s[i + 1..];
      var rest := Split(tail, sep);
      assert Split(s, sep) == [head] + rest;
      assert Join([head] + rest, sep) == head + [sep] + Join(rest, sep) by { JoinCons(head, rest, sep); }
      assert Join(rest, sep) == tail by { SplitJoin(tail, sep); }
      assert head + [sep] + tail == s;
    }
  }

  /** Joining a piece in front of at least one more puts one separator between. */
  lemma JoinCons(p: string, rest: seq<string>, sep: char)
    requires |rest| >= 1
    ensures Join([p] + rest, sep) == p + [sep] + Join(rest, sep)
  {
    assert ([p] + rest)[1..] == rest;
  }

  /** No piece holds the separator. */
  predicate Unbroken(parts: seq<string>, sep: char) {
    forall k :: 0 <= k < |parts| ==> sep !in parts[k]
  }

  /** A separator-free piece added at the end keeps the pieces separator-free. */
  lemma UnbrokenSnoc(parts: seq<string>, last: string, sep: char)
    requires Unbroken(parts, sep) && sep !in last
    ensures Unbroken(parts + [last], sep)
  {
    var all := parts + [last];
    forall k | 0 <= k < |all|
      ensures sep !in all[k]
    {
      if k < |parts| {
        assert all[k] == parts[k];
      }
    }
  }

  /** Splitting a join of separator-free pieces gives back the pieces. */
  lemma {:induction false} JoinSplit(parts: seq<string>, sep: char)
    requires |parts| >= 1
    requires Unbroken(parts, sep)
    ensures Split(Join(parts, sep), sep) == parts
  {
    var p := parts[0];
    if |parts| > 1 {
      var rest := parts[1..];
      var tail := Join(rest, sep);
      var s := Join(parts, sep);
      assert parts == [p] + rest;
      assert s == p + [sep] + tail by { JoinCons(p, rest, sep); }
      assert Split(tail, sep) == rest by {
        assert Unbroken(rest, sep);
        JoinSplit(rest, sep);
      }
      assert Split(s, sep) == [p] + Split(tail, sep) by { SplitAtPiece(p, tail, sep); }
    } else {
      assert parts == [p];
    }
  }

  /** The first separator after a separator-free piece ends that piece. */
  lemma SplitAtPiece(p: string, tail: string, sep: char)
    requires sep !in p
    ensures Split(p + [sep] + tail, sep) == [p] + Split(tail, sep)
  {
    var s := p + [sep] + tail;
    assert forall k :: 0 <= k < |p| ==> s[k] == p[k];
    assert s[|p|] == sep;
    var i := IndexOf(s, sep);
    assert i == |p|;
    assert s[..i] == p && s[i + 1..] == tail;
  }

  /** `s.replace(/c/g, '')`: every `c` removed, the other characters kept in order. */
  function RemoveAll(s: string, c: char): (r: string)
    ensures c !in r
    ensures multiset(r) == multiset(s)[c := 0]
  {
    if s == [] then []
    else
      var rest := RemoveAll(s[1..], c);
      assert s == [s[0]] + s[1..];
      if s[0] == c then rest else [s[0]] + rest
  }

  /** `replace(/c/g, '')` works piece by piece. */
  lemma {:induction false} RemoveAllConcat(a: string, b: string, c: char)
    ensures RemoveAll(a + b, c) == RemoveAll(a, c) + RemoveAll(b, c)
  {
    if a == [] {
      assert a + b == b;
    } else {
      assert (a + b)[1..] == a[1..] + b;
      RemoveAllConcat(a[1..], b, c);
    }
  }

  /** Removing a character that does not occur changes nothing. */
  lemma RemoveAbsent(s: string, c: char)
    requires c !in s
    ensures RemoveAll(s, c) == s
  {
    if s != [] {
      RemoveAbsent(s[1..], c);
    }
  }
}

=== FILE: theme.dfy ===
/** The colour theme: the provider's initial choice and its apply/persist
    effect (hooks/useTheme.tsx), and the dark-mode switch
    (ThemeToggle.tsx).  A theme is the raw string held in state: the
    stored value is not checked against "dark" | "light" | "system", and a
    string the root's class list rejects makes the effect throw. */
module Theme {
  import opened Options
  import opened Storage

  const ThemeKey: string := "theme"
  const Dark: string := "dark"
  const Light: string := "light"
  const SystemTheme: string := "system"

  /** The provider's `defaultTheme` when none is passed. */
  const DefaultTheme: string := SystemTheme

  /** The `useState` initialiser: forced dark when toggling is disabled,
      otherwise the stored string unless it is missing or empty (`||`),
      otherwise the default. */
  function InitialTheme(disableToggle: bool, stored: Option<string>, defaultTheme: string): (t: string)
    ensures disableToggle ==> t == Dark
    ensures !disableToggle && stored.Some? && stored.value != [] ==> t == stored.value
    ensures !disableToggle && (stored.None? || stored.value == []) ==> t == defaultTheme
  {
    if disableToggle then Dark
    else if stored.Some? && stored.value != [] then stored.value
    else defaultTheme
  }

  /** The page as far as the theme touches it: the class list of the root
      element and local storage. */
  datatype Page = Page(classes: set<string>, store: Store)

  /** The class the effect adds. */
  function AppliedClass(theme: string, disableToggle: bool, prefersDark: bool): (c: string)
    ensures disableToggle ==> c == Dark
    ensures !disableToggle && theme == SystemTheme ==> c == (if prefersDark then Dark else Light)
    ensures !disableToggle && theme != SystemTheme ==> c == theme
  {
    if theme == SystemTheme && !disableToggle then (if prefersDark then Dark else Light)
    else if disableToggle then Dark
    else theme
  }

  /** ASCII whitespace as the DOM standard defines it: tab, line feed,
      form feed, carriage return and space. */
  predicate AsciiWhitespace(c: char) {
    c == '\t' || c == '\n' || c == 12 as char || c == '\r' || c == ' '
  }

  /** A token `classList.add` accepts: not empty and without ASCII
      whitespace.  Any other token makes it throw (section 7.1 of the DOM
      standard, `DOMTokenList`). */
  predicate ValidToken(t: string) {
    t != [] && forall i :: 0 <= i < |t| ==> !AsciiWhitespace(t[i])
  }

  /** The effect: drop both theme classes, add one, and persist the theme
      unless it is "system" or toggling is disabled.  `prefersDark` is the
      `(prefers-color-scheme: dark)` media query.  When the class to add is
      not a valid token `classList.add` throws: both theme classes are gone,
      nothing is added and nothing is persisted. */
  function Apply(page: Page, theme: string, disableToggle: bool, prefersDark: bool): (r: Page)
    ensures var c := AppliedClass(theme, disableToggle, prefersDark);
      ValidToken(c) ==> r.classes == (page.classes - {Light, Dark}) + {c}
    ensures var c := AppliedClass(theme, disableToggle, prefersDark);
      !ValidToken(c) ==> r.classes == page.classes - {Light, Dark} && r.store == page.store
    ensures disableToggle || theme == SystemTheme ==> r.store == page.store
    ensures !disableToggle && theme != SystemTheme && ValidToken(theme) ==> r.store == SetItem(page.store, ThemeKey, theme)
  {
    var c := AppliedClass(theme, disableToggle, prefersDark);
    var cleared := page.classes - {Light, Dark};
    if !ValidToken(c) then Page(cleared, page.store)
    else if theme == SystemTheme && !disableToggle then Page(cleared + {c}, page.store)
    else if disableToggle then Page(cleared + {c}, page.store)
    else Page(cleared + {c}, SetItem(page.store, ThemeKey, theme))
  }

  /** The three theme names are valid tokens, so only a stored or passed
      string outside them can make the effect throw. */
  lemma ThemeNamesAreTokens()
    ensures ValidToken(Dark) && ValidToken(Light) && ValidToken(SystemTheme)
  {
  }

  /** A stored theme the class list rejects (`"dark mode"`, say) is read
      back at mount and leaves the page with neither theme class and the
      store as it was. */
  lemma RejectedStoredTheme(page: Page, defaultTheme: string, prefersDark: bool)
    requires GetItem(page.store, ThemeKey).Some?
    requires var t := GetItem(page.store, ThemeKey).value; t != [] && t != SystemTheme && !ValidToken(t)
    ensures var p := Mount(page, false, defaultTheme, prefersDark);
      && Dark !in p.page.classes && Light !in p.page.classes
      && p.page.store == page.store
  {
  }

  /** After the effect exactly one of "light" and "dark" is on the root,
      when the theme is one of the three names; other classes are kept. */
  lemma ApplyLeavesOneThemeClass(page: Page, theme: string, disableToggle: bool, prefersDark: bool)
    requires theme == Dark || theme == Light || theme == SystemTheme
    ensures var r := Apply(page, theme, disableToggle, prefersDark);
      && (Dark in r.classes) != (Light in r.classes)
      && (forall c :: c != Dark && c != Light ==> (c in r.classes <==> c in page.classes))
  {
  }

  /** Running the effect twice is the same as running it once. */
  lemma ApplyIdempotent(page: Page, theme: string, disableToggle: bool, prefersDark: bool)
    ensures var once := Apply(page, theme, disableToggle, prefersDark);
      Apply(once, theme, disableToggle, prefersDark) == once
  {
    var once := Apply(page, theme, disableToggle, prefersDark);
    var c := AppliedClass(theme, disableToggle, prefersDark);
    if ValidToken(c) {
      assert (once.classes - {Light, Dark}) + {c} == once.classes;
    } else {
      assert once.classes - {Light, Dark} == once.classes;
    }
  }

  /** A persisted theme comes back on the next visit: whatever the effect
      writes, the initialiser reads back.  A theme the class list rejects
      is never written (see `Apply`). */
  lemma PersistRoundTrip(page: Page, theme: string, prefersDark: bool, defaultTheme: string)
    requires theme != SystemTheme && ValidToken(theme)
    ensures var r := Apply(page, theme, false, prefersDark);
      InitialTheme(false, GetItem(r.store, ThemeKey), defaultTheme) == theme
  {
  }

  /** What the dark-mode switch renders. */
  datatype View = Nothing | Switch(checked: bool)

  /** Nothing before the mount effect has run; then a switch that is on
      exactly for the dark theme. */
  function Render(mounted: bool, theme: string): (v: View)
    ensures !mounted <==> v == Nothing
    ensures mounted ==> (v.Switch? && (v.checked <==> theme == Dark))
  {
    if !mounted then Nothing else Switch(theme == Dark)
  }

  /** The switch's `onCheckedChange`: dark becomes light, anything else
      (including "system") becomes dark. */
  function Toggle(theme: string): (t: string)
    ensures t == Dark || t == Light
    ensures t == Light <==> theme == Dark
  {
    if theme == Dark then Light else Dark
  }

  /** Toggling twice is the identity on the two explicit themes. */
  lemma ToggleInvolution(theme: string)
    requires theme == Dark || theme == Light
    ensures Toggle(Toggle(theme)) == theme
  {
  }

  /** The provider: the theme in state and the page it has been applied to. */
  datatype Provider = Provider(theme: string, page: Page, disableToggle: bool)

  /** Mounting the provider: initialise the theme, then run the effect. */
  function Mount(page: Page, disableToggle: bool, defaultTheme: string, prefersDark: bool): (p: Provider)
    ensures p.theme == InitialTheme(disableToggle, GetItem(page.store, ThemeKey), defaultTheme)
    ensures p.page == Apply(page, p.theme, disableToggle, prefersDark)
    ensures p.disableToggle == disableToggle
  {
    var theme := InitialTheme(disableToggle, GetItem(page.store, ThemeKey), defaultTheme);
    Provider(theme, Apply(page, theme, disableToggle, prefersDark), disableToggle)
  }

  /** A click on the switch: `setTheme(toggle(theme))`, then the effect. */
  function Click(p: Provider, prefersDark: bool): (q: Provider)
    ensures q.theme == Toggle(p.theme) && q.disableToggle == p.disableToggle
    ensures q.page == Apply(p.page, q.theme, p.disableToggle, prefersDark)
  {
    var theme := Toggle(p.theme);
    p.(theme := theme, page := Apply(p.page, theme, p.disableToggle, prefersDark))
  }

  /** Clicks from mount on, with the media query's answer at each step. */
  function Clicks(p: Provider, prefs: seq<bool>): Provider
    decreases |prefs|
  {
    if prefs == [] then p else Clicks(Click(p, prefs[0]), prefs[1..])
  }

  /** With toggling disabled (as the application mounts it) the page is
      dark and storage untouched, whatever the switch is made to do. */
  lemma {:induction false} DisabledStaysDark(page: Page, defaultTheme: string, prefersDark: bool, prefs: seq<bool>)
    ensures var p := Clicks(Mount(page, true, defaultTheme, prefersDark), prefs);
      && Dark in p.page.classes && Light !in p.page.classes
      && p.page.store == page.store
  {
    DisabledClicks(Mount(page, true, defaultTheme, prefersDark), prefs, page.store);
  }

  lemma {:induction false} DisabledClicks(p: Provider, prefs: seq<bool>, store: Store)
    requires p.disableToggle && Dark in p.page.classes && Light !in p.page.classes && p.page.store == store
    ensures var q := Clicks(p, prefs);
      Dark in q.page.classes && Light !in q.page.classes && q.page.store == store
    decreases |prefs|
  {
    if prefs != [] {
      DisabledClicks(Click(p, prefs[0]), prefs[1..], store);
    }
  }
}
